=== FILE: README.md ===
# SAPIENS multi-agent platform: a verified model of its core

SAPIENS is an academic data-analysis platform. A crew of language-model agents analyses a research topic
together with the data files a researcher supplies. This project is a Dafny model of the platform's
deterministic core, together with proofs about it:

- **Security validator** (`SecurityValidator`). It admits one file through a fixed sequence of checks:
  1. existence;
  2. the extension block-list, then the allow-list;
  3. regular file;
  4. the MIME allow-list;
  5. the size ceiling with an 80 % warning;
  6. the personal-data (PII) scan;
  7. the quality of tabular content;
  8. the SHA-256 hash.

  It also covers batch validation and the text of the security report.
- **CSV search tool** (`CsvSearch`). Column filters, then numeric condition filters, then a free-text search,
  then truncation to `max_results` rows; plus the description of the filters applied.
- **Academic audit logger** (`AcademicLogger`). An append-only list of audit events, the routing of each event
  by severity, the fixed event wrappers, per-type statistics, the session duration, the timing decorator, and
  the logger-registry guard that leaves a second auditor without its audit sink.
- **Data-validation tool** (`DataValidation`). Existence, a size ceiling, a MIME-or-extension acceptance rule,
  and a scan of the first 1024 bytes for words that suggest personal data.
- **PDF and DOCX search tools** (`PdfSearch`, `DocxSearch`). The page-range parser, text extraction, term
  search with context lines or matching sentences, the search of table cells, and the document summary.
- **CSV processor** (`CsvProcessor`). The separator probe, the per-dtype column counts with per-column
  details, and the missing-value summary.
- **The two web front ends** (`Analyses`, `WebApp`, `ApiIndex`). The upload extension rule and the in-memory
  table of analyses:
  - the Flask interface admits links and uploads through the validator, then a background worker moves the
    record through its states;
  - the serverless API runs the crew synchronously;
  - both have a status lookup, and the interface also reports statistics.

Everything the operating system or a foreign library reports is a value given to the model. This covers
existence, `stat`, libmagic, the decoded text, the pandas parse, the SHA-256 digest, a page's extracted text,
an HTTP download and the crew's outcome. The regular-expression engine of the PII scan and the DOCX sentence
split are function parameters. Clocks and identifiers are parameters too. Objects the source updates in place
are classes:
- the auditor and the logging registry;
- the web interface with its table of analyses;
- the serverless application with its module-level table.

Where a step keeps state in a loop, the model has a method, proved against a function that specifies it.

`Util` holds shared helpers: Option, order-preserving filtering, subsequences, pandas' `head`, counting and
map sums. `Text` holds the Python `str` operations the tools use: `lower`, `strip`, `in`, `split`, `rfind`,
`int()`, `float()`, `basename` and string ordering.

## Model

| member | source | states |
|---|---|---|
| SecurityValidator.Suffix | src/Sapiens_MultiAgente/tools/security_validator.py:134 | the suffix is empty or a single dot followed by dot-free text, at least two characters long, ending the file name and shorter than it; a name without a dot has none |
| SecurityValidator.SuffixAt | src/Sapiens_MultiAgente/tools/security_validator.py:134 | with the name's last dot at i, the suffix is the name from i, or empty when that dot leads or ends the name |
| SecurityValidator.BasicCheck | src/Sapiens_MultiAgente/tools/security_validator.py:128-158 | a blocked extension gives exactly the block error, then one not allowed the not-allowed error, then a non-regular file its error; valid iff none of these applies; on success exactly the size, modification date and lowercased suffix facts, on failure none |
| SecurityValidator.MimeCheck | src/Sapiens_MultiAgente/tools/security_validator.py:166-188 | exactly one message; valid iff libmagic answered and its type is on the allow-list (a detection failure invalidates) |
| SecurityValidator.SizeCheckRules | src/Sapiens_MultiAgente/tools/security_validator.py:190-212 | invalid iff the size exceeds the ceiling in MiB; a warning iff the size is above 80 % of the ceiling and within it; at most one message |
| SecurityValidator.Findings | src/Sapiens_MultiAgente/tools/security_validator.py:224-232 | at most one finding per pattern, each with a positive count and min(3, count) examples; no findings iff no pattern matches; FindingAt ties each finding to its matching pattern and FindingForMatchingPattern gives completeness |
| SecurityValidator.FindingsAppend | src/Sapiens_MultiAgente/tools/security_validator.py:225-232 | the scan distributes over a split of the pattern list, so findings keep the pattern order |
| SecurityValidator.FindingForMatchingPattern | src/Sapiens_MultiAgente/tools/security_validator.py:225-232 | every pattern that matches yields its finding: its kind, the number of matches and the first three matches |
| SecurityValidator.FindingAt | src/Sapiens_MultiAgente/tools/security_validator.py:224-232 | finding k comes from a pattern that matched, with its kind, count and first three matches, and exactly k findings come from the patterns before it: only matching patterns are reported, each once, in pattern order |
| SecurityValidator.Kinds | src/Sapiens_MultiAgente/tools/security_validator.py:237 | the kinds listed in the PII warning are the findings' kinds, in order |
| SecurityValidator.AggregatePii | src/Sapiens_MultiAgente/tools/security_validator.py:224-234 | the loop over the given pattern table collects exactly the specified findings, in pattern order |
| SecurityValidator.ScanPii | src/Sapiens_MultiAgente/tools/security_validator.py:214-242 | an unreadable file gives no findings and a scan-failure warning; otherwise the findings, with one warning listing their kinds iff there are any |
| SecurityValidator.DetectPii | src/Sapiens_MultiAgente/tools/security_validator.py:214-242 | the scan, calling the aggregation loop, yields exactly the specified findings and warnings |
| SecurityValidator.DuplicatedEmptyIffDistinct | src/Sapiens_MultiAgente/tools/security_validator.py:277-279 | the duplicated-column list is empty iff the column names are distinct |
| SecurityValidator.MissingWarning | src/Sapiens_MultiAgente/tools/security_validator.py:259-274 | at most one warning, and only when more than 20 % of a non-empty table is missing |
| SecurityValidator.MissingTiers | src/Sapiens_MultiAgente/tools/security_validator.py:271-274 | above 50 % the "many missing" warning, above 20 % up to 50 % the "significant" one, otherwise none |
| SecurityValidator.ContentCheck | src/Sapiens_MultiAgente/tools/security_validator.py:244-285 | valid iff no error; other suffixes pass untouched; an unreadable .csv/.xlsx/.xls table is invalid with exactly the read-failure error; a readable one is valid and warned with the missing-data tier followed by the duplicate-columns warning when some name repeats |
| SecurityValidator.ContentWarningsMeaning | src/Sapiens_MultiAgente/tools/security_validator.py:261-279 | for a readable data table: a duplicate-columns warning iff a column name repeats, carrying the repeated names; "many missing" above 50 % of the cells, "significant" above 20 % up to 50 %, and no missing-data warning otherwise or for a table without cells |
| SecurityValidator.ValidateFile | src/Sapiens_MultiAgente/tools/security_validator.py:52-126 | the imperative validation builds exactly the result the staged specification `Validation` describes |
| SecurityValidator.MergeCheck | src/Sapiens_MultiAgente/tools/security_validator.py:87-101 | a failing check clears the verdict and adds its errors; a passing one adds its warnings |
| SecurityValidator.MergePii | src/Sapiens_MultiAgente/tools/security_validator.py:103-107 | when PII checking is on, the scan's warnings and the `pii_encontrada` fact are added; otherwise nothing |
| SecurityValidator.MergeContent | src/Sapiens_MultiAgente/tools/security_validator.py:109-115 | a data file's content check is folded in: its failure clears the verdict and adds its errors, its warnings are added either way |
| SecurityValidator.ValidIffNoErrors | src/Sapiens_MultiAgente/tools/security_validator.py:62-126 | a validation result is valid iff its error list is empty |
| SecurityValidator.MissingFileFailsAlone | src/Sapiens_MultiAgente/tools/security_validator.py:73-76 | a missing file fails with the single not-found error and nothing else |
| SecurityValidator.BlockedExtensionWins | src/Sapiens_MultiAgente/tools/security_validator.py:136-139 | a blocked extension fails with only that error, before the allow-list and every later stage |
| SecurityValidator.ExtensionNotAllowedFails | src/Sapiens_MultiAgente/tools/security_validator.py:141-144 | an extension neither blocked nor allowed fails with only that error |
| SecurityValidator.LaterChecksDoNotShortCircuit | src/Sapiens_MultiAgente/tools/security_validator.py:87-119 | after the basic check every stage runs: a MIME failure and a size failure are both reported, and the hash is always the last fact recorded |
| SecurityValidator.PiiNeverDecidesValidity | src/Sapiens_MultiAgente/tools/security_validator.py:103-107 | the PII switch, the text read and the regex engine change neither validity nor errors |
| SecurityValidator.ContentReadFailureInvalidates | src/Sapiens_MultiAgente/tools/security_validator.py:109-115 | an unreadable table invalidates a .csv/.xlsx/.xls file, and never a file of another type |
| SecurityValidator.ValidCount | src/Sapiens_MultiAgente/tools/security_validator.py:313-316 | the valid count never exceeds the number of results |
| SecurityValidator.Validations | src/Sapiens_MultiAgente/tools/security_validator.py:309-311 | one validation result per file, each the single-file validation of that file, in input order |
| SecurityValidator.ValidateEach | src/Sapiens_MultiAgente/tools/security_validator.py:309-316 | the batch loop yields every file's result in order, the valid counter is the number of valid results, and valid + invalid is the number of files |
| SecurityValidator.ValidateMany | src/Sapiens_MultiAgente/tools/security_validator.py:299-320 | an empty batch raises the division by zero; otherwise each file's result in order, the valid count, valid + invalid = total, and the success rate is valid/total·100 |
| SecurityValidator.IssueBullets | src/Sapiens_MultiAgente/tools/security_validator.py:335-336 | one bullet per issue, in order |
| SecurityValidator.InfoBullets | src/Sapiens_MultiAgente/tools/security_validator.py:347-348 | one "key: value" bullet per fact, in order |
| SecurityValidator.AppendIssueSection | src/Sapiens_MultiAgente/tools/security_validator.py:333-343 | the loop appends the section header, its bullets and a blank line, or nothing for an empty list |
| SecurityValidator.AppendInfoSection | src/Sapiens_MultiAgente/tools/security_validator.py:345-349 | the same for the information section |
| SecurityValidator.SecurityReport | src/Sapiens_MultiAgente/tools/security_validator.py:322-353 | the report is the fixed header, status line, the three sections in order and the closing rule |
| SecurityValidator.ReportSections | src/Sapiens_MultiAgente/tools/security_validator.py:333-349 | a section header appears iff its list is non-empty, and every error appears as a bullet |
| CsvSearch.ColumnStep | src/Sapiens_MultiAgente/tools/csv_search_tool.py:123-129 | one column filter keeps the header |
| CsvSearch.ColumnFiltered | src/Sapiens_MultiAgente/tools/csv_search_tool.py:121-130 | the column filters keep the header |
| CsvSearch.ApplyColumnFilters | src/Sapiens_MultiAgente/tools/csv_search_tool.py:121-130 | the loop over the filters computes the specified filtered table |
| CsvSearch.ColumnFilteredKeeps | src/Sapiens_MultiAgente/tools/csv_search_tool.py:121-130 | a row survives iff it was in the table and passes every filter on a present column (filters on absent columns are ignored) |
| CsvSearch.ColumnFilteredIsSubseq | src/Sapiens_MultiAgente/tools/csv_search_tool.py:121-130 | the surviving rows are a subsequence of the input, in order |
| CsvSearch.MissingMatchesTextNan | src/Sapiens_MultiAgente/tools/csv_search_tool.py:125-129 | a case-insensitive filter "NaN" matches missing cells (their string form is "nan"); a case-sensitive one does not |
| CsvSearch.GreaterOrEqualNeverParses | src/Sapiens_MultiAgente/tools/csv_search_tool.py:142-153 | ">=" and "<=" conditions are caught by the ">" and "<" branches, whose threshold then fails to parse, so they never filter and no condition is read as ≥ or ≤ |
| CsvSearch.DoubleEqualsMeansEquality | src/Sapiens_MultiAgente/tools/csv_search_tool.py:154-156 | "==n" is equality with n |
| CsvSearch.BareNumberMeansEquality | src/Sapiens_MultiAgente/tools/csv_search_tool.py:160-163 | a bare number is equality with it |
| CsvSearch.CoerceRow | src/Sapiens_MultiAgente/tools/csv_search_tool.py:138-139 | coercion changes only the filtered column's cell of a row |
| CsvSearch.CoerceColumn | src/Sapiens_MultiAgente/tools/csv_search_tool.py:137-139 | coercing a column keeps the header and the rows and makes the column numeric |
| CsvSearch.NumericStep | src/Sapiens_MultiAgente/tools/csv_search_tool.py:134-167 | one numeric filter keeps the header; NumericStepTracks gives which rows survive |
| CsvSearch.NumericFiltered | src/Sapiens_MultiAgente/tools/csv_search_tool.py:132-168 | the numeric filters keep the header; NumericFilteredTracks and NumericFilteredKeeps give which rows survive |
| CsvSearch.ApplyNumericFilters | src/Sapiens_MultiAgente/tools/csv_search_tool.py:132-168 | the loop over the filters computes the specified filtered table |
| CsvSearch.NumericStepIsSubseq | src/Sapiens_MultiAgente/tools/csv_search_tool.py:134-167 | one numeric filter keeps a subsequence of the rows, in order |
| CsvSearch.NumericFilteredIsSubseq | src/Sapiens_MultiAgente/tools/csv_search_tool.py:132-168 | all numeric filters keep a subsequence of the rows, in order |
| CsvSearch.MissingKeptOnlyByNotEqual | src/Sapiens_MultiAgente/tools/csv_search_tool.py:141-163 | a row whose (coerced) cell is missing survives a parsed condition iff the condition is "!=" |
| CsvSearch.SkippedFilterKeepsRows | src/Sapiens_MultiAgente/tools/csv_search_tool.py:165-167 | a condition that does not parse is skipped: every row is kept |
| CsvSearch.CoercionTracks | src/Sapiens_MultiAgente/tools/csv_search_tool.py:137-139 | coercing a column keeps each row as a version with the same id and the same coerced cells, its filtered cell coerced |
| CsvSearch.NumericStepTracks | src/Sapiens_MultiAgente/tools/csv_search_tool.py:134-167 | through one numeric filter a row survives, with the same coerced cells, iff its coerced cell satisfies the parsed condition (or the filter is skipped); otherwise no row with its id is left |
| CsvSearch.NumericFilteredTracks | src/Sapiens_MultiAgente/tools/csv_search_tool.py:132-168 | through all numeric filters a row survives, with the same coerced cells, iff it passes each of them; otherwise its id is gone |
| CsvSearch.NumericFilteredKeeps | src/Sapiens_MultiAgente/tools/csv_search_tool.py:132-168 | a row (by its id) is in the result of the numeric filters iff it passes every filter on a present column whose condition parses |
| CsvSearch.PassesSameCoerced | src/Sapiens_MultiAgente/tools/csv_search_tool.py:141-163 | rows with the same coerced cells pass the same numeric filters |
| CsvSearch.TextSearch | src/Sapiens_MultiAgente/tools/csv_search_tool.py:170-181 | a row survives iff the string form of one of its cells under the header (a short row's missing cells read "nan") contains the query, both lowercased unless case-sensitive; order kept |
| CsvSearch.ColumnLines | src/Sapiens_MultiAgente/tools/csv_search_tool.py:192-194 | one description line per column filter, in order |
| CsvSearch.NumericLines | src/Sapiens_MultiAgente/tools/csv_search_tool.py:196-198 | one description line per numeric filter, in order |
| CsvSearch.FormatFilters | src/Sapiens_MultiAgente/tools/csv_search_tool.py:183-203 | the text line (if any), the column lines and the numeric lines, or the single "no filter" line when there are none |
| CsvSearch.FilterDescriptionShape | src/Sapiens_MultiAgente/tools/csv_search_tool.py:183-203 | the "no filter" line appears iff no filter was given; the text line comes first; the number of lines is max(1, number of filters) |
| CsvSearch.PipelineIsSubseq | src/Sapiens_MultiAgente/tools/csv_search_tool.py:63-73 | the three stages together keep a subsequence of the file's rows, in file order |
| CsvSearch.RunErrorsAndNoResults | src/Sapiens_MultiAgente/tools/csv_search_tool.py:51-78 | a missing file, an empty file and an empty filter result give their fixed answers (the last with the filter description and the original row count) |
| CsvSearch.RunTruncates | src/Sapiens_MultiAgente/tools/csv_search_tool.py:75-94 | a non-empty result reports both row counts and shows the first max_results filtered rows, flagged as limited iff more were found; the rows shown come from the file in order |
| AcademicLogger.SeverityOf | src/Sapiens_MultiAgente/tools/academic_logger.py:140-160 | critical iff the type is in the high list; warning iff it is only in the medium list; info otherwise |
| AcademicLogger.OrEmpty | src/Sapiens_MultiAgente/tools/academic_logger.py:123-124 | an absent payload is recorded as empty, a present one as given |
| AcademicLogger.LoggingRegistry.constructor | src/Sapiens_MultiAgente/tools/academic_logger.py:39-44 | a fresh process has no handlers on either logger |
| AcademicLogger.Auditor.constructor | src/Sapiens_MultiAgente/tools/academic_logger.py:15-22 | user "sistema", no events; the audit sink is bound iff the main logger had no handlers, which then gets two and the audit logger one more |
| AcademicLogger.Auditor.MakeEvent | src/Sapiens_MultiAgente/tools/academic_logger.py:119-134 | the event carries the session, the user, the type, the payloads (absent ones empty), the clock, and "localhost" / "SAPIENS-System" when not given |
| AcademicLogger.Auditor.Audit | src/Sapiens_MultiAgente/tools/academic_logger.py:107-163 | the event is always appended first; with a bound sink it is routed by severity and logged, and without one the call raises and logs nothing |
| AcademicLogger.Auditor.StartAnalysis | src/Sapiens_MultiAgente/tools/academic_logger.py:165-174 | appends exactly the "inicio_analise" event with the topic and the data provided; with a sink both logs gain its record, without one neither log changes and the call raises |
| AcademicLogger.Auditor.DataValidated | src/Sapiens_MultiAgente/tools/academic_logger.py:176-182 | appends exactly the "validacao_dados" event; with a sink both logs gain its record, without one neither log changes and the call raises |
| AcademicLogger.Auditor.RecordError | src/Sapiens_MultiAgente/tools/academic_logger.py:184-194 | appends exactly the "erro_sistema" event with the error type, message and context; with a sink both logs gain its record, without one neither log changes and the call raises |
| AcademicLogger.Auditor.FinishAnalysis | src/Sapiens_MultiAgente/tools/academic_logger.py:196-202 | appends exactly the "resultado_analise" event, whose output has the success flag and the results (null when absent); with a sink both logs gain its record, without one neither log changes and the call raises |
| AcademicLogger.Auditor.CountByType | src/Sapiens_MultiAgente/tools/academic_logger.py:214-220 | the keys are exactly the event types seen; each count is that type's number of occurrences; the counts sum to the number of events |
| AcademicLogger.Auditor.Statistics | src/Sapiens_MultiAgente/tools/academic_logger.py:204-212 | session, user and total; the per-type counts sum to the total; the session time is the specified span |
| AcademicLogger.Auditor.TimedCall | src/Sapiens_MultiAgente/tools/academic_logger.py:274-297 | a call that returns adds its "execucao_" event; one that raises adds the error event and the "erro_" event and re-raises; each path's audit and general log records are stated; without a sink the decorator raises AttributeError after appending the "execucao_" event and the AttributeError "erro_sistema" event (or, for a raising call, its "erro_sistema" event alone), and neither log changes |
| AcademicLogger.MinTimestamp | src/Sapiens_MultiAgente/tools/academic_logger.py:227 | the earliest timestamp: no event is earlier and some event has it |
| AcademicLogger.MaxTimestamp | src/Sapiens_MultiAgente/tools/academic_logger.py:228 | the latest timestamp: no event is later and some event has it |
| AcademicLogger.SessionMinutes | src/Sapiens_MultiAgente/tools/academic_logger.py:222-236 | zero without events, never negative; SessionMinutesValue gives its value, (latest − earliest)/60 |
| AcademicLogger.SessionMinutesValue | src/Sapiens_MultiAgente/tools/academic_logger.py:222-236 | sixty times the session minutes is the time from an earliest to a latest event |
| AcademicLogger.SessionSpan | src/Sapiens_MultiAgente/tools/academic_logger.py:222-236 | every event lies within the session span; appending an event never shortens the session |
| AcademicLogger.SecondAuditorIsUnbound | src/Sapiens_MultiAgente/tools/academic_logger.py:42-44 | of two auditors created in one process, the first gets the audit sink (in a fresh process) and the second never does |
| DataValidation.Extension | src/Sapiens_MultiAgente/tools/data_validation_tool.py:48 | the extension is empty or a single dot followed by dot-free text, ending the last path component and shorter than it; a component without a dot has none |
| DataValidation.ExtensionAt | src/Sapiens_MultiAgente/tools/data_validation_tool.py:48 | with the component's last dot at i, the extension is the component from i, unless only dots come before it |
| DataValidation.IsAccepted | src/Sapiens_MultiAgente/tools/data_validation_tool.py:61-66 | the loop over the accepted-type table accepts exactly what the acceptance rule accepts |
| DataValidation.AcceptedEitherSuffices | src/Sapiens_MultiAgente/tools/data_validation_tool.py:51-66 | a file is accepted iff its MIME type is listed or its extension is listed under any type (the two need not agree) |
| DataValidation.ScannedBytes | src/Sapiens_MultiAgente/tools/data_validation_tool.py:116 | the scan reads min(1024, size) bytes |
| DataValidation.CheckPiiIndicators | src/Sapiens_MultiAgente/tools/data_validation_tool.py:105-132 | the loop collects exactly the specified warnings |
| DataValidation.PresentIndicators | src/Sapiens_MultiAgente/tools/data_validation_tool.py:124-126 | the indicator loop keeps exactly the indicators that occur in the lowered text, in list order |
| DataValidation.PiiFoundMeans | src/Sapiens_MultiAgente/tools/data_validation_tool.py:114-126 | for a scanned type, an indicator is reported iff it occurs in the lowercased first 1024 bytes |
| DataValidation.PiiFoundPrefixOnly | src/Sapiens_MultiAgente/tools/data_validation_tool.py:116-126 | bytes after the first 1024 never change the warnings; the warnings follow the indicator order |
| DataValidation.ValidateOrder | src/Sapiens_MultiAgente/tools/data_validation_tool.py:24-95 | a missing file, then an oversized file, fail first; otherwise the verdict is the acceptance rule; PII warnings never decide validity |
| DataValidation.Validate | src/Sapiens_MultiAgente/tools/data_validation_tool.py:24-95 | a missing file, then an oversized one, fail first; no MIME type fails; a type and extension the rule rejects give "unsupported" with both; valid iff the file exists, fits, has a MIME type and a digest and is accepted, and then carries its base name, size, MIME type, digest and PII warnings |
| DataValidation.UnreadableContentKeepsValid | src/Sapiens_MultiAgente/tools/data_validation_tool.py:128-132 | a scan that cannot read the content leaves a valid outcome valid and only empties its warnings |
| PdfSearch.Range | src/Sapiens_MultiAgente/tools/pdf_search_tool.py:82 | `range(start, end)`: max(0, end − start) consecutive integers from start |
| PdfSearch.AllPages | src/Sapiens_MultiAgente/tools/pdf_search_tool.py:75 | every page index, in order |
| PdfSearch.AllSelectsEveryPage | src/Sapiens_MultiAgente/tools/pdf_search_tool.py:74-75 | no range, an empty one or "all" in any case selects every page |
| PdfSearch.DashRange | src/Sapiens_MultiAgente/tools/pdf_search_tool.py:78-82 | "a-b" selects the 0-based pages from a−1 (at least 0) up to b (at most the page count), in order, possibly none |
| PdfSearch.SinglePage | src/Sapiens_MultiAgente/tools/pdf_search_tool.py:83-85 | a single number selects that page clamped into the document (page 0 for an empty one) |
| PdfSearch.SelectedPagesInRange | src/Sapiens_MultiAgente/tools/pdf_search_tool.py:72-87 | every selected page of a non-empty document exists; an empty one selects nothing or page 0 |
| PdfSearch.LeadingDashFallsBack | src/Sapiens_MultiAgente/tools/pdf_search_tool.py:78-87 | "-n" splits into an empty start, fails to parse and falls back to every page |
| PdfSearch.ExtractOne | src/Sapiens_MultiAgente/tools/pdf_search_tool.py:94-100 | a failing page gives exactly its error entry; a page with text gives an entry iff its stripped text is non-empty, and then exactly its number and stripped text |
| PdfSearch.ExtractAll | src/Sapiens_MultiAgente/tools/pdf_search_tool.py:93-100 | at most one entry per selected page; ExtractAllAt and ExtractEntryFrom tie every entry to ExtractOne of its page and list every page ExtractOne keeps |
| PdfSearch.ExtractAllAppend | src/Sapiens_MultiAgente/tools/pdf_search_tool.py:93-100 | the extraction of two selections one after the other is the two extractions concatenated |
| PdfSearch.ExtractAllAt | src/Sapiens_MultiAgente/tools/pdf_search_tool.py:93-100 | each selected page contributes its own entries in its place, after those of the pages before it and before those of the pages after it (so every failing page is listed) |
| PdfSearch.ExtractEntryFrom | src/Sapiens_MultiAgente/tools/pdf_search_tool.py:93-100 | every entry is the whole contribution of some selected page |
| PdfSearch.ExtractPage | src/Sapiens_MultiAgente/tools/pdf_search_tool.py:94-100 | the page step computes the specified entry |
| PdfSearch.ExtractFullText | src/Sapiens_MultiAgente/tools/pdf_search_tool.py:89-105 | the specified entries, or the "no text extracted" answer when there are none |
| PdfSearch.ExtractNumbers | src/Sapiens_MultiAgente/tools/pdf_search_tool.py:98-100 | one page number per entry |
| PdfSearch.PageNumbers | src/Sapiens_MultiAgente/tools/pdf_search_tool.py:98 | page numbers are the selected indices plus one |
| PdfSearch.ExtractAllOrder | src/Sapiens_MultiAgente/tools/pdf_search_tool.py:93-100 | entries follow the selection order; extracted text is non-empty and stripped on the left |
| PdfSearch.ContextWindow | src/Sapiens_MultiAgente/tools/pdf_search_tool.py:125-127 | the window has 1 to 5 lines and contains the matching line at its offset |
| PdfSearch.Contexts | src/Sapiens_MultiAgente/tools/pdf_search_tool.py:122-128 | at most one window per line |
| PdfSearch.ContextsEmptyIff | src/Sapiens_MultiAgente/tools/pdf_search_tool.py:122-130 | some window is collected iff some examined line contains the lowercased query |
| PdfSearch.SearchOne | src/Sapiens_MultiAgente/tools/pdf_search_tool.py:113-134 | a failing page gives exactly its error entry; a page with text gives an entry iff the text is non-empty, contains the lowercased query and some line matches, and then exactly its number with the windows of its matching lines |
| PdfSearch.SearchAll | src/Sapiens_MultiAgente/tools/pdf_search_tool.py:112-134 | at most one entry per selected page; SearchAllAt and SearchEntryFrom tie every entry to SearchOne of its page and list every page SearchOne keeps |
| PdfSearch.SearchAllAppend | src/Sapiens_MultiAgente/tools/pdf_search_tool.py:112-134 | the search of two selections one after the other is the two searches concatenated |
| PdfSearch.SearchAllAt | src/Sapiens_MultiAgente/tools/pdf_search_tool.py:112-134 | each selected page contributes its own entry in its place, between those of the pages before and after it |
| PdfSearch.SearchEntryFrom | src/Sapiens_MultiAgente/tools/pdf_search_tool.py:112-134 | every entry is the whole contribution of some selected page |
| PdfSearch.MatchingLines | src/Sapiens_MultiAgente/tools/pdf_search_tool.py:119-128 | the line loop collects the specified windows |
| PdfSearch.SearchPage | src/Sapiens_MultiAgente/tools/pdf_search_tool.py:113-134 | the body of the page loop computes the specified entry for one selected page |
| PdfSearch.SearchText | src/Sapiens_MultiAgente/tools/pdf_search_tool.py:107-140 | the lowercased query's entries and their count, or "term not found" when there are none |
| PdfSearch.SearchNumbers | src/Sapiens_MultiAgente/tools/pdf_search_tool.py:131-134 | one page number per entry |
| PdfSearch.SearchAllOrder | src/Sapiens_MultiAgente/tools/pdf_search_tool.py:112-134 | entries follow the selection order; each is an error or has windows |
| PdfSearch.SearchAllSubseq | src/Sapiens_MultiAgente/tools/pdf_search_tool.py:112-134 | the page numbers reported are a subsequence of the selected pages' numbers |
| PdfSearch.SearchAllEntries | src/Sapiens_MultiAgente/tools/pdf_search_tool.py:130-134 | every entry is a page error or holds at least one window |
| PdfSearch.ContextsAreWindows | src/Sapiens_MultiAgente/tools/pdf_search_tool.py:122-128 | every window is the 5-line neighbourhood of a matching line |
| PdfSearch.ContextAt | src/Sapiens_MultiAgente/tools/pdf_search_tool.py:122-128 | the k-th window is the window of some matching line, and that line lies among the lines examined |
| PdfSearch.MatchHasWindow | src/Sapiens_MultiAgente/tools/pdf_search_tool.py:122-128 | every matching line contributes its window |
| PdfSearch.RunDispatch | src/Sapiens_MultiAgente/tools/pdf_search_tool.py:30-70 | missing file, then missing library; then extraction takes precedence over search, and search over the summary |
| DocxSearch.Processed | src/Sapiens_MultiAgente/tools/docx_search_tool.py:72-74 | the loop visits paragraphs until the first index at or past a truthy limit, and no fewer |
| DocxSearch.StopsAtProcessed | src/Sapiens_MultiAgente/tools/docx_search_tool.py:72-74 | a loop index that has reached the end or a truthy limit is where the loop stops |
| DocxSearch.NonBlankParagraphs | src/Sapiens_MultiAgente/tools/docx_search_tool.py:72-78 | at most one entry per visited paragraph; NonBlankParagraphsSound and NonBlankEntryAt give the entries |
| DocxSearch.NonBlankParagraphsSound | src/Sapiens_MultiAgente/tools/docx_search_tool.py:72-78 | each entry is a visited paragraph's 1-based number with its non-empty stripped text |
| DocxSearch.NonBlankParagraphsOrdered | src/Sapiens_MultiAgente/tools/docx_search_tool.py:72-78 | the extracted paragraphs come in strictly increasing paragraph order |
| DocxSearch.NonBlankParagraphExtracted | src/Sapiens_MultiAgente/tools/docx_search_tool.py:72-78 | every visited paragraph with text is extracted |
| DocxSearch.TableInfos | src/Sapiens_MultiAgente/tools/docx_search_tool.py:88-95 | one line per table, numbered from 1, with its dimensions or an error when they cannot be read |
| DocxSearch.DescribeTables | src/Sapiens_MultiAgente/tools/docx_search_tool.py:90-95 | the table loop computes the specified lines |
| DocxSearch.ExtractParagraphs | src/Sapiens_MultiAgente/tools/docx_search_tool.py:72-78 | the paragraph loop, breaking at a truthy limit, extracts exactly the specified paragraphs |
| DocxSearch.ExtractParagraph | src/Sapiens_MultiAgente/tools/docx_search_tool.py:76-78 | one paragraph contributes its stripped text with its number, or nothing when that text is empty |
| DocxSearch.ExtractFullText | src/Sapiens_MultiAgente/tools/docx_search_tool.py:68-97 | the extracted paragraphs with the table lines, or "no text extracted" when there are none |
| DocxSearch.MatchingSentences | src/Sapiens_MultiAgente/tools/docx_search_tool.py:115-117 | at most one sentence per sentence examined; MatchingSentencesAt, MatchPositionsMeans and MatchingSentencesMembers give its contents and order |
| DocxSearch.MatchPositionsMeans | src/Sapiens_MultiAgente/tools/docx_search_tool.py:115-116 | the examined positions whose lowercased sentence contains the query, each listed once, in increasing order |
| DocxSearch.MatchingSentencesAt | src/Sapiens_MultiAgente/tools/docx_search_tool.py:115-117 | entry t is `sentence.strip()` of the t-th matching sentence, so the list keeps exactly the matching sentences in text order |
| DocxSearch.MatchingSentencesMembers | src/Sapiens_MultiAgente/tools/docx_search_tool.py:115-117 | a string is listed iff it is the stripped form of an examined sentence whose lowercase contains the query |
| DocxSearch.ParagraphHits | src/Sapiens_MultiAgente/tools/docx_search_tool.py:104-120 | at most one hit per visited paragraph; ParagraphHitsSound and ParagraphHitReported give the hits |
| DocxSearch.ParagraphHitsSound | src/Sapiens_MultiAgente/tools/docx_search_tool.py:104-120 | each hit is a visited paragraph that mentions the query, and its bullets are exactly that paragraph's non-empty MatchingSentences |
| DocxSearch.ParagraphHitsOrdered | src/Sapiens_MultiAgente/tools/docx_search_tool.py:104-120 | the paragraph hits come in strictly increasing paragraph order |
| DocxSearch.ParagraphHitReported | src/Sapiens_MultiAgente/tools/docx_search_tool.py:104-120 | every visited paragraph that mentions the query and has a matching sentence is reported |
| DocxSearch.MatchSentences | src/Sapiens_MultiAgente/tools/docx_search_tool.py:113-117 | the sentence loop collects the specified sentences |
| DocxSearch.SearchParagraphs | src/Sapiens_MultiAgente/tools/docx_search_tool.py:104-120 | the paragraph loop, breaking at a truthy limit, reports exactly the specified hits for the lowercased query |
| DocxSearch.SearchParagraph | src/Sapiens_MultiAgente/tools/docx_search_tool.py:108-120 | one paragraph contributes one hit with its matching sentences when it mentions the query and some sentence does, else nothing |
| DocxSearch.Readable | src/Sapiens_MultiAgente/tools/docx_search_tool.py:139-146 | the rows read before the first unreadable row ends the table |
| DocxSearch.CellHits | src/Sapiens_MultiAgente/tools/docx_search_tool.py:141-144 | cell hits of one row name this table and row and a valid 1-based cell number |
| DocxSearch.RowHits | src/Sapiens_MultiAgente/tools/docx_search_tool.py:140-144 | cell hits of one table name this table and one of the readable rows |
| DocxSearch.TableHits | src/Sapiens_MultiAgente/tools/docx_search_tool.py:138-148 | cell hits of all tables name one of the tables searched |
| DocxSearch.CellHitsOrdered | src/Sapiens_MultiAgente/tools/docx_search_tool.py:141-144 | the hits of a row come in strictly increasing cell order |
| DocxSearch.RowHitsOrdered | src/Sapiens_MultiAgente/tools/docx_search_tool.py:140-144 | the hits of a table come in row-then-cell order |
| DocxSearch.TableHitsOrdered | src/Sapiens_MultiAgente/tools/docx_search_tool.py:138-148 | the hits of the document come in table-row-cell order |
| DocxSearch.CellHitsSound | src/Sapiens_MultiAgente/tools/docx_search_tool.py:142-144 | every hit of a row is a cell that mentions the query, with its stripped text |
| DocxSearch.RowHitsSound | src/Sapiens_MultiAgente/tools/docx_search_tool.py:140-144 | every hit of a table names a cell of a readable row that mentions the query, with its stripped text |
| DocxSearch.TableHitsSound | src/Sapiens_MultiAgente/tools/docx_search_tool.py:138-148 | the same for the document: every hit is a readable cell that mentions the query |
| DocxSearch.LastTableSound | src/Sapiens_MultiAgente/tools/docx_search_tool.py:138-148 | a hit found in the last table searched is a sound hit of the document |
| DocxSearch.CellHitReported | src/Sapiens_MultiAgente/tools/docx_search_tool.py:138-148 | every readable cell that mentions the query is reported |
| DocxSearch.CellInLastTable | src/Sapiens_MultiAgente/tools/docx_search_tool.py:138-148 | every mentioning readable cell of the last table searched is reported |
| DocxSearch.CellInRow | src/Sapiens_MultiAgente/tools/docx_search_tool.py:140-144 | every matching cell of a readable row is among its table's hits |
| DocxSearch.CellInCells | src/Sapiens_MultiAgente/tools/docx_search_tool.py:141-144 | every matching cell is among its row's hits |
| DocxSearch.SearchRow | src/Sapiens_MultiAgente/tools/docx_search_tool.py:141-144 | the cell loop computes the specified hits |
| DocxSearch.SearchTable | src/Sapiens_MultiAgente/tools/docx_search_tool.py:139-146 | the row loop computes the specified hits and stops at an unreadable row |
| DocxSearch.SearchInTables | src/Sapiens_MultiAgente/tools/docx_search_tool.py:133-148 | the table loop computes the hits for the lowercased query |
| DocxSearch.SearchAllShape | src/Sapiens_MultiAgente/tools/docx_search_tool.py:104-125 | paragraph hits come before table hits; no paragraph hit lies past the limit; the table hits ignore the limit |
| DocxSearch.ParagraphsBeforeTables | src/Sapiens_MultiAgente/tools/docx_search_tool.py:104-125 | no paragraph hit follows a table hit |
| DocxSearch.ParagraphsWithinLimit | src/Sapiens_MultiAgente/tools/docx_search_tool.py:104-106 | every paragraph hit lies before a truthy limit |
| DocxSearch.TablesIgnoreLimit | src/Sapiens_MultiAgente/tools/docx_search_tool.py:122-125 | the hits after the paragraph hits are all the table hits, whatever the limit |
| DocxSearch.SearchText | src/Sapiens_MultiAgente/tools/docx_search_tool.py:99-131 | the lowercased query's hits and their count, or "term not found" when there are none |
| DocxSearch.NonBlankCountIsExtracted | src/Sapiens_MultiAgente/tools/docx_search_tool.py:153 | the summary's paragraph count equals the number of paragraphs an unlimited extraction returns |
| DocxSearch.Cut | src/Sapiens_MultiAgente/tools/docx_search_tool.py:200 | a preview keeps text of up to 200 characters; a longer one becomes its first 200 characters plus "..." |
| DocxSearch.PreviewShape | src/Sapiens_MultiAgente/tools/docx_search_tool.py:196-203 | the preview has one entry per non-blank paragraph among the first three, each at most 203 characters, and every such paragraph appears in it stripped and cut |
| DocxSearch.PreviewEntry | src/Sapiens_MultiAgente/tools/docx_search_tool.py:196-203 | preview entry k is one of the first three paragraphs, non-blank, stripped and cut, with exactly k non-blank paragraphs before it |
| DocxSearch.NonBlankEntryAt | src/Sapiens_MultiAgente/tools/docx_search_tool.py:72-78 | extracted entry k is paragraph i with its number and stripped text, and exactly k entries come from the paragraphs before it |
| DocxSearch.PropertyLines | src/Sapiens_MultiAgente/tools/docx_search_tool.py:170-181 | at most five property lines, each with a value; PropertyLinesInOrder gives which lines, labelled and in order |
| DocxSearch.PropertyLinesInOrder | src/Sapiens_MultiAgente/tools/docx_search_tool.py:170-181 | the lines are the title, author, subject, created and modified properties with their labels, in that order, keeping exactly those that are set |
| DocxSearch.PropertyLine | src/Sapiens_MultiAgente/tools/docx_search_tool.py:172-181 | one property gives a line iff it has a non-empty value, and then exactly its label and value |
| DocxSearch.PropertyLineFiltered | src/Sapiens_MultiAgente/tools/docx_search_tool.py:172-181 | a property's line is its labelled pair, kept iff it has a value |
| DocxSearch.RunDispatch | src/Sapiens_MultiAgente/tools/docx_search_tool.py:30-66 | missing file, then missing library; extraction takes precedence; search iff a non-empty query was given |
| CsvProcessor.ReadAt | src/Sapiens_MultiAgente/tools/csv_processor_tool.py:48 | the reader stands for the whole `nrows=1000` call (it infers dtypes and fails on the rows it reads); the result keeps its header, fails exactly when it fails, holds at most 1000 rows, and is the reader's result when that keeps to the bound |
| CsvProcessor.FirstWide | src/Sapiens_MultiAgente/tools/csv_processor_tool.py:46-53 | the first candidate separator that yields more than one column, if any |
| CsvProcessor.LastParsedFirst | src/Sapiens_MultiAgente/tools/csv_processor_tool.py:46-53 | a candidate that parses replaces the frame kept so far |
| CsvProcessor.ProbeMeaning | src/Sapiens_MultiAgente/tools/csv_processor_tool.py:41-53 | the probe keeps the first multi-column frame with its separator, or else the last frame that parsed and no separator |
| CsvProcessor.ProbeRowsBounded | src/Sapiens_MultiAgente/tools/csv_processor_tool.py:46-53 | the frame kept never has more than 1000 rows |
| CsvProcessor.ProbeSeparators | src/Sapiens_MultiAgente/tools/csv_processor_tool.py:41-53 | the probe loop computes the specified frame and separator |
| CsvProcessor.ColumnValues | src/Sapiens_MultiAgente/tools/csv_processor_tool.py:112-120 | a column's value in every row |
| CsvProcessor.Present | src/Sapiens_MultiAgente/tools/csv_processor_tool.py:120 | `dropna`: exactly the present values |
| CsvProcessor.Detail | src/Sapiens_MultiAgente/tools/csv_processor_tool.py:119-121 | the column's name and dtype; the samples are exactly the first min(3, n) present values; the unique count is the number of distinct present values (`nunique()`), hence at most the number of present values and zero iff none is present |
| CsvProcessor.DistinctPresent | src/Sapiens_MultiAgente/tools/csv_processor_tool.py:120 | the distinct present values are at most the present values, and none iff no value is present |
| CsvProcessor.DistinctCount | src/Sapiens_MultiAgente/tools/csv_processor_tool.py:119 | the number of distinct non-missing cells equals the number of distinct values `dropna()` keeps |
| CsvProcessor.Details | src/Sapiens_MultiAgente/tools/csv_processor_tool.py:112-121 | one detail per column, in order |
| CsvProcessor.DTypes | src/Sapiens_MultiAgente/tools/csv_processor_tool.py:113 | the dtype of each column, in order |
| CsvProcessor.AnalyzeDataTypes | src/Sapiens_MultiAgente/tools/csv_processor_tool.py:107-124 | the counter's keys are exactly the dtypes present, each with its number of columns, summing to the column count; one detail per column |
| CsvProcessor.MissingIn | src/Sapiens_MultiAgente/tools/csv_processor_tool.py:128 | a column's missing count is at most its length; MissingAndPresent gives its value, the length minus the present values, and NoneMissing the zero case |
| CsvProcessor.NoneMissing | src/Sapiens_MultiAgente/tools/csv_processor_tool.py:128 | the missing count is zero iff every value is present |
| CsvProcessor.MissingAndPresent | src/Sapiens_MultiAgente/tools/csv_processor_tool.py:120-128 | missing and present values make up the column |
| CsvProcessor.MissingByColumn | src/Sapiens_MultiAgente/tools/csv_processor_tool.py:135-140 | only columns with a positive missing count are listed; MissingEntryAt and MissingColumnListed give the entries, their order and completeness |
| CsvProcessor.MissingEntryAt | src/Sapiens_MultiAgente/tools/csv_processor_tool.py:135-140 | listed entry k is some column with its name and missing count, with exactly k listed columns before it: only columns with missing values, in column order, each once |
| CsvProcessor.MissingColumnListed | src/Sapiens_MultiAgente/tools/csv_processor_tool.py:135-140 | every column with a missing value is listed with its count, right after the listed columns before it |
| CsvProcessor.MissingByColumnPrefix | src/Sapiens_MultiAgente/tools/csv_processor_tool.py:135-140 | the list for fewer columns is a prefix of the list for more |
| CsvProcessor.MissingListedSum | src/Sapiens_MultiAgente/tools/csv_processor_tool.py:128-140 | the listed counts add up to the total missing |
| CsvProcessor.MissingListedIffAny | src/Sapiens_MultiAgente/tools/csv_processor_tool.py:129-135 | the total is zero iff no column is listed |
| CsvProcessor.AnalyzeMissingValues | src/Sapiens_MultiAgente/tools/csv_processor_tool.py:126-142 | "no missing values" iff the total is zero; otherwise the total and the listed columns |
| CsvProcessor.Process | src/Sapiens_MultiAgente/tools/csv_processor_tool.py:26-105 | unreadable iff the probe kept no frame or an empty one; otherwise the detected separator, dimensions, dtype counts, details, the missing summary (none iff the total is zero, else the total and the listed columns) and the `head(sample_size)` preview of the kept frame |
| CsvProcessor.ReportBounds | src/Sapiens_MultiAgente/tools/csv_processor_tool.py:48-73 | the profiled frame has at most 1000 rows and the preview at most sample_size |
| Analyses.AllowedFileMeans | src/Sapiens_MultiAgente/web/app.py:108-111 | an upload name is allowed iff it has a dot and the text after its last dot, lowercased, is an allowed extension |
| Analyses.AllowedFileLastSuffix | api/index.py:49-52 | only the last suffix counts, in any letter case; a name without a dot is refused |
| WebApp.LinkFilesSound | src/Sapiens_MultiAgente/web/app.py:137-172 | every file kept from the links comes from a non-blank link downloaded with status 200 whose copy the validator passed |
| WebApp.LinkFilesComplete | src/Sapiens_MultiAgente/web/app.py:137-172 | every such link is kept |
| WebApp.UploadFilesSound | src/Sapiens_MultiAgente/web/app.py:175-202 | every uploaded file kept has a non-empty allowed name and passed the validator |
| WebApp.UploadFilesComplete | src/Sapiens_MultiAgente/web/app.py:175-202 | every such upload is kept |
| WebApp.AdmitLinks | src/Sapiens_MultiAgente/web/app.py:137-172 | the link loop, calling the validator, keeps exactly the specified files in order |
| WebApp.AdmitUploads | src/Sapiens_MultiAgente/web/app.py:175-202 | the upload loop, calling the validator, keeps exactly the specified files in order |
| WebApp.WorkerStatesMeaning | src/Sapiens_MultiAgente/web/app.py:275-363 | the worker's states: progress never decreases; identity and files are kept; only the last state is terminal; completed at 100 with results iff the crew returned; failed with the message, the progress and results unchanged iff it raised |
| WebApp.FileCounts | src/Sapiens_MultiAgente/web/app.py:411 | one file count per analysis |
| WebApp.TotalFilesUpdate | src/Sapiens_MultiAgente/web/app.py:217 | storing a new analysis adds its files to the total; updating one without changing its files keeps the total |
| WebApp.CountsOver | src/Sapiens_MultiAgente/web/app.py:411 | the counts restricted to a set of analyses |
| WebApp.TotalFiles | src/Sapiens_MultiAgente/web/app.py:411 | the loop sums every analysis's file count |
| WebApp.Consider | src/Sapiens_MultiAgente/web/app.py:412 | one step of the maximum: the latest start time over the records seen so far and this one |
| WebApp.LatestKept | src/Sapiens_MultiAgente/web/app.py:412 | a record that started no later keeps the latest start time |
| WebApp.LatestReplaced | src/Sapiens_MultiAgente/web/app.py:412 | a record that started later becomes the latest |
| WebApp.LatestStart | src/Sapiens_MultiAgente/web/app.py:412 | none iff there are no analyses; otherwise a start time that some analysis has and that no other exceeds in string order |
| WebApp.WebInterface.constructor | src/Sapiens_MultiAgente/web/app.py:27-47 | an empty table of analyses, with the process-wide auditor |
| WebApp.WebInterface.ProcessAnalysis | src/Sapiens_MultiAgente/web/app.py:113-228 | a blank topic changes nothing; otherwise the start is audited with the file count and id, the record is stored as "files validated" at 25 with the admitted files, and a failure to load the crew is audited and reported back |
| WebApp.WebInterface.RunWorker | src/Sapiens_MultiAgente/web/app.py:275-363 | for a stored id the record goes through the specified states and keeps the last; the error is always audited, the completion only for a stored record; an unknown id is left alone |
| WebApp.WebInterface.PrepareWorker | src/Sapiens_MultiAgente/web/app.py:277-301 | the first two updates, each applied only to a present record: running at 25, then processing data at 50 |
| WebApp.WebInterface.SettleWorker | src/Sapiens_MultiAgente/web/app.py:325-363 | after the crew: report at 90 with the results then completed at 100, audited, for a present record; or the error audited and stored when present |
| WebApp.WebInterface.GetStatus | src/Sapiens_MultiAgente/web/app.py:370-375 | not found iff the id is unknown; otherwise the stored record |
| WebApp.WebInterface.Statistics | src/Sapiens_MultiAgente/web/app.py:407-413 | the number of analyses, the total number of admitted files, and the latest start time (none when empty) |
| ApiIndex.SettleMeaning | api/index.py:155-182 | settling ends completed at 100 with the results iff the crew returned, or failed with its message and unchanged progress; identity is kept |
| ApiIndex.ApiService.constructor | api/index.py:42-47 | an empty table of analyses, with the process-wide auditor |
| ApiIndex.ApiService.Analyze | api/index.py:112-189 | a body that `get_json()` reads as `None` gives 500 and a blank topic 400, changing nothing; otherwise start audited, the record stored at 0 and settled, 200 with the results or 500 with the message, completion or the error audited |
| ApiIndex.ApiService.RunCrew | api/index.py:155-182 | the stored record is settled by the crew; a return is audited as finished and answered with 200 and the results, a raise is audited as an error and answered with 500 |
| ApiIndex.ApiService.ProcessAnalysis | api/index.py:223-283 | a blank topic changes nothing; otherwise the record is stored and settled; the results page on success (not audited), the form with the message on failure (audited) |
| ApiIndex.ApiService.Status | api/index.py:191-197 | 404 iff the id is unknown; otherwise the stored record |

## Left out

- I/O and foreign libraries are inputs, not models. This covers the file system, libmagic, SHA-256, pandas'
  `read_csv`/`read_excel`, PyPDF2, python-docx, `requests` downloads and the crew's `kickoff`.
- Python's regular-expression engine is a parameter: the PII patterns' matches, and the DOCX sentence split
  `(?<=[.!?])\s+`.
- `str.contains` in the CSV text search interprets the query as a regular expression. The model reads it as a
  literal substring.
- Floating-point rendering and arithmetic are left out: pandas' float rendering is the parameter `render`, and
  megabyte figures, rounding and percentages are not computed.
- `float()` is modelled for decimal literals only: no exponent, no "inf"/"nan", no underscores.
- `int()` is modelled for ASCII digits with an optional sign only: no underscores, no other Unicode digits.
- The CSV search renders every numeric cell with one `render` function, so pandas' different rendering of integer
  and float columns (for example "30" against "30.0") is not captured by the text search.
- The CSV profiler's present cells are pandas' renderings of the values it parsed, supplied by the reader
  parameter. How pandas parses and renders a typed column is not modelled.
- `str.lower` lowercases ASCII and Latin-1 letters only, not all of Unicode.
- Messages are datatypes, not formatted strings. The fixed texts are kept only where a contract speaks of them.
- Python's dict print order of the dtype summary is not modelled: the counts are a map.
- `_get_numeric_statistics` of the CSV processor is not modelled: it is pandas' `describe` on floats.
- Neither is the result-statistics block of the CSV search.
- `_get_pdf_info` is modelled only as far as the file name and page count. The metadata and the first-page preview come from PyPDF2.
- The DOCX "preview not available" fallback is not modelled, since reading paragraph text cannot raise in the model.
- Locks, the background thread and interleavings are not modelled. `RunWorker` runs after the request that
  started it, and its `observed` result lists the states a concurrent status lookup could see.
- The 2-second sleep and all timestamps other than the start time are not modelled.
- Flask routing, templates, flash messages, `secure_filename`, temporary-file names and the deletion of
  rejected files are not modelled.
- UUIDs, clocks and session ids are parameters.
- The audit event's ISO timestamp is an integer, with the same order. Session minutes are computed from it.
- The JSON export of the audit trail and the YAML configuration loading are not modelled. The severity lists
  are constructor parameters.
- The process-wide auditor used by both front ends holds the audit sink (`Valid()` requires it). It is the first
  one created in the process.
- The crew's inputs (topic and file paths) are not modelled: its outcome is a parameter.
- The API's records have no `arquivos` key. In the model their file list is empty.
- The API form handler's outer `except` is not modelled: nothing before the crew raises in the model.
- An analysis without a start time cannot occur in the model, so `get_estatisticas`' empty-string default is not modelled.
- "desconhecido" in `_agrupar_eventos_por_tipo` cannot occur: every event has a type.
- WebApp.WebInterface.ProcessAnalysis: exceptions while saving an upload or reading its size are not modelled.
- ApiIndex.ApiService.Analyze: a JSON topic that is not a string is not modelled.
- SecurityValidator.ValidateMany: the success rate is stated over real numbers, not rounded floats.
- PdfSearch.RunDispatch: for the summary branch it states only that the summary is chosen, not what it contains.
- SecurityValidator.BasicCheck: the `Erro na validação básica` path is not modelled; reading the path's suffix and
  status cannot raise in the model.
- CsvProcessor.ReadAt: that pandas infers dtypes and detects parse failures from the first 1000 rows only is part of
  the reader parameter; the model states only the row bound.
- ApiIndex.ApiService.Analyze: a body not sent as JSON, or JSON that is neither an object nor `null`, is not modelled.
  There `get_json()` raises (a 415 error in current Flask) or `.get` fails, and the outer `except` answers 500 with
  that exception's message.

=== FILE: academic_logger.dfy ===
/**
 * The academic audit trail: an append-only list of events kept by an
 * auditor object, severity routing of each event to the audit sink, the
 * fixed event-type wrappers, per-type statistics, the session duration and
 * the timing decorator.
 *
 * The process-wide logging registry (the "sapiens_academico" logger and its
 * handlers) is the class `LoggingRegistry`; the clock is an integer
 * parameter (seconds for event timestamps, milliseconds for durations).
 */
module AcademicLogger {
  import opened Util

  /** JSON-like payload values. */
  datatype Value =
    | VStr(s: string)
    | VBool(b: bool)
    | VInt(i: int)
    | VStrs(ss: seq<string>)
    | VNull
    | VDict(entries: Payload)

  type Payload = seq<(string, Value)>

  datatype Event = Event(
    sessionId: string,
    userId: string,
    eventType: string,
    input: Payload,
    output: Payload,
    elapsedMs: Option<int>,
    ipOrigin: string,
    userAgent: string,
    timestamp: int)

  datatype Severity = Critical | Warning | Info

  /** The high list is consulted first, then the medium list. */
  function SeverityOf(high: seq<string>, medium: seq<string>, eventType: string): (s: Severity)
    ensures s == Critical <==> eventType in high
    ensures s == Warning <==> eventType !in high && eventType in medium
    ensures s == Info <==> eventType !in high && eventType !in medium
  {
    if eventType in high then Critical else if eventType in medium then Warning else Info
  }

  /** An absent payload is recorded as the empty one. */
  function OrEmpty(p: Option<Payload>): (r: Payload)
    ensures p.Some? ==> r == p.value
    ensures p.None? ==> r == []
  {
    match p case None => [] case Some(v) => v
  }

  function OrDefault(s: Option<string>, default: string): string
  {
    match s case None => default case Some(v) => v
  }

  /** Outcome of a wrapped call: a value or an exception (type name and message). */
  datatype CallOutcome<T> = Returned(value: T) | Raised(errorType: string, message: string)

  /** The process-wide logger registry: handler counts of the main and audit loggers. */
  class LoggingRegistry {
    var mainHandlers: nat
    var auditHandlers: nat

    constructor()
      ensures mainHandlers == 0 && auditHandlers == 0
    {
      mainHandlers := 0;
      auditHandlers := 0;
    }
  }

  /** The exception raised when `auditoria_logger` was never bound. */
  const MissingSinkError := "AttributeError"
  const MissingSinkMessage := "'AcademicAuditor' object has no attribute 'auditoria_logger'"

  class Auditor {
    const sessionId: string
    const userId: string
    const high: seq<string>
    const medium: seq<string>
    /** Whether `_setup_logging` got as far as binding the audit logger. */
    const sinkBound: bool
    var events: seq<Event>
    /** Records sent to the audit logger: severity and event type. */
    var auditLog: seq<(Severity, string)>
    /** Event types sent to the main logger. */
    var generalLog: seq<string>

    /**
     * A new auditor. Logging is configured only when the main logger has no
     * handler yet; otherwise setup returns early and the audit logger is never bound.
     */
    constructor(registry: LoggingRegistry, sessionId: string, high: seq<string>, medium: seq<string>)
      modifies registry
      ensures this.sessionId == sessionId && userId == "sistema" && this.high == high && this.medium == medium
      ensures events == [] && auditLog == [] && generalLog == []
      ensures sinkBound == (old(registry.mainHandlers) == 0)
      ensures old(registry.mainHandlers) == 0 ==>
        registry.mainHandlers == 2 && registry.auditHandlers == old(registry.auditHandlers) + 1
      ensures old(registry.mainHandlers) != 0 ==>
        registry.mainHandlers == old(registry.mainHandlers) && registry.auditHandlers == old(registry.auditHandlers)
    {
      this.sessionId := sessionId;
      userId := "sistema";
      this.high := high;
      this.medium := medium;
      if registry.mainHandlers == 0 {
        registry.mainHandlers := registry.mainHandlers + 2;
        registry.auditHandlers := registry.auditHandlers + 1;
        sinkBound := true;
      } else {
        sinkBound := false;
      }
      events := [];
      auditLog := [];
      generalLog := [];
    }

    function MakeEvent(eventType: string, input: Option<Payload>, output: Option<Payload>, elapsedMs: Option<int>,
                       ip: Option<string>, agent: Option<string>, now: int): (e: Event)
      ensures e.sessionId == sessionId && e.userId == userId && e.eventType == eventType
      ensures e.input == OrEmpty(input) && e.output == OrEmpty(output) && e.timestamp == now
      ensures e.ipOrigin == OrDefault(ip, "localhost") && e.userAgent == OrDefault(agent, "SAPIENS-System")
    {
      Event(sessionId, userId, eventType, OrEmpty(input), OrEmpty(output), elapsedMs,
            OrDefault(ip, "localhost"), OrDefault(agent, "SAPIENS-System"), now)
    }

    /**
     * `auditar_evento`: appends one event, then routes it by severity. The
     * `level` argument plays no part. When the audit logger was never bound the
     * event is still appended and the call then raises (`raised`).
     */
    method Audit(eventType: string, level: string, input: Option<Payload>, output: Option<Payload>, elapsedMs: Option<int>,
                 ip: Option<string>, agent: Option<string>, now: int) returns (raised: bool)
      modifies this
      ensures events == old(events) + [MakeEvent(eventType, input, output, elapsedMs, ip, agent, now)]
      ensures raised == !sinkBound
      ensures !raised ==> (auditLog == old(auditLog) + [(SeverityOf(high, medium, eventType), eventType)]
                           && generalLog == old(generalLog) + [eventType])
      ensures raised ==> auditLog == old(auditLog) && generalLog == old(generalLog)
    {
      var e := MakeEvent(eventType, input, output, elapsedMs, ip, agent, now);
      events := events + [e];
      if !sinkBound {
        return true;
      }
      var severity: Severity;
      if eventType in high {
        severity := Critical;
      } else if eventType in medium {
        severity := Warning;
      } else {
        severity := Info;
      }
      auditLog := auditLog + [(severity, eventType)];
      generalLog := generalLog + [eventType];
      raised := false;
    }

    /** `iniciar_analise`. */
    method StartAnalysis(topic: string, provided: Option<Payload>, now: int) returns (raised: bool)
      modifies this
      ensures events == old(events) + [Event(sessionId, userId, "inicio_analise",
        [("topico_pesquisa", VStr(topic)), ("dados_fornecidos", VDict(OrEmpty(provided)))], [], None,
        "localhost", "SAPIENS-System", now)]
      ensures raised == !sinkBound
      ensures !raised ==> auditLog == old(auditLog) + [(SeverityOf(high, medium, "inicio_analise"), "inicio_analise")]
                          && generalLog == old(generalLog) + ["inicio_analise"]
      ensures raised ==> auditLog == old(auditLog) && generalLog == old(generalLog)
    {
      raised := Audit("inicio_analise", "INFO",
        Some([("topico_pesquisa", VStr(topic)), ("dados_fornecidos", VDict(OrEmpty(provided)))]), None, None, None, None, now);
    }

    /** `validar_dados`. */
    method DataValidated(valid: bool, details: string, now: int) returns (raised: bool)
      modifies this
      ensures events == old(events) + [Event(sessionId, userId, "validacao_dados",
        [("dados_validos", VBool(valid)), ("detalhes", VStr(details))], [], None, "localhost", "SAPIENS-System", now)]
      ensures raised == !sinkBound
      ensures !raised ==> auditLog == old(auditLog) + [(SeverityOf(high, medium, "validacao_dados"), "validacao_dados")]
                          && generalLog == old(generalLog) + ["validacao_dados"]
      ensures raised ==> auditLog == old(auditLog) && generalLog == old(generalLog)
    {
      raised := Audit("validacao_dados", if valid then "INFO" else "WARNING",
        Some([("dados_validos", VBool(valid)), ("detalhes", VStr(details))]), None, None, None, None, now);
    }

    /** `registrar_erro`: the exception's type name and message, and the context. */
    method RecordError(errorType: string, message: string, context: string, now: int) returns (raised: bool)
      modifies this
      ensures events == old(events) + [Event(sessionId, userId, "erro_sistema",
        [("erro_tipo", VStr(errorType)), ("erro_mensagem", VStr(message)), ("contexto", VStr(context))], [], None,
        "localhost", "SAPIENS-System", now)]
      ensures raised == !sinkBound
      ensures !raised ==> auditLog == old(auditLog) + [(SeverityOf(high, medium, "erro_sistema"), "erro_sistema")]
                          && generalLog == old(generalLog) + ["erro_sistema"]
      ensures raised ==> auditLog == old(auditLog) && generalLog == old(generalLog)
    {
      raised := Audit("erro_sistema", "ERROR",
        Some([("erro_tipo", VStr(errorType)), ("erro_mensagem", VStr(message)), ("contexto", VStr(context))]),
        None, None, None, None, now);
    }

    /** `finalizar_analise`: absent results are recorded as null. */
    method FinishAnalysis(success: bool, results: Option<Payload>, now: int) returns (raised: bool)
      modifies this
      ensures events == old(events) + [Event(sessionId, userId, "resultado_analise", [],
        [("sucesso", VBool(success)), ("resultados_resumo", match results case None => VNull case Some(p) => VDict(p))],
        None, "localhost", "SAPIENS-System", now)]
      ensures raised == !sinkBound
      ensures !raised ==> auditLog == old(auditLog) + [(SeverityOf(high, medium, "resultado_analise"), "resultado_analise")]
                          && generalLog == old(generalLog) + ["resultado_analise"]
      ensures raised ==> auditLog == old(auditLog) && generalLog == old(generalLog)
    {
      raised := Audit("resultado_analise", if success then "INFO" else "ERROR", None,
        Some([("sucesso", VBool(success)), ("resultados_resumo", match results case None => VNull case Some(p) => VDict(p))]),
        None, None, None, now);
    }

    /** `_agrupar_eventos_por_tipo`: one counter per event type, incremented in a loop. */
    method CountByType() returns (counts: map<string, nat>)
      ensures forall t :: t in counts <==> t in Types(events)
      ensures forall t :: t in counts ==> counts[t] == Count(Types(events), t)
      ensures SumValues(counts) == |events|
    {
      counts := map[];
      ghost var types := Types(events);
      for i := 0 to |events|
        invariant Tallies(counts, types[..i])
      {
        var t := events[i].eventType;
        SliceStep(types, i);
        CounterStep(counts, types[..i], t);
        counts := counts[t := (if t in counts then counts[t] else 0) + 1];
      }
      assert types[..|events|] == types;
    }

    /** `get_estatisticas_auditoria`. */
    method Statistics() returns (s: AuditStats)
      ensures s.sessionId == sessionId && s.userId == userId && s.total == |events|
      ensures SumValues(s.byType) == s.total
      ensures forall t :: t in s.byType <==> t in Types(events)
      ensures s.minutes == SessionMinutes(events)
    {
      var counts := CountByType();
      s := AuditStats(sessionId, |events|, counts, SessionMinutes(events), userId);
    }

    /**
     * `auditar_tempo_execucao` around a call of `name` that produced `outcome`
     * between `startMs` and `endMs`. On success one `execucao_<name>` event;
     * on failure `erro_sistema` then `erro_<name>`, and the exception is re-raised.
     * With an unbound audit logger, the first audit raises and the error path
     * stops at the first raise.
     */
    method TimedCall<T>(name: string, outcome: CallOutcome<T>, argsCount: nat, kwargsKeys: seq<string>,
                        startMs: int, endMs: int, now: int) returns (result: CallOutcome<T>)
      modifies this
      ensures sinkBound && outcome.Returned? ==>
        result == outcome
        && events == old(events) + [Event(sessionId, userId, "execucao_" + name,
             [("args_count", VInt(argsCount)), ("kwargs_keys", VStrs(kwargsKeys))], [], Some(endMs - startMs),
             "localhost", "SAPIENS-System", now)]
      ensures sinkBound && outcome.Raised? ==>
        result == outcome
        && events == old(events) + [
             Event(sessionId, userId, "erro_sistema",
               [("erro_tipo", VStr(outcome.errorType)), ("erro_mensagem", VStr(outcome.message)), ("contexto", VStr(name))],
               [], None, "localhost", "SAPIENS-System", now),
             Event(sessionId, userId, "erro_" + name, [("erro", VStr(outcome.message))], [], Some(endMs - startMs),
               "localhost", "SAPIENS-System", now)]
      ensures sinkBound && outcome.Returned? ==>
        auditLog == old(auditLog) + [(SeverityOf(high, medium, "execucao_" + name), "execucao_" + name)]
        && generalLog == old(generalLog) + ["execucao_" + name]
      ensures sinkBound && outcome.Raised? ==>
        auditLog == old(auditLog) + [(SeverityOf(high, medium, "erro_sistema"), "erro_sistema"),
                                     (SeverityOf(high, medium, "erro_" + name), "erro_" + name)]
        && generalLog == old(generalLog) + ["erro_sistema", "erro_" + name]
      ensures sinkBound ==> |events| == |old(events)| + (if outcome.Returned? then 1 else 2)
      ensures !sinkBound ==> result == Raised(MissingSinkError, MissingSinkMessage)
      ensures !sinkBound && outcome.Returned? ==>
        events == old(events) + [
          Event(sessionId, userId, "execucao_" + name,
            [("args_count", VInt(argsCount)), ("kwargs_keys", VStrs(kwargsKeys))], [], Some(endMs - startMs),
            "localhost", "SAPIENS-System", now),
          Event(sessionId, userId, "erro_sistema",
            [("erro_tipo", VStr(MissingSinkError)), ("erro_mensagem", VStr(MissingSinkMessage)), ("contexto", VStr(name))],
            [], None, "localhost", "SAPIENS-System", now)]
      ensures !sinkBound && outcome.Raised? ==>
        events == old(events) + [
          Event(sessionId, userId, "erro_sistema",
            [("erro_tipo", VStr(outcome.errorType)), ("erro_mensagem", VStr(outcome.message)), ("contexto", VStr(name))],
            [], None, "localhost", "SAPIENS-System", now)]
      ensures !sinkBound ==> |events| == |old(events)| + (if outcome.Returned? then 2 else 1)
      ensures !sinkBound ==> auditLog == old(auditLog) && generalLog == old(generalLog)
    {
      match outcome {
        case Returned(_) =>
          var raised := Audit("execucao_" + name, "INFO",
            Some([("args_count", VInt(argsCount)), ("kwargs_keys", VStrs(kwargsKeys))]), None, Some(endMs - startMs),
            None, None, now);
          if !raised {
            return outcome;
          }
          // The audit raised inside the try block: the except branch handles it.
          var raisedAgain := RecordError(MissingSinkError, MissingSinkMessage, name, now);
          result := Raised(MissingSinkError, MissingSinkMessage);
        case Raised(errorType, message) =>
          var raised := RecordError(errorType, message, name, now);
          if raised {
            return Raised(MissingSinkError, MissingSinkMessage);
          }
          raised := Audit("erro_" + name, "INFO", Some([("erro", VStr(message))]), None, Some(endMs - startMs), None, None, now);
          result := outcome;
      }
    }
  }

  datatype AuditStats = AuditStats(sessionId: string, total: nat, byType: map<string, nat>, minutes: real, userId: string)

  function Types(events: seq<Event>): (r: seq<string>)
    ensures |r| == |events| && forall k :: 0 <= k < |events| ==> r[k] == events[k].eventType
  {
    seq(|events|, k requires 0 <= k < |events| => events[k].eventType)
  }

  /** Earliest timestamp. */
  function MinTimestamp(events: seq<Event>): (m: int)
    requires events != []
    ensures forall k :: 0 <= k < |events| ==> m <= events[k].timestamp
    ensures exists k :: 0 <= k < |events| && m == events[k].timestamp
  {
    if |events| == 1 then events[0].timestamp
    else
      var rest := MinTimestamp(events[1..]);
      assert forall k :: 1 <= k < |events| ==> events[k] == events[1..][k - 1];
      if events[0].timestamp <= rest then events[0].timestamp else rest
  }

  /** Latest timestamp. */
  function MaxTimestamp(events: seq<Event>): (m: int)
    requires events != []
    ensures forall k :: 0 <= k < |events| ==> events[k].timestamp <= m
    ensures exists k :: 0 <= k < |events| && m == events[k].timestamp
  {
    if |events| == 1 then events[0].timestamp
    else
      var rest := MaxTimestamp(events[1..]);
      assert forall k :: 1 <= k < |events| ==> events[k] == events[1..][k - 1];
      if events[0].timestamp >= rest then events[0].timestamp else rest
  }

  /** `_calcular_tempo_sessao`: minutes between the earliest and the latest event, 0 without events. */
  function SessionMinutes(events: seq<Event>): (r: real)
    ensures events == [] ==> r == 0.0
    ensures r >= 0.0
  {
    if events == [] then 0.0
    else (MaxTimestamp(events) - MinTimestamp(events)) as real / 60.0
  }

  /** The session lasts, in minutes, from an earliest event `i` to a latest event `j`. */
  lemma SessionMinutesValue(events: seq<Event>) returns (i: nat, j: nat)
    requires events != []
    ensures i < |events| && j < |events|
    ensures forall k :: 0 <= k < |events| ==> events[i].timestamp <= events[k].timestamp <= events[j].timestamp
    ensures 60.0 * SessionMinutes(events) == (events[j].timestamp - events[i].timestamp) as real
  {
    i :| 0 <= i < |events| && MinTimestamp(events) == events[i].timestamp;
    j :| 0 <= j < |events| && MaxTimestamp(events) == events[j].timestamp;
    var d := (events[j].timestamp - events[i].timestamp) as real;
    assert SessionMinutes(events) == d / 60.0;
  }

  /** Every event lies within the measured session, and appending an event never shortens it. */
  lemma SessionSpan(events: seq<Event>, e: Event)
    requires events != []
    ensures forall k :: 0 <= k < |events| ==>
      MinTimestamp(events) <= events[k].timestamp <= MinTimestamp(events) + (60.0 * SessionMinutes(events)).Floor
    ensures SessionMinutes(events) <= SessionMinutes(events + [e])
  {
    var all := events + [e];
    assert forall k :: 0 <= k < |events| ==> all[k] == events[k];
    var lo, hi := MinTimestamp(events), MaxTimestamp(events);
    assert 60.0 * SessionMinutes(events) == (hi - lo) as real;
    assert MinTimestamp(all) <= lo && hi <= MaxTimestamp(all);
  }

  /** Two auditors in one process: the second finds the main logger configured and never binds its audit logger. */
  method SecondAuditorIsUnbound(registry: LoggingRegistry, first: string, second: string, high: seq<string>, medium: seq<string>)
    returns (a: Auditor, b: Auditor)
    modifies registry
    ensures old(registry.mainHandlers) == 0 ==> a.sinkBound
    ensures !b.sinkBound
    ensures registry.mainHandlers == (if old(registry.mainHandlers) == 0 then 2 else old(registry.mainHandlers))
    ensures registry.auditHandlers <= old(registry.auditHandlers) + 1
  {
    a := new Auditor(registry, first, high, medium);
    b := new Auditor(registry, second, high, medium);
  }
}

=== FILE: analyses.dfy ===
/**
 * What the two web front ends share: the upload extension rule, the
 * analysis record kept in the in-memory table of analyses, the outcome of
 * running the agent crew, and the audit events the front ends append.
 *
 * The crew itself (its import, construction and `kickoff`) is not modelled:
 * its outcome is a `CrewOutcome` parameter.
 */
module Analyses {
  import opened Util
  import opened Text
  import opened AcademicLogger

  /** The upload extensions both front ends accept (compared lowercased, without the dot). */
  const AllowedExtensions: set<string> := {"csv", "xlsx", "xls", "pdf", "docx", "txt"}

  /** `_allowed_file` / `allowed_file`: a dot, and the text after the last dot, lowercased, is allowed. */
  predicate AllowedFile(filename: string)
  {
    '.' in filename && Lower(AfterLast(filename, '.')) in AllowedExtensions
  }

  /** The rule judges exactly the suffix after the last dot, and needs a dot. */
  lemma AllowedFileMeans(filename: string)
    ensures AllowedFile(filename) <==>
      exists i :: 0 <= i < |filename| && filename[i] == '.' && '.' !in filename[i + 1..]
                  && Lower(filename[i + 1..]) in AllowedExtensions
  {
    var r := AfterLast(filename, '.');
    if AllowedFile(filename) {
      var i := |filename| - |r| - 1;
      assert 0 <= i < |filename| && filename[i] == '.' && filename[i + 1..] == r;
    }
    if exists i :: 0 <= i < |filename| && filename[i] == '.' && '.' !in filename[i + 1..]
                   && Lower(filename[i + 1..]) in AllowedExtensions {
      var i :| 0 <= i < |filename| && filename[i] == '.' && '.' !in filename[i + 1..]
               && Lower(filename[i + 1..]) in AllowedExtensions;
      AfterLastAt(filename, '.', i);
    }
  }

  /** Only the last suffix counts, in any letter case: a name with a dot is judged by what follows its last dot. */
  lemma AllowedFileLastSuffix(stem: string, ext: string)
    requires '.' !in ext
    ensures AllowedFile(stem + "." + ext) <==> Lower(ext) in AllowedExtensions
    ensures '.' !in stem ==> !AllowedFile(stem)
  {
    var name := stem + "." + ext;
    var i := |stem|;
    assert name[i] == '.';
    assert name[i + 1..] == ext;
    AfterLastAt(name, '.', i);
  }

  /** The states an analysis record passes through, with their names as stored. */
  datatype Status =
    | Processing        // "processando"
    | FilesValidated    // "arquivos_validados"
    | RunningAnalysis   // "executando_analise"
    | ProcessingData    // "processando_dados"
    | GeneratingReport  // "gerando_relatorio"
    | Completed         // "concluida"
    | Failed            // "erro"

  /** A file admitted into an analysis: its original name (or link), where it was stored, and its size. */
  datatype StoredFile = StoredFile(originalName: string, path: string, sizeBytes: nat)

  /** One analysis record of the table of analyses. */
  datatype Entry = Entry(
    id: string,
    topic: string,
    status: Status,
    progress: nat,
    files: seq<StoredFile>,
    startedAt: string,         // the ISO timestamp of creation
    results: Option<string>,   // `str(resultados)` once the crew returned
    error: Option<string>)     // `str(e)` once the crew raised

  /** A freshly created record. */
  function NewEntry(id: string, topic: string, startedAt: string): Entry
  {
    Entry(id, topic, Processing, 0, [], startedAt, None, None)
  }

  /** What running the crew did: returned results, or raised (the exception's type name and message). */
  datatype CrewOutcome =
    | CrewSucceeded(results: string)
    | CrewRaised(errorType: string, message: string)

  /** A form submission ends in a redirect: back to the form with a message, or to the analysis page. */
  datatype FormReply =
    | TopicMissing              // "Por favor, descreva o tópico de pesquisa."
    | ShowResults(id: string)   // redirect to the results page of the analysis
    | FormError(message: string) // "Erro ao processar análise: <message>"

  /** A status lookup: 404 "Análise não encontrada", or the record as JSON. */
  datatype StatusReply = NotFound | Found(entry: Entry)

  /** The `inicio_analise` event `iniciar_analise` appends. */
  function StartedEvent(a: Auditor, topic: string, provided: Payload, now: int): Event
  {
    Event(a.sessionId, a.userId, "inicio_analise",
      [("topico_pesquisa", VStr(topic)), ("dados_fornecidos", VDict(provided))], [], None,
      "localhost", "SAPIENS-System", now)
  }

  /** The `erro_sistema` event `registrar_erro` appends. */
  function ErrorEvent(a: Auditor, errorType: string, message: string, context: string, now: int): Event
  {
    Event(a.sessionId, a.userId, "erro_sistema",
      [("erro_tipo", VStr(errorType)), ("erro_mensagem", VStr(message)), ("contexto", VStr(context))], [], None,
      "localhost", "SAPIENS-System", now)
  }

  /** The `resultado_analise` event `finalizar_analise(True, ...)` appends. */
  function FinishedEvent(a: Auditor, results: Payload, now: int): Event
  {
    Event(a.sessionId, a.userId, "resultado_analise", [],
      [("sucesso", VBool(true)), ("resultados_resumo", VDict(results))], None,
      "localhost", "SAPIENS-System", now)
  }
}

=== FILE: api_index.dfy ===
/**
 * The serverless front end's analysis lifecycle: the JSON endpoint and
 * the form handler both insert a new record as processing at 0, run the
 * crew synchronously and settle the record as completed or failed; the
 * status lookup answers 404 for an unknown id.
 *
 * The module-level table of analyses and the process-wide auditor are the
 * fields of `ApiService`.
 */
module ApiIndex {
  import opened Util
  import opened Text
  import opened Analyses
  import opened AcademicLogger

  /** The request body as `get_json()` returns it: `None` (a JSON `null`), or an object with or without the topic key. */
  datatype RequestBody = NoJson | JsonObject(topic: Option<string>)

  /** The JSON endpoint's answers: 200 with the results, 400, or 500 with a message. */
  datatype ApiReply =
    | Ok(id: string, results: string)
    | BadRequest(message: string)
    | ServerError(message: string)

  /** How a crew run leaves a record: completed at 100 with the results, or failed with the message. */
  function Settle(e: Entry, crew: CrewOutcome): Entry
  {
    match crew
    case CrewSucceeded(results) => e.(status := Completed, progress := 100, results := Some(results))
    case CrewRaised(_, message) => e.(status := Failed, error := Some(message))
  }

  /** Settling ends in a terminal state, completed exactly when the crew returned; progress does not go down;
      a failure keeps the progress and the results the record had; the record's identity is kept. */
  lemma SettleMeaning(e: Entry, crew: CrewOutcome)
    ensures var s := Settle(e, crew);
      && s.id == e.id && s.topic == e.topic && s.startedAt == e.startedAt && s.files == e.files
      && (s.status == Completed <==> crew.CrewSucceeded?)
      && (s.status == Failed <==> crew.CrewRaised?)
      && (e.progress <= 100 ==> e.progress <= s.progress)
      && (crew.CrewSucceeded? ==> s.progress == 100 && s.results == Some(crew.results) && s.error == e.error)
      && (crew.CrewRaised? ==> s.progress == e.progress && s.results == e.results && s.error == Some(crew.message))
  {
  }

  /** The topic a JSON body carries: a missing key reads as empty. */
  function BodyTopic(body: RequestBody): string
    requires body.JsonObject?
  {
    match body.topic
    case None => ""
    case Some(t) => Strip(t)
  }

  class ApiService {
    /** `analises_ativas`. */
    var analyses: map<string, Entry>
    /** The process-wide auditor. */
    const auditor: Auditor

    predicate Valid()
    {
      auditor.sinkBound
    }

    constructor(auditor: Auditor)
      requires auditor.sinkBound
      ensures Valid() && this.auditor == auditor && analyses == map[]
    {
      this.auditor := auditor;
      analyses := map[];
    }

    /** `api_analisar`: a body that is not JSON is a 500, a blank topic a 400, neither storing anything; otherwise
        the start is audited, the record is stored as processing at 0 and then settled by the crew, which decides
        between 200 with the results (completion audited) and 500 (error audited). `observed` lists the states the
        stored record takes. */
    method Analyze(body: RequestBody, id: string, startedAt: string, crew: CrewOutcome, now: int)
      returns (reply: ApiReply, observed: seq<Entry>)
      requires Valid()
      modifies this, auditor
      ensures body.NoJson? ==>
        && reply == ServerError("Erro geral: 'NoneType' object has no attribute 'get'")
        && analyses == old(analyses) && auditor.events == old(auditor.events) && observed == []
      ensures body.JsonObject? && BodyTopic(body) == "" ==>
        && reply == BadRequest("Tópico de pesquisa obrigatório")
        && analyses == old(analyses) && auditor.events == old(auditor.events) && observed == []
      ensures body.JsonObject? && BodyTopic(body) != "" ==>
        var start := NewEntry(id, BodyTopic(body), startedAt);
        && observed == [start, Settle(start, crew)]
        && analyses == old(analyses)[id := Settle(start, crew)]
        && reply == (match crew
                     case CrewSucceeded(results) => Ok(id, results)
                     case CrewRaised(_, message) => ServerError("Erro na análise: " + message))
        && auditor.events == old(auditor.events)
             + [StartedEvent(auditor, BodyTopic(body), [("analise_id", VStr(id))], now)]
             + (match crew
                case CrewSucceeded(results) =>
                  [FinishedEvent(auditor, [("analise_id", VStr(id)), ("resultados_crew", VStr(results))], now)]
                case CrewRaised(errorType, message) => [ErrorEvent(auditor, errorType, message, "analise_" + id, now)])
    {
      observed := [];
      if body.NoJson? {
        return ServerError("Erro geral: 'NoneType' object has no attribute 'get'"), observed;
      }
      var topic := BodyTopic(body);
      if topic == "" {
        return BadRequest("Tópico de pesquisa obrigatório"), observed;
      }
      var entry := NewEntry(id, topic, startedAt);
      var _ := auditor.StartAnalysis(topic, Some([("analise_id", VStr(id))]), now);
      analyses := analyses[id := entry];
      observed := observed + [entry];
      var settled;
      settled, reply := RunCrew(id, entry, crew, now);
      observed := observed + [settled];
    }

    /** The crew part of `api_analisar`: the stored record is settled by the crew; a return is audited as the
        finished analysis and answered with 200, a raise is audited as an error and answered with 500. */
    method RunCrew(id: string, entry: Entry, crew: CrewOutcome, now: int) returns (settled: Entry, reply: ApiReply)
      requires Valid()
      modifies this, auditor
      ensures settled == Settle(entry, crew) && analyses == old(analyses)[id := settled]
      ensures reply == (match crew
                        case CrewSucceeded(results) => Ok(id, results)
                        case CrewRaised(_, message) => ServerError("Erro na análise: " + message))
      ensures auditor.events == old(auditor.events)
        + (match crew
           case CrewSucceeded(results) =>
             [FinishedEvent(auditor, [("analise_id", VStr(id)), ("resultados_crew", VStr(results))], now)]
           case CrewRaised(errorType, message) => [ErrorEvent(auditor, errorType, message, "analise_" + id, now)])
    {
      match crew
      case CrewSucceeded(results) =>
        settled := entry.(status := Completed, progress := 100, results := Some(results));
        analyses := analyses[id := settled];
        var _ := auditor.FinishAnalysis(true, Some([("analise_id", VStr(id)), ("resultados_crew", VStr(results))]), now);
        reply := Ok(id, results);
      case CrewRaised(errorType, message) =>
        settled := entry.(status := Failed, error := Some(message));
        analyses := analyses[id := settled];
        var _ := auditor.RecordError(errorType, message, "analise_" + id, now);
        reply := ServerError("Erro na análise: " + message);
    }

    /** `processar_analise`: a blank topic redirects back and stores nothing; otherwise the record is stored as
        processing at 0 and settled by the crew; a success goes to the results page without an audit event, a
        failure is audited and redirects back with the message. */
    method ProcessAnalysis(topicField: string, id: string, startedAt: string, crew: CrewOutcome, now: int)
      returns (reply: FormReply, observed: seq<Entry>)
      requires Valid()
      modifies this, auditor
      ensures Strip(topicField) == "" ==>
        reply == TopicMissing && analyses == old(analyses) && auditor.events == old(auditor.events) && observed == []
      ensures Strip(topicField) != "" ==>
        var start := NewEntry(id, Strip(topicField), startedAt);
        && observed == [start, Settle(start, crew)]
        && analyses == old(analyses)[id := Settle(start, crew)]
        && reply == (match crew case CrewSucceeded(_) => ShowResults(id) case CrewRaised(_, message) => FormError(message))
        && auditor.events == old(auditor.events)
             + (match crew
                case CrewSucceeded(_) => []
                case CrewRaised(errorType, message) => [ErrorEvent(auditor, errorType, message, "analise_" + id, now)])
    {
      observed := [];
      var topic := Strip(topicField);
      if topic == "" {
        return TopicMissing, observed;
      }
      var entry := NewEntry(id, topic, startedAt);
      analyses := analyses[id := entry];
      observed := observed + [entry];

      match crew
      case CrewSucceeded(results) =>
        entry := entry.(status := Completed, progress := 100, results := Some(results));
        analyses := analyses[id := entry];
        observed := observed + [entry];
        reply := ShowResults(id);
      case CrewRaised(errorType, message) =>
        entry := entry.(status := Failed, error := Some(message));
        analyses := analyses[id := entry];
        observed := observed + [entry];
        var _ := auditor.RecordError(errorType, message, "analise_" + id, now);
        reply := FormError(message);
    }

    /** `status_analise`: the record for a known id, 404 otherwise. */
    method Status(id: string) returns (reply: StatusReply)
      ensures reply == NotFound <==> id !in analyses
      ensures reply.Found? ==> reply.entry == analyses[id]
    {
      if id !in analyses {
        return NotFound;
      }
      reply := Found(analyses[id]);
    }
  }
}

=== FILE: csv_processor.dfy ===
/**
 * The CSV profiler: the separator probe, the per-dtype column count with
 * per-column details, and the missing-value summary.
 *
 * pandas' `read_csv` is a parameter: given a separator it either fails or
 * yields the header (each column with the dtype pandas inferred) and the
 * rows, a missing cell being None. A row shorter than the header reads as
 * missing cells. A present cell's string is pandas' rendering of the value
 * it parsed under the column's dtype, not the file's raw text: "1.0" and
 * "1.00" in a float column are one value and reach the model as one string,
 * so the distinct count and the samples below are those of the parsed values.
 */
module CsvProcessor {
  import opened Util

  datatype Column = Column(name: string, dtype: string)

  datatype Frame = Frame(columns: seq<Column>, rows: seq<seq<Option<string>>>)

  datatype ReadResult = ReadFailed | Parsed(frame: Frame)

  /** `nrows=1000`. */
  const RowLimit: nat := 1000

  /** The separators tried, in order: the one given, then ';', tab and '|'. */
  function Candidates(separator: string): seq<string>
  {
    [separator, ";", "\t", "|"]
  }

  /** `pd.read_csv(file_path, sep=sep, nrows=1000)`. The reader `read` stands for that whole call: pandas
      infers the dtypes, and fails or not, from the rows it reads, so both are part of `read(sep)`. The cut
      states pandas' row bound and changes nothing for a reader that keeps to it. */
  function ReadAt(read: string -> ReadResult, sep: string): (r: ReadResult)
    ensures r.Parsed? <==> read(sep).Parsed?
    ensures r.Parsed? ==> r.frame.columns == read(sep).frame.columns && |r.frame.rows| <= RowLimit
    ensures r.Parsed? ==> |r.frame.rows| <= |read(sep).frame.rows| && r.frame.rows == read(sep).frame.rows[..|r.frame.rows|]
    ensures r.Parsed? && |read(sep).frame.rows| <= RowLimit ==> r == read(sep)
  {
    match read(sep)
    case ReadFailed => ReadFailed
    case Parsed(f) => Parsed(f.(rows := f.rows[..Min(RowLimit, |f.rows|)]))
  }

  /** A parse that yields more than one column. */
  predicate Wide(r: ReadResult)
  {
    r.Parsed? && |r.frame.columns| > 1
  }

  // ---------------------------------------------------------------------
  // The separator probe

  /**
   * What the probe loop leaves in `(df, successful_sep)` after trying
   * `candidates`, starting from the frame `last`: the first wide parse stops
   * it; any other parse replaces `df`; a failure is skipped.
   */
  function Probe(candidates: seq<string>, read: string -> ReadResult, last: Option<Frame>): (Option<Frame>, Option<string>)
  {
    if candidates == [] then (last, None)
    else match ReadAt(read, candidates[0])
      case ReadFailed => Probe(candidates[1..], read, last)
      case Parsed(f) =>
        if |f.columns| > 1 then (Some(f), Some(candidates[0])) else Probe(candidates[1..], read, Some(f))
  }

  /** The first candidate whose parse is wide. */
  function FirstWide(candidates: seq<string>, read: string -> ReadResult): (r: Option<nat>)
    ensures r.Some? ==> r.value < |candidates| && Wide(ReadAt(read, candidates[r.value]))
    ensures r.Some? ==> forall j :: 0 <= j < r.value ==> !Wide(ReadAt(read, candidates[j]))
    ensures r.None? ==> forall j :: 0 <= j < |candidates| ==> !Wide(ReadAt(read, candidates[j]))
  {
    if candidates == [] then None
    else if Wide(ReadAt(read, candidates[0])) then Some(0)
    else match FirstWide(candidates[1..], read)
      case None => None
      case Some(i) => Some(i + 1)
  }

  /** The frame of the last candidate that parses, or `last` when none does. */
  function LastParsed(candidates: seq<string>, read: string -> ReadResult, last: Option<Frame>): Option<Frame>
  {
    if candidates == [] then last
    else match ReadAt(read, candidates[|candidates| - 1])
      case Parsed(f) => Some(f)
      case ReadFailed => LastParsed(candidates[..|candidates| - 1], read, last)
  }

  /** Trying the first candidate and then the rest leaves the same last parse. */
  lemma {:induction false} LastParsedFirst(candidates: seq<string>, read: string -> ReadResult, last: Option<Frame>)
    requires candidates != []
    ensures var first := ReadAt(read, candidates[0]);
            LastParsed(candidates, read, last)
              == LastParsed(candidates[1..], read, if first.Parsed? then Some(first.frame) else last)
  {
    var first := ReadAt(read, candidates[0]);
    var step := if first.Parsed? then Some(first.frame) else last;
    var n := |candidates|;
    if n > 1 {
      assert candidates[1..][n - 2] == candidates[n - 1];
      if ReadAt(read, candidates[n - 1]).ReadFailed? {
        LastParsedFirst(candidates[..n - 1], read, last);
        assert candidates[..n - 1][1..] == candidates[1..][..n - 2];
      }
    }
  }

  /**
   * The probe selects the first separator whose parse has more than one
   * column; when there is none, it keeps the last successful parse and
   * detects no separator.
   */
  lemma {:induction false} ProbeMeaning(candidates: seq<string>, read: string -> ReadResult, last: Option<Frame>)
    ensures Probe(candidates, read, last) ==
      match FirstWide(candidates, read)
      case Some(i) => (Some(ReadAt(read, candidates[i]).frame), Some(candidates[i]))
      case None => (LastParsed(candidates, read, last), None)
  {
    if candidates != [] {
      var first := ReadAt(read, candidates[0]);
      if !Wide(first) {
        var step := if first.Parsed? then Some(first.frame) else last;
        ProbeMeaning(candidates[1..], read, step);
        LastParsedFirst(candidates, read, last);
        match FirstWide(candidates[1..], read)
        case None =>
        case Some(i) =>
          assert candidates[1..][i] == candidates[i + 1];
      }
    }
  }

  /** Whatever the probe keeps holds at most 1000 rows. */
  lemma {:induction false} ProbeRowsBounded(candidates: seq<string>, read: string -> ReadResult, last: Option<Frame>)
    requires last.None? || |last.value.rows| <= RowLimit
    ensures var kept := Probe(candidates, read, last).0;
            kept.None? || |kept.value.rows| <= RowLimit
  {
    if candidates != [] {
      var first := ReadAt(read, candidates[0]);
      ProbeRowsBounded(candidates[1..], read, if first.Parsed? then Some(first.frame) else last);
    }
  }

  /** The loop over the separators, with its `try`/`continue` and `break`. */
  method ProbeSeparators(separator: string, read: string -> ReadResult) returns (df: Option<Frame>, detected: Option<string>)
    ensures (df, detected) == Probe(Candidates(separator), read, None)
  {
    var candidates := Candidates(separator);
    df := None;
    detected := None;
    var i := 0;
    while i < |candidates|
      invariant i <= |candidates| && detected == None
      invariant Probe(candidates[i..], read, df) == Probe(candidates, read, None)
    {
      assert candidates[i..][1..] == candidates[i + 1..];
      var sep := candidates[i];
      match ReadAt(read, sep) {
        case ReadFailed =>
        case Parsed(f) =>
          df := Some(f);
          if |f.columns| > 1 {
            detected := Some(sep);
            break;
          }
      }
      i := i + 1;
    }
  }

  // ---------------------------------------------------------------------
  // Column analyses

  /** `df.empty`: no columns or no rows. */
  predicate Empty(f: Frame)
  {
    |f.columns| == 0 || |f.rows| == 0
  }

  function CellAt(row: seq<Option<string>>, j: nat): Option<string>
  {
    if j < |row| then row[j] else None
  }

  function ColumnValues(f: Frame, j: nat): (r: seq<Option<string>>)
    ensures |r| == |f.rows| && forall i :: 0 <= i < |r| ==> r[i] == CellAt(f.rows[i], j)
  {
    seq(|f.rows|, i requires 0 <= i < |f.rows| => CellAt(f.rows[i], j))
  }

  /** The values present in a column, in row order (`dropna()`). */
  function Present(values: seq<Option<string>>): (r: seq<string>)
    ensures |r| <= |values|
    ensures forall x :: x in r <==> Some(x) in values
  {
    if values == [] then []
    else
      var rest := Present(values[1..]);
      assert forall x :: Some(x) in values <==> Some(x) == values[0] || Some(x) in values[1..];
      match values[0]
      case Some(x) => [x] + rest
      case None => rest
  }

  datatype ColumnDetail = ColumnDetail(name: string, dtype: string, unique: nat, samples: seq<string>)

  /** One detail line: the dtype, `nunique()` (distinct present values) and the first three present values. */
  function Detail(f: Frame, j: nat): (r: ColumnDetail)
    requires j < |f.columns|
    ensures r.name == f.columns[j].name && r.dtype == f.columns[j].dtype
    ensures |r.samples| == Min(3, |Present(ColumnValues(f, j))|) && r.samples <= Present(ColumnValues(f, j))
    ensures r.unique == |set x | x in Present(ColumnValues(f, j))|
    ensures r.unique <= |Present(ColumnValues(f, j))|
    ensures r.unique == 0 <==> Present(ColumnValues(f, j)) == []
  {
    var values := ColumnValues(f, j);
    var present := Present(values);
    DistinctPresent(values);
    DistinctCount(values);
    ColumnDetail(f.columns[j].name, f.columns[j].dtype, |set v | v in values && v.Some?|, present[..Min(3, |present|)])
  }

  /** The distinct present values are no more than the present values, and none exactly when none is present. */
  lemma {:induction false} DistinctPresent(values: seq<Option<string>>)
    ensures |set v | v in values && v.Some?| <= |Present(values)|
    ensures |set v | v in values && v.Some?| == 0 <==> Present(values) == []
  {
    var all := set v | v in values && v.Some?;
    if values != [] {
      DistinctPresent(values[1..]);
      var rest := set v | v in values[1..] && v.Some?;
      if values[0].Some? {
        assert all == rest + {values[0]};
        assert Present(values) == [values[0].value] + Present(values[1..]);
      } else {
        assert all == rest;
      }
    } else {
      assert all == {};
    }
    if Present(values) != [] {
      var x := Present(values)[0];
      assert Some(x) in all;
    }
  }

  /** Counting the distinct present cells is counting the distinct values `dropna()` keeps. */
  lemma {:induction false} DistinctCount(values: seq<Option<string>>)
    ensures |set v | v in values && v.Some?| == |set x | x in Present(values)|
  {
    if values == [] {
      assert (set v | v in values && v.Some?) == {};
      assert (set x | x in Present(values)) == {};
    } else {
      DistinctCount(values[1..]);
      DistinctCountCons(values);
    }
  }

  /** One more cell adds to both counts exactly when it is a present value not seen further on. */
  lemma DistinctCountCons(values: seq<Option<string>>)
    requires values != []
    requires |set v | v in values[1..] && v.Some?| == |set x | x in Present(values[1..])|
    ensures |set v | v in values && v.Some?| == |set x | x in Present(values)|
  {
    CellsCons(values);
    TextsCons(values);
    if values[0].Some? {
      var cells := set v | v in values[1..] && v.Some?;
      var texts := set x | x in Present(values[1..]);
      assert values[0].value in texts <==> values[0] in cells;
      AddCorresponding(cells, texts, values[0], values[0].value);
    }
  }

  /** The distinct present cells of a column are those of its tail, plus its head when present. */
  lemma CellsCons(values: seq<Option<string>>)
    requires values != []
    ensures (set v | v in values && v.Some?) ==
      (set v | v in values[1..] && v.Some?) + (if values[0].Some? then {values[0]} else {})
  {
    assert values == [values[0]] + values[1..];
  }

  /** The distinct values `dropna()` keeps are those of the tail, plus the head's value when present. */
  lemma TextsCons(values: seq<Option<string>>)
    requires values != []
    ensures (set x | x in Present(values)) ==
      (set x | x in Present(values[1..])) + (if values[0].Some? then {values[0].value} else {})
  {
    if values[0].Some? {
      assert Present(values) == [values[0].value] + Present(values[1..]);
    } else {
      assert Present(values) == Present(values[1..]);
    }
  }

  /** Adding to two equally large sets an element each that both already hold, or both lack, keeps them equally large. */
  lemma AddCorresponding(cells: set<Option<string>>, texts: set<string>, c: Option<string>, x: string)
    requires |cells| == |texts| && (c in cells <==> x in texts)
    ensures |cells + {c}| == |texts + {x}|
  {
    if c in cells {
      assert cells + {c} == cells && texts + {x} == texts;
    }
  }

  function Details(f: Frame): (r: seq<ColumnDetail>)
    ensures |r| == |f.columns| && forall j :: 0 <= j < |f.columns| ==> r[j] == Detail(f, j)
  {
    seq(|f.columns|, j requires 0 <= j < |f.columns| => Detail(f, j))
  }

  function DTypes(f: Frame): (r: seq<string>)
    ensures |r| == |f.columns| && forall j :: 0 <= j < |r| ==> r[j] == f.columns[j].dtype
  {
    seq(|f.columns|, j requires 0 <= j < |f.columns| => f.columns[j].dtype)
  }

  /** `_analyze_data_types`: a counter per dtype, and one detail per column in column order. */
  method AnalyzeDataTypes(f: Frame) returns (counts: map<string, nat>, details: seq<ColumnDetail>)
    ensures forall t :: t in counts <==> t in DTypes(f)
    ensures forall t :: t in counts ==> counts[t] == Count(DTypes(f), t)
    ensures SumValues(counts) == |f.columns|
    ensures |details| == |f.columns| && forall j :: 0 <= j < |f.columns| ==> details[j] == Detail(f, j)
  {
    counts := map[];
    details := [];
    ghost var dtypes := DTypes(f);
    for j := 0 to |f.columns|
      invariant Tallies(counts, dtypes[..j])
      invariant details == Details(f)[..j]
    {
      var dtype := f.columns[j].dtype;
      SliceStep(dtypes, j);
      SliceStep(Details(f), j);
      CounterStep(counts, dtypes[..j], dtype);
      counts := counts[dtype := (if dtype in counts then counts[dtype] else 0) + 1];
      details := details + [Detail(f, j)];
    }
    assert dtypes[..|f.columns|] == dtypes;
    assert details == Details(f);
  }

  /** `isnull().sum()` of one column. */
  function MissingIn(values: seq<Option<string>>): (r: nat)
    ensures r <= |values|
  {
    if values == [] then 0
    else (if values[0].None? then 1 else 0) + MissingIn(values[1..])
  }

  /** A column has no missing value exactly when every cell is present. */
  lemma {:induction false} NoneMissing(values: seq<Option<string>>)
    ensures MissingIn(values) == 0 <==> forall i :: 0 <= i < |values| ==> values[i].Some?
  {
    if values != [] {
      NoneMissing(values[1..]);
      assert forall i :: 1 <= i < |values| ==> values[i] == values[1..][i - 1];
    }
  }

  /** The missing values and the present ones (`dropna()`) make up the column. */
  lemma {:induction false} MissingAndPresent(values: seq<Option<string>>)
    ensures MissingIn(values) + |Present(values)| == |values|
  {
    if values != [] {
      MissingAndPresent(values[1..]);
    }
  }

  /** The missing count of column `j`. */
  function ColumnMissing(f: Frame, j: nat): nat
    requires j < |f.columns|
  {
    MissingIn(ColumnValues(f, j))
  }

  /** The missing counts of the first `n` columns, added up. */
  function TotalMissing(f: Frame, n: nat): nat
    requires n <= |f.columns|
  {
    if n == 0 then 0 else TotalMissing(f, n - 1) + ColumnMissing(f, n - 1)
  }

  /** The columns, among the first `n`, that have a missing value, with their counts, in column order. */
  function MissingByColumn(f: Frame, n: nat): (r: seq<(string, nat)>)
    requires n <= |f.columns|
    ensures |r| <= n
    ensures forall k :: 0 <= k < |r| ==> r[k].1 > 0
  {
    if n == 0 then []
    else
      var c := ColumnMissing(f, n - 1);
      MissingByColumn(f, n - 1) + (if c > 0 then [(f.columns[n - 1].name, c)] else [])
  }

  /** Entry `k` of the list is column `j` with its missing count, and `k` listed columns come before it. */
  lemma {:induction false} MissingEntryAt(f: Frame, n: nat, k: nat) returns (j: nat)
    requires n <= |f.columns| && k < |MissingByColumn(f, n)|
    ensures j < n && MissingByColumn(f, n)[k] == (f.columns[j].name, ColumnMissing(f, j))
    ensures |MissingByColumn(f, j)| == k
  {
    var prev := MissingByColumn(f, n - 1);
    if k < |prev| {
      j := MissingEntryAt(f, n - 1, k);
    } else {
      j := n - 1;
    }
  }

  /** Every column with a missing value is listed, right after the listed columns before it. */
  lemma MissingColumnListed(f: Frame, n: nat, j: nat)
    requires j < n <= |f.columns| && ColumnMissing(f, j) > 0
    ensures |MissingByColumn(f, j)| < |MissingByColumn(f, n)|
    ensures MissingByColumn(f, n)[|MissingByColumn(f, j)|] == (f.columns[j].name, ColumnMissing(f, j))
  {
    var before, mid, all := MissingByColumn(f, j), MissingByColumn(f, j + 1), MissingByColumn(f, n);
    var e := (f.columns[j].name, ColumnMissing(f, j));
    assert mid == before + [e] by { MissingByColumnAppends(f, j); }
    assert mid <= all by { MissingByColumnPrefix(f, j + 1, n); }
    assert mid[|before|] == e;
  }

  /** The list for fewer columns is a prefix of the list for more. */
  lemma {:induction false} MissingByColumnPrefix(f: Frame, m: nat, n: nat)
    requires m <= n <= |f.columns|
    ensures MissingByColumn(f, m) <= MissingByColumn(f, n)
  {
    if m < n {
      var a, b, c := MissingByColumn(f, m), MissingByColumn(f, n - 1), MissingByColumn(f, n);
      assert a <= b by { MissingByColumnPrefix(f, m, n - 1); }
      assert b <= c by { MissingByColumnExtends(f, n); }
      PrefixTrans(a, b, c);
    }
  }

  /** One more column only appends to the list. */
  lemma MissingByColumnExtends(f: Frame, n: nat)
    requires 0 < n <= |f.columns|
    ensures MissingByColumn(f, n - 1) <= MissingByColumn(f, n)
  {
  }

  /** A column with a missing value is appended to the list of the columns before it. */
  lemma MissingByColumnAppends(f: Frame, j: nat)
    requires j < |f.columns| && ColumnMissing(f, j) > 0
    ensures MissingByColumn(f, j + 1) == MissingByColumn(f, j) + [(f.columns[j].name, ColumnMissing(f, j))]
  {
  }

  function SumCounts(entries: seq<(string, nat)>): nat
  {
    if entries == [] then 0 else SumCounts(entries[..|entries| - 1]) + entries[|entries| - 1].1
  }

  lemma SumCountsAppend(entries: seq<(string, nat)>, e: (string, nat))
    ensures SumCounts(entries + [e]) == SumCounts(entries) + e.1
  {
    assert (entries + [e])[..|entries|] == entries;
  }

  /** The listed counts add up to the total. */
  lemma {:induction false} MissingListedSum(f: Frame, n: nat)
    requires n <= |f.columns|
    ensures SumCounts(MissingByColumn(f, n)) == TotalMissing(f, n)
  {
    if n > 0 {
      MissingListedSum(f, n - 1);
      var prev := MissingByColumn(f, n - 1);
      var c := ColumnMissing(f, n - 1);
      if c > 0 {
        SumCountsAppend(prev, (f.columns[n - 1].name, c));
      } else {
        assert MissingByColumn(f, n) == prev + [];
        assert prev + [] == prev;
      }
    }
  }

  /** Nothing is listed exactly when nothing is missing. */
  lemma MissingListedIffAny(f: Frame, n: nat)
    requires n <= |f.columns|
    ensures TotalMissing(f, n) == 0 <==> MissingByColumn(f, n) == []
  {
    MissingListedSum(f, n);
    var e := MissingByColumn(f, n);
    if e != [] {
      assert SumCounts(e) >= e[|e| - 1].1 > 0;
    }
  }

  datatype MissingSummary =
    | NoMissingValues                                            // "Nenhum valor faltante detectado."
    | MissingValues(total: nat, byColumn: seq<(string, nat)>)   // the total, then one line per column

  /** `_analyze_missing_values`. */
  method AnalyzeMissingValues(f: Frame) returns (m: MissingSummary)
    ensures TotalMissing(f, |f.columns|) == 0 ==> m == NoMissingValues
    ensures TotalMissing(f, |f.columns|) > 0 ==> m == MissingValues(TotalMissing(f, |f.columns|), MissingByColumn(f, |f.columns|))
  {
    var total := 0;
    var byColumn: seq<(string, nat)> := [];
    for j := 0 to |f.columns|
      invariant total == TotalMissing(f, j)
      invariant byColumn == MissingByColumn(f, j)
    {
      var count := ColumnMissing(f, j);
      total := total + count;
      if count > 0 {
        byColumn := byColumn + [(f.columns[j].name, count)];
      }
    }
    if total == 0 {
      return NoMissingValues;
    }
    return MissingValues(total, byColumn);
  }

  // ---------------------------------------------------------------------
  // The tool

  datatype Profile =
    | Unreadable   // "❌ ERRO: Não foi possível ler o arquivo CSV ou arquivo vazio."
    | Report(rowCount: nat, columnCount: nat, detected: Option<string>, typeCounts: map<string, nat>,
             details: seq<ColumnDetail>, missing: MissingSummary, preview: seq<seq<Option<string>>>)

  /** `CSVProcessorTool._run` without the memory figure and the numeric statistics. */
  method Process(separator: string, read: string -> ReadResult, sampleSize: int) returns (out: Profile)
    ensures var probe := Probe(Candidates(separator), read, None);
            out.Unreadable? <==> probe.0.None? || Empty(probe.0.value)
    ensures var probe := Probe(Candidates(separator), read, None);
            out.Report? ==> (
              var f := probe.0.value;
              && out.detected == probe.1
              && out.rowCount == |f.rows| && out.columnCount == |f.columns|
              && (forall t :: t in out.typeCounts <==> t in DTypes(f))
              && (forall t :: t in out.typeCounts ==> out.typeCounts[t] == Count(DTypes(f), t))
              && SumValues(out.typeCounts) == out.columnCount
              && |out.details| == |f.columns|
              && (forall j :: 0 <= j < |f.columns| ==> out.details[j] == Detail(f, j))
              && (out.missing.NoMissingValues? <==> TotalMissing(f, |f.columns|) == 0)
              && (TotalMissing(f, |f.columns|) > 0 ==>
                    out.missing == MissingValues(TotalMissing(f, |f.columns|), MissingByColumn(f, |f.columns|)))
              && out.preview == Head(f.rows, sampleSize))
  {
    var df, detected := ProbeSeparators(separator, read);
    if df.None? || Empty(df.value) {
      return Unreadable;
    }
    var f := df.value;
    var counts, details := AnalyzeDataTypes(f);
    var missing := AnalyzeMissingValues(f);
    out := Report(|f.rows|, |f.columns|, detected, counts, details, missing, Head(f.rows, sampleSize));
  }

  /** A report reads at most 1000 rows and previews at most `sample_size` of them. */
  lemma ReportBounds(separator: string, read: string -> ReadResult, sampleSize: int)
    ensures var kept := Probe(Candidates(separator), read, None).0;
            kept.Some? ==> (|kept.value.rows| <= RowLimit
              && (sampleSize >= 0 ==> |Head(kept.value.rows, sampleSize)| <= sampleSize))
  {
    ProbeRowsBounded(Candidates(separator), read, None);
  }
}

=== FILE: csv_search.dfy ===
/**
 * The CSV query engine: column exact-match filters, then numeric comparison
 * filters, then free-text search, then truncation to `max_results` rows.
 *
 * A table is a sequence of rows; each row keeps the position it had in the
 * file (`id`), so that every stage can be shown to keep a subsequence of its
 * input rows in order. pandas' parse of the file is an input (`Option<Table>`,
 * None when it raised) and its rendering of floating-point cells is the
 * parameter `render`.
 */
module CsvSearch {
  import opened Util
  import opened Text

  datatype Cell = Text(s: string) | Number(x: real) | Missing

  datatype Row = Row(id: nat, cells: seq<Cell>)

  datatype Table = Table(columns: seq<string>, rows: seq<Row>)

  /** The cell of a row in column `j`; a short row reads as missing. */
  function CellAt(row: Row, j: nat): Cell
  {
    if j < |row.cells| then row.cells[j] else Missing
  }

  /** `astype(str)`: missing cells read "nan". */
  function Str(c: Cell, render: real -> string): string
  {
    match c
    case Text(s) => s
    case Number(x) => render(x)
    case Missing => "nan"
  }

  function Ids(rows: seq<Row>): (r: seq<nat>)
    ensures |r| == |rows| && forall k :: 0 <= k < |rows| ==> r[k] == rows[k].id
  {
    seq(|rows|, k requires 0 <= k < |rows| => rows[k].id)
  }

  lemma {:induction false} IdsOfSubseq(a: seq<Row>, b: seq<Row>)
    requires IsSubseq(a, b)
    ensures IsSubseq(Ids(a), Ids(b))
    decreases |b|
  {
    if a != [] && b != [] {
      assert Ids(a)[1..] == Ids(a[1..]) && Ids(b)[1..] == Ids(b[1..]);
      if a[0] == b[0] {
        IdsOfSubseq(a[1..], b[1..]);
      } else {
        IdsOfSubseq(a, b[1..]);
        if Ids(a) != [] {
          SubseqCons(Ids(a), Ids(b));
        }
      }
    }
  }

  // ---------------------------------------------------------------------
  // Column filters

  datatype FilterValue = TextValue(s: string) | NumberValue(x: real)

  /**
   * `df[column] == value`, or, for a string value when the search is not
   * case-sensitive, equality of the lowercased string forms.
   */
  predicate ColumnMatch(cell: Cell, v: FilterValue, caseSensitive: bool, render: real -> string)
  {
    if !caseSensitive && v.TextValue? then Lower(Str(cell, render)) == Lower(v.s)
    else match (cell, v)
      case (Text(a), TextValue(b)) => a == b
      case (Number(a), NumberValue(b)) => a == b
      case _ => false
  }

  /** One column filter: ignored when the table has no such column. */
  function ColumnStep(t: Table, filter: (string, FilterValue), caseSensitive: bool, render: real -> string): (r: Table)
    ensures r.columns == t.columns
  {
    match IndexOf(t.columns, filter.0)
    case None => t
    case Some(j) => Table(t.columns, Filter(t.rows, row => ColumnMatch(CellAt(row, j), filter.1, caseSensitive, render)))
  }

  /** The filters applied one after the other, in dictionary order. */
  function ColumnFiltered(t: Table, filters: seq<(string, FilterValue)>, caseSensitive: bool, render: real -> string): (r: Table)
    ensures r.columns == t.columns
    decreases |filters|
  {
    if filters == [] then t else ColumnFiltered(ColumnStep(t, filters[0], caseSensitive, render), filters[1..], caseSensitive, render)
  }

  /** `_apply_column_filters`: reassigns the frame once per filter. */
  method ApplyColumnFilters(t: Table, filters: seq<(string, FilterValue)>, caseSensitive: bool, render: real -> string)
    returns (out: Table)
    ensures out == ColumnFiltered(t, filters, caseSensitive, render)
  {
    out := t;
    for i := 0 to |filters|
      invariant ColumnFiltered(out, filters[i..], caseSensitive, render) == ColumnFiltered(t, filters, caseSensitive, render)
    {
      assert filters[i..][1..] == filters[i + 1..];
      var (column, value) := filters[i];
      match IndexOf(out.columns, column) {
        case None =>
        case Some(j) =>
          out := Table(out.columns, Filter(out.rows, row => ColumnMatch(CellAt(row, j), value, caseSensitive, render)));
      }
    }
  }

  /** A row passes every filter whose column exists. */
  predicate PassesColumnFilters(columns: seq<string>, row: Row, filters: seq<(string, FilterValue)>, caseSensitive: bool, render: real -> string)
  {
    forall k :: 0 <= k < |filters| && IndexOf(columns, filters[k].0).Some? ==>
      ColumnMatch(CellAt(row, IndexOf(columns, filters[k].0).value), filters[k].1, caseSensitive, render)
  }

  /** The column filters keep exactly the rows that pass all of them; absent columns impose nothing. */
  lemma {:induction false} ColumnFilteredKeeps(t: Table, filters: seq<(string, FilterValue)>, caseSensitive: bool, render: real -> string, row: Row)
    ensures row in ColumnFiltered(t, filters, caseSensitive, render).rows
        <==> row in t.rows && PassesColumnFilters(t.columns, row, filters, caseSensitive, render)
    decreases |filters|
  {
    if filters != [] {
      var t1 := ColumnStep(t, filters[0], caseSensitive, render);
      ColumnFilteredKeeps(t1, filters[1..], caseSensitive, render, row);
      var p := PassesColumnFilters(t.columns, row, filters, caseSensitive, render);
      var q := PassesColumnFilters(t.columns, row, filters[1..], caseSensitive, render);
      assert p == (q && (IndexOf(t.columns, filters[0].0).Some? ==>
        ColumnMatch(CellAt(row, IndexOf(t.columns, filters[0].0).value), filters[0].1, caseSensitive, render))) by {
        if q && (IndexOf(t.columns, filters[0].0).Some? ==>
          ColumnMatch(CellAt(row, IndexOf(t.columns, filters[0].0).value), filters[0].1, caseSensitive, render)) {
          forall k | 0 <= k < |filters| && IndexOf(t.columns, filters[k].0).Some?
            ensures ColumnMatch(CellAt(row, IndexOf(t.columns, filters[k].0).value), filters[k].1, caseSensitive, render)
          {
            if k > 0 {
              assert filters[k] == filters[1..][k - 1];
            }
          }
        }
        if p {
          forall k | 0 <= k < |filters[1..]| && IndexOf(t.columns, filters[1..][k].0).Some?
            ensures ColumnMatch(CellAt(row, IndexOf(t.columns, filters[1..][k].0).value), filters[1..][k].1, caseSensitive, render)
          {
            assert filters[1..][k] == filters[k + 1];
          }
        }
      }
    }
  }

  lemma {:induction false} ColumnFilteredIsSubseq(t: Table, filters: seq<(string, FilterValue)>, caseSensitive: bool, render: real -> string)
    ensures IsSubseq(ColumnFiltered(t, filters, caseSensitive, render).rows, t.rows)
    decreases |filters|
  {
    if filters == [] {
      SubseqRefl(t.rows);
    } else {
      var t1 := ColumnStep(t, filters[0], caseSensitive, render);
      ColumnFilteredIsSubseq(t1, filters[1..], caseSensitive, render);
      match IndexOf(t.columns, filters[0].0) {
        case None =>
        case Some(j) =>
          FilterIsSubseq(t.rows, row => ColumnMatch(CellAt(row, j), filters[0].1, caseSensitive, render));
          SubseqTrans(ColumnFiltered(t, filters, caseSensitive, render).rows, t1.rows, t.rows);
      }
    }
  }

  /** A filter whose value is "NaN" matches missing cells when the search is not case-sensitive. */
  lemma MissingMatchesTextNan(render: real -> string)
    ensures ColumnMatch(Missing, TextValue("NaN"), false, render)
    ensures !ColumnMatch(Missing, TextValue("NaN"), true, render)
  {
  }

  // ---------------------------------------------------------------------
  // Numeric filters

  datatype Op = Gt | Lt | Ge | Le | Eq | Ne

  /** The text after the first "!=" up to the next one: `condition.split('!=')[1]`. */
  function AfterNotEqual(cond: string): string
  {
    match Find(cond, "!=")
    case None => ""
    case Some(i) =>
      var after := cond[i + 2..];
      match Find(after, "!=")
      case None => after
      case Some(j) => after[..j]
  }

  /** Python's `s[n:]` for a non-negative `n`. */
  function Drop(s: string, n: int): (r: string)
    ensures 0 <= n <= |s| ==> r == s[n..]
  {
    if 0 <= n <= |s| then s[n..] else []
  }

  /**
   * The operator dispatch, in the order the source tests the prefixes. A
   * condition whose threshold does not parse yields None (the filter is skipped).
   */
  function ParseCondition(cond: string): Option<(Op, real)>
  {
    var parsed :=
      if StartsWith(cond, ">") then (Gt, ParseDecimal(Drop(cond, 1)))
      else if StartsWith(cond, "<") then (Lt, ParseDecimal(Drop(cond, 1)))
      else if StartsWith(cond, ">=") then (Ge, ParseDecimal(Drop(cond, 2)))
      else if StartsWith(cond, "<=") then (Le, ParseDecimal(Drop(cond, 2)))
      else if StartsWith(cond, "==") then (Eq, ParseDecimal(Drop(cond, 2)))
      else if Contains(cond, "!=") then (Ne, ParseDecimal(AfterNotEqual(cond)))
      else (Eq, ParseDecimal(cond));
    match parsed.1
    case None => None
    case Some(x) => Some((parsed.0, x))
  }

  /** `>=` and `<=` are never selected: such a condition is read as `>`/`<` of "=N", which does not parse. */
  lemma GreaterOrEqualNeverParses(n: string)
    ensures ParseCondition(">=" + n) == None
    ensures ParseCondition("<=" + n) == None
    ensures forall cond :: ParseCondition(cond).Some? ==> ParseCondition(cond).value.0 != Ge && ParseCondition(cond).value.0 != Le
  {
    assert Drop(">=" + n, 1) == ['='] + n;
    assert Drop("<=" + n, 1) == ['='] + n;
    ParseDecimalRejectsLeadingSymbol(n, '=');
  }

  /** "==N" compares for equality with N. */
  lemma DoubleEqualsMeansEquality(n: string)
    requires ParseDecimal(n).Some?
    ensures ParseCondition("==" + n) == Some((Eq, ParseDecimal(n).value))
  {
    var c := "==" + n;
    assert c[0] == '=';
    assert !StartsWith(c, ">") && !StartsWith(c, "<") && !StartsWith(c, ">=") && !StartsWith(c, "<=");
    assert StartsWith(c, "==");
    assert Drop(c, 2) == n;
  }

  /** A bare number (no operator prefix, no "!=") compares for equality. */
  lemma BareNumberMeansEquality(n: string)
    requires ParseDecimal(n).Some? && !StartsWith(n, ">") && !StartsWith(n, "<") && !StartsWith(n, "==") && !Contains(n, "!=")
    ensures ParseCondition(n) == Some((Eq, ParseDecimal(n).value))
  {
    assert !StartsWith(n, ">=") && !StartsWith(n, "<=");
  }

  /** pandas' `to_numeric(errors='coerce')` on one cell. */
  function Coerce(c: Cell): Cell
  {
    match c
    case Text(s) => (match ParseDecimal(s) case Some(x) => Number(x) case None => Missing)
    case _ => c
  }

  predicate IsNumericColumn(t: Table, j: nat)
  {
    forall k :: 0 <= k < |t.rows| ==> !CellAt(t.rows[k], j).Text?
  }

  function CoerceRow(row: Row, j: nat): (r: Row)
    ensures r.id == row.id && CellAt(r, j) == Coerce(CellAt(row, j))
    ensures forall i :: i != j ==> CellAt(r, i) == CellAt(row, i)
  {
    if j < |row.cells| then Row(row.id, row.cells[j := Coerce(row.cells[j])]) else row
  }

  function CoerceColumn(t: Table, j: nat): (r: Table)
    ensures r.columns == t.columns && Ids(r.rows) == Ids(t.rows)
    ensures IsNumericColumn(r, j)
  {
    Table(t.columns, seq(|t.rows|, k requires 0 <= k < |t.rows| => CoerceRow(t.rows[k], j)))
  }

  /** The comparison on a (coerced) cell: missing values satisfy only `!=`. */
  predicate Compare(op: Op, c: Cell, x: real)
  {
    match c
    case Number(v) =>
      (match op
       case Gt => v > x
       case Lt => v < x
       case Ge => v >= x
       case Le => v <= x
       case Eq => v == x
       case Ne => v != x)
    case Missing => op == Ne
    case Text(_) => false
  }

  /**
   * One numeric filter: on an existing column, a non-numeric column is first
   * coerced (and stays coerced even when the condition then fails to parse).
   */
  function NumericStep(t: Table, filter: (string, string)): (r: Table)
    ensures r.columns == t.columns
  {
    match IndexOf(t.columns, filter.0)
    case None => t
    case Some(j) =>
      var t1 := if IsNumericColumn(t, j) then t else CoerceColumn(t, j);
      match ParseCondition(filter.1)
      case None => t1
      case Some((op, x)) => Table(t1.columns, Filter(t1.rows, row => Compare(op, CellAt(row, j), x)))
  }

  function NumericFiltered(t: Table, filters: seq<(string, string)>): (r: Table)
    ensures r.columns == t.columns
    decreases |filters|
  {
    if filters == [] then t else NumericFiltered(NumericStep(t, filters[0]), filters[1..])
  }

  /** `_apply_numeric_filters`: coerces the column in place, then filters unless the condition is skipped. */
  method ApplyNumericFilters(t: Table, filters: seq<(string, string)>) returns (out: Table)
    ensures out == NumericFiltered(t, filters)
  {
    out := t;
    for i := 0 to |filters|
      invariant NumericFiltered(out, filters[i..]) == NumericFiltered(t, filters)
    {
      assert filters[i..][1..] == filters[i + 1..];
      var (column, condition) := filters[i];
      match IndexOf(out.columns, column) {
        case None =>
        case Some(j) =>
          if !IsNumericColumn(out, j) {
            out := CoerceColumn(out, j);
          }
          match ParseCondition(condition) {
            case None =>
            case Some((op, x)) =>
              out := Table(out.columns, Filter(out.rows, row => Compare(op, CellAt(row, j), x)));
          }
      }
    }
  }

  lemma NumericStepIsSubseq(t: Table, filter: (string, string))
    ensures IsSubseq(Ids(NumericStep(t, filter).rows), Ids(t.rows))
  {
    match IndexOf(t.columns, filter.0) {
      case None =>
        SubseqRefl(Ids(t.rows));
      case Some(j) =>
        var t1 := if IsNumericColumn(t, j) then t else CoerceColumn(t, j);
        assert Ids(t1.rows) == Ids(t.rows);
        match ParseCondition(filter.1) {
          case None =>
            SubseqRefl(Ids(t.rows));
          case Some((op, x)) =>
            FilterIsSubseq(t1.rows, row => Compare(op, CellAt(row, j), x));
            IdsOfSubseq(NumericStep(t, filter).rows, t1.rows);
        }
    }
  }

  lemma {:induction false} NumericFilteredIsSubseq(t: Table, filters: seq<(string, string)>)
    ensures IsSubseq(Ids(NumericFiltered(t, filters).rows), Ids(t.rows))
    decreases |filters|
  {
    if filters == [] {
      SubseqRefl(Ids(t.rows));
    } else {
      var t1 := NumericStep(t, filters[0]);
      NumericStepIsSubseq(t, filters[0]);
      NumericFilteredIsSubseq(t1, filters[1..]);
      SubseqTrans(Ids(NumericFiltered(t, filters).rows), Ids(t1.rows), Ids(t.rows));
    }
  }

  /**
   * A row whose cell is missing after coercion survives a parsed numeric
   * filter exactly when the operator is `!=`.
   */
  lemma MissingKeptOnlyByNotEqual(t: Table, filter: (string, string), row: Row, j: nat, op: Op, x: real)
    requires IndexOf(t.columns, filter.0) == Some(j) && ParseCondition(filter.1) == Some((op, x))
    requires row in (if IsNumericColumn(t, j) then t else CoerceColumn(t, j)).rows && CellAt(row, j).Missing?
    ensures row in NumericStep(t, filter).rows <==> op == Ne
  {
  }

  /** A filter on an existing column whose condition does not parse removes no row. */
  lemma SkippedFilterKeepsRows(t: Table, filter: (string, string))
    requires ParseCondition(filter.1).None?
    ensures Ids(NumericStep(t, filter).rows) == Ids(t.rows)
  {
  }

  /** A numeric filter a row passes: the filter is skipped when its column is absent or its condition
      does not parse; otherwise the row's cell, coerced, satisfies the comparison. */
  predicate NumericPass(columns: seq<string>, row: Row, filter: (string, string))
  {
    match IndexOf(columns, filter.0)
    case None => true
    case Some(j) =>
      match ParseCondition(filter.1)
      case None => true
      case Some((op, x)) => Compare(op, Coerce(CellAt(row, j)), x)
  }

  predicate PassesNumericFilters(columns: seq<string>, row: Row, filters: seq<(string, string)>)
  {
    forall k :: 0 <= k < |filters| ==> NumericPass(columns, row, filters[k])
  }

  /** Every row carrying `id` is the same row. */
  predicate UniqueId(rows: seq<Row>, id: nat)
  {
    forall a, b :: a in rows && b in rows && a.id == id && b.id == id ==> a == b
  }

  /** Two versions of a row: the same id and the same cells once coerced. */
  ghost predicate SameCoerced(a: Row, b: Row)
  {
    a.id == b.id && forall j: nat :: Coerce(CellAt(a, j)) == Coerce(CellAt(b, j))
  }

  /** Through one numeric filter a row either survives, as a version with the same coerced cells, or no
      row with its id is left. */
  lemma NumericStepTracks(t: Table, filter: (string, string), row: Row) returns (next: Row)
    requires row in t.rows && UniqueId(t.rows, row.id)
    ensures SameCoerced(next, row)
    ensures UniqueId(NumericStep(t, filter).rows, row.id)
    ensures NumericPass(t.columns, row, filter) ==> next in NumericStep(t, filter).rows
    ensures !NumericPass(t.columns, row, filter) ==> row.id !in Ids(NumericStep(t, filter).rows)
  {
    next := row;
    match IndexOf(t.columns, filter.0) {
      case None =>
      case Some(j) =>
        var t1 := if IsNumericColumn(t, j) then t else CoerceColumn(t, j);
        next := CoercionTracks(t, j, row);
        match ParseCondition(filter.1) {
          case None =>
          case Some((op, x)) =>
            var p := (r: Row) => Compare(op, CellAt(r, j), x);
            var s := Filter(t1.rows, p);
            assert NumericStep(t, filter).rows == s;
            FilterMember(t1.rows, p, next);
            forall a | a in s ensures a in t1.rows && p(a) {
              FilterMember(t1.rows, p, a);
            }
        }
    }
  }

  /** Coercing column `j` (when it is not numeric yet) keeps each row as a version with the same coerced
      cells, whose cell in column `j` is coerced. */
  lemma CoercionTracks(t: Table, j: nat, row: Row) returns (next: Row)
    requires row in t.rows && UniqueId(t.rows, row.id)
    ensures var t1 := if IsNumericColumn(t, j) then t else CoerceColumn(t, j);
      next in t1.rows && UniqueId(t1.rows, row.id)
    ensures SameCoerced(next, row) && CellAt(next, j) == Coerce(CellAt(row, j))
  {
    var k :| 0 <= k < |t.rows| && t.rows[k] == row;
    if IsNumericColumn(t, j) {
      next := row;
      assert !CellAt(t.rows[k], j).Text?;
    } else {
      var t1 := CoerceColumn(t, j);
      next := CoerceRow(row, j);
      assert t1.rows[k] == next;
      forall a | a in t1.rows && a.id == row.id ensures a == next {
        var m :| 0 <= m < |t1.rows| && t1.rows[m] == a;
        assert t.rows[m] == row;
      }
    }
  }

  /** Through all the numeric filters, in order, a row survives (as a version with the same coerced cells)
      exactly when it passes each of them; otherwise no row with its id is left. */
  lemma {:induction false} NumericFilteredTracks(t: Table, filters: seq<(string, string)>, row: Row) returns (next: Row)
    requires row in t.rows && UniqueId(t.rows, row.id)
    ensures PassesNumericFilters(t.columns, row, filters) ==>
      next in NumericFiltered(t, filters).rows && SameCoerced(next, row)
    ensures !PassesNumericFilters(t.columns, row, filters) ==> row.id !in Ids(NumericFiltered(t, filters).rows)
    decreases |filters|
  {
    next := row;
    if filters != [] {
      var t1 := NumericStep(t, filters[0]);
      var rest := filters[1..];
      var n1 := NumericStepTracks(t, filters[0], row);
      PassesSplit(t.columns, row, filters);
      if NumericPass(t.columns, row, filters[0]) {
        PassesSameCoerced(t.columns, n1, row, rest);
        next := NumericFilteredTracks(t1, rest, n1);
      } else {
        NumericFilteredIsSubseq(t1, rest);
        if row.id in Ids(NumericFiltered(t1, rest).rows) {
          SubseqMember(Ids(NumericFiltered(t1, rest).rows), Ids(t1.rows), row.id);
        }
      }
    }
  }

  lemma PassesSplit(columns: seq<string>, row: Row, filters: seq<(string, string)>)
    requires filters != []
    ensures PassesNumericFilters(columns, row, filters) <==>
      NumericPass(columns, row, filters[0]) && PassesNumericFilters(columns, row, filters[1..])
  {
    assert forall k :: 1 <= k < |filters| ==> filters[k] == filters[1..][k - 1];
  }

  /** Rows with the same coerced cells pass the same numeric filters. */
  lemma PassesSameCoerced(columns: seq<string>, a: Row, b: Row, filters: seq<(string, string)>)
    requires SameCoerced(a, b)
    ensures PassesNumericFilters(columns, a, filters) == PassesNumericFilters(columns, b, filters)
  {
    forall k | 0 <= k < |filters| ensures NumericPass(columns, a, filters[k]) == NumericPass(columns, b, filters[k]) {
      match IndexOf(columns, filters[k].0) {
        case None =>
        case Some(j) => assert Coerce(CellAt(a, j)) == Coerce(CellAt(b, j));
      }
    }
  }

  /** A row, identified by its id, is in the result of the numeric filters exactly when it passes them all. */
  lemma NumericFilteredKeeps(t: Table, filters: seq<(string, string)>, row: Row)
    requires row in t.rows && UniqueId(t.rows, row.id)
    ensures row.id in Ids(NumericFiltered(t, filters).rows) <==> PassesNumericFilters(t.columns, row, filters)
  {
    var next := NumericFilteredTracks(t, filters, row);
    if PassesNumericFilters(t.columns, row, filters) {
      var rows := NumericFiltered(t, filters).rows;
      var m :| 0 <= m < |rows| && rows[m] == next;
      assert Ids(rows)[m] == row.id;
    }
  }

  // ---------------------------------------------------------------------
  // Text search

  /** Some cell of the row's `width` columns, in its string form, contains the query (both lowercased
      unless case-sensitive); a short row's missing cells read "nan" like any other. */
  predicate RowMentions(row: Row, width: nat, query: string, caseSensitive: bool, render: real -> string)
  {
    exists j :: 0 <= j < width &&
      (if caseSensitive then Contains(Str(CellAt(row, j), render), query)
       else Contains(Lower(Str(CellAt(row, j), render)), Lower(query)))
  }

  function TextSearch(t: Table, query: string, caseSensitive: bool, render: real -> string): (r: Table)
    ensures r.columns == t.columns && IsSubseq(r.rows, t.rows)
    ensures forall row :: row in r.rows <==> row in t.rows && RowMentions(row, |t.columns|, query, caseSensitive, render)
  {
    FilterIsSubseq(t.rows, row => RowMentions(row, |t.columns|, query, caseSensitive, render));
    Table(t.columns, Filter(t.rows, row => RowMentions(row, |t.columns|, query, caseSensitive, render)))
  }

  // ---------------------------------------------------------------------
  // The filter description

  datatype FilterLine =
    | TextSearchLine(query: string)                      // "• Busca de texto: '...'"
    | ColumnFilterLine(column: string, value: FilterValue)  // "• Filtro coluna '...': ..."
    | NumericFilterLine(column: string, condition: string)  // "• Filtro numérico '...': ..."
    | NoFilterLine                                       // "• Nenhum filtro específico (busca geral)"

  function ColumnLines(filters: seq<(string, FilterValue)>): (r: seq<FilterLine>)
    ensures |r| == |filters| && forall k :: 0 <= k < |r| ==> r[k] == ColumnFilterLine(filters[k].0, filters[k].1)
  {
    seq(|filters|, k requires 0 <= k < |filters| => ColumnFilterLine(filters[k].0, filters[k].1))
  }

  function NumericLines(filters: seq<(string, string)>): (r: seq<FilterLine>)
    ensures |r| == |filters| && forall k :: 0 <= k < |r| ==> r[k] == NumericFilterLine(filters[k].0, filters[k].1)
  {
    seq(|filters|, k requires 0 <= k < |filters| => NumericFilterLine(filters[k].0, filters[k].1))
  }

  /** `_format_filters`: text search, then column filters, then numeric filters, each in order. */
  method FormatFilters(query: string, columnFilters: seq<(string, FilterValue)>, numericFilters: seq<(string, string)>)
    returns (lines: seq<FilterLine>)
    ensures query == [] && columnFilters == [] && numericFilters == [] ==> lines == [NoFilterLine]
    ensures !(query == [] && columnFilters == [] && numericFilters == []) ==>
      lines == (if query != [] then [TextSearchLine(query)] else []) + ColumnLines(columnFilters) + NumericLines(numericFilters)
  {
    lines := [];
    if query != [] {
      lines := lines + [TextSearchLine(query)];
    }
    ghost var afterQuery := lines;
    var cl := ColumnLines(columnFilters);
    for k := 0 to |columnFilters|
      invariant lines == afterQuery + cl[..k]
    {
      SliceStep(cl, k);
      lines := lines + [ColumnFilterLine(columnFilters[k].0, columnFilters[k].1)];
    }
    assert cl[..|columnFilters|] == cl;
    ghost var afterColumns := lines;
    var nl := NumericLines(numericFilters);
    for k := 0 to |numericFilters|
      invariant lines == afterColumns + nl[..k]
    {
      SliceStep(nl, k);
      lines := lines + [NumericFilterLine(numericFilters[k].0, numericFilters[k].1)];
    }
    assert nl[..|numericFilters|] == nl;
    if lines == [] {
      lines := lines + [NoFilterLine];
    }
  }

  /** The description that `_run` embeds, as a value. */
  function FilterDescription(query: string, columnFilters: seq<(string, FilterValue)>, numericFilters: seq<(string, string)>): seq<FilterLine>
  {
    if query == [] && columnFilters == [] && numericFilters == [] then [NoFilterLine]
    else (if query != [] then [TextSearchLine(query)] else []) + ColumnLines(columnFilters) + NumericLines(numericFilters)
  }

  /** One line per given filter, and the catch-all line exactly when none was given. */
  lemma FilterDescriptionShape(query: string, columnFilters: seq<(string, FilterValue)>, numericFilters: seq<(string, string)>)
    ensures var d := FilterDescription(query, columnFilters, numericFilters);
            && (NoFilterLine in d <==> query == [] && columnFilters == [] && numericFilters == [])
            && (query != [] ==> d[0] == TextSearchLine(query))
            && |d| == Max(1, (if query != [] then 1 else 0) + |columnFilters| + |numericFilters|)
  {
    var d := FilterDescription(query, columnFilters, numericFilters);
    if !(query == [] && columnFilters == [] && numericFilters == []) {
      var q: seq<FilterLine> := if query != [] then [TextSearchLine(query)] else [];
      assert d == q + ColumnLines(columnFilters) + NumericLines(numericFilters);
      assert NoFilterLine !in q && NoFilterLine !in ColumnLines(columnFilters) && NoFilterLine !in NumericLines(numericFilters);
    }
  }

  // ---------------------------------------------------------------------
  // The whole search

  datatype Search = Search(
    query: string,                                // "" when absent
    columnFilters: seq<(string, FilterValue)>,    // [] when absent
    numericFilters: seq<(string, string)>,        // [] when absent
    maxResults: int,
    caseSensitive: bool)

  datatype SearchOutcome =
    | FileNotFound(path: string)                  // "❌ ERRO: Arquivo CSV não encontrado: ..."
    | EmptyFile                                   // "❌ ERRO: Arquivo CSV está vazio."
    | ReadFailed                                  // "❌ ERRO durante busca no CSV: ..."
    | NoResults(filters: seq<FilterLine>, originalRows: nat)
    | Results(
        fileName: string,
        originalRows: nat,
        filteredRows: nat,
        limited: bool,
        maxResults: int,
        filters: seq<FilterLine>,
        shown: Table,
        moreRows: nat)                            // "... (mais N linhas)" beyond the 20 previewed, 0 when none

  /** The stages in the order the source applies them, each only when its input is given. */
  function Pipeline(t: Table, q: Search, render: real -> string): Table
  {
    var t1 := if q.columnFilters != [] then ColumnFiltered(t, q.columnFilters, q.caseSensitive, render) else t;
    var t2 := if q.numericFilters != [] then NumericFiltered(t1, q.numericFilters) else t1;
    if q.query != [] then TextSearch(t2, q.query, q.caseSensitive, render) else t2
  }

  /** `CSVSearchTool._run` over the file as observed. */
  function Run(path: string, present: bool, parsed: Option<Table>, q: Search, render: real -> string): SearchOutcome
  {
    if !present then FileNotFound(path)
    else match parsed
      case None => ReadFailed
      case Some(t) =>
        if t.rows == [] || t.columns == [] then EmptyFile
        else
          var filtered := Pipeline(t, q, render);
          var filters := FilterDescription(q.query, q.columnFilters, q.numericFilters);
          if filtered.rows == [] then NoResults(filters, |t.rows|)
          else
            var limited := |filtered.rows| > q.maxResults;
            var shown := if limited then Table(filtered.columns, Head(filtered.rows, q.maxResults)) else filtered;
            Results(BaseName(path), |t.rows|, |filtered.rows|, limited, q.maxResults, filters, shown,
                    if |shown.rows| > 20 then |shown.rows| - 20 else 0)
  }

  /** Every stage keeps a subsequence of the file's rows, in file order. */
  lemma PipelineIsSubseq(t: Table, q: Search, render: real -> string)
    ensures IsSubseq(Ids(Pipeline(t, q, render).rows), Ids(t.rows))
  {
    var t1 := if q.columnFilters != [] then ColumnFiltered(t, q.columnFilters, q.caseSensitive, render) else t;
    var t2 := if q.numericFilters != [] then NumericFiltered(t1, q.numericFilters) else t1;
    ColumnFilteredIsSubseq(t, q.columnFilters, q.caseSensitive, render);
    IdsOfSubseq(t1.rows, t.rows);
    NumericFilteredIsSubseq(t1, q.numericFilters);
    SubseqRefl(Ids(t1.rows));
    SubseqTrans(Ids(t2.rows), Ids(t1.rows), Ids(t.rows));
    var t3 := Pipeline(t, q, render);
    if q.query != [] {
      IdsOfSubseq(t3.rows, t2.rows);
    } else {
      SubseqRefl(Ids(t2.rows));
    }
    SubseqTrans(Ids(t3.rows), Ids(t2.rows), Ids(t.rows));
  }

  /** The error outcomes and the "no result" report. */
  lemma RunErrorsAndNoResults(path: string, present: bool, parsed: Option<Table>, q: Search, render: real -> string)
    ensures !present ==> Run(path, present, parsed, q, render) == FileNotFound(path)
    ensures present && parsed.Some? && parsed.value.rows == [] ==> Run(path, present, parsed, q, render) == EmptyFile
    ensures present && parsed.Some? && parsed.value.rows != [] && parsed.value.columns != [] && Pipeline(parsed.value, q, render).rows == []
        ==> Run(path, present, parsed, q, render)
            == NoResults(FilterDescription(q.query, q.columnFilters, q.numericFilters), |parsed.value.rows|)
  {
  }

  /**
   * A successful search shows the first min(filtered, max_results) rows of
   * the filtered table, in order, and reports the count before truncation.
   */
  lemma RunTruncates(path: string, t: Table, q: Search, render: real -> string)
    requires t.rows != [] && t.columns != [] && Pipeline(t, q, render).rows != []
    requires q.maxResults >= 0
    ensures var r := Run(path, true, Some(t), q, render);
            var filtered := Pipeline(t, q, render).rows;
            && r.Results?
            && r.originalRows == |t.rows| && r.filteredRows == |filtered|
            && r.shown.rows == filtered[..Min(q.maxResults, |filtered|)]
            && r.limited == (|filtered| > q.maxResults)
            && IsSubseq(Ids(r.shown.rows), Ids(t.rows))
  {
    var filtered := Pipeline(t, q, render).rows;
    var r := Run(path, true, Some(t), q, render);
    PipelineIsSubseq(t, q, render);
    var n := Min(q.maxResults, |filtered|);
    assert r.shown.rows == filtered[..n];
    PrefixIsSubseq(filtered, n);
    IdsOfSubseq(filtered[..n], filtered);
    SubseqTrans(Ids(filtered[..n]), Ids(filtered), Ids(t.rows));
  }

  lemma {:induction false} PrefixIsSubseq(s: seq<Row>, n: nat)
    requires n <= |s|
    ensures IsSubseq(s[..n], s)
  {
    if n == 0 {
    } else {
      PrefixIsSubseq(s[1..], n - 1);
      assert s[..n][1..] == s[1..][..n - 1];
    }
  }
}

=== FILE: data_validation.dfy ===
/**
 * The lightweight data-validation tool: existence, a size ceiling, a
 * MIME-or-extension acceptance rule, and a scan of the first 1024 bytes for
 * words that suggest personal data.
 *
 * File bytes are written as characters with the same code (0..255), so that
 * `bytes.lower()` is `LowerAscii`. libmagic's answer, the SHA-256 digest and
 * the bytes read are fields of `Observed`; None stands for the call raising.
 */
module DataValidation {
  import opened Util
  import opened Text

  const MiB: nat := 1048576

  /** The accepted MIME types, each with the extensions that also admit a file. */
  const AcceptedTypes: seq<(string, seq<string>)> := [
    ("text/csv", [".csv"]),
    ("application/vnd.openxmlformats-officedocument.spreadsheetml.sheet", [".xlsx"]),
    ("application/vnd.ms-excel", [".xls"]),
    ("application/pdf", [".pdf"]),
    ("application/vnd.openxmlformats-officedocument.wordprocessingml.document", [".docx"]),
    ("application/msword", [".doc"]),
    ("text/plain", [".txt", ".md"])
  ]

  /** The indicator words, in the order they are reported. */
  const PiiIndicators: seq<string> := [
    "cpf", "cnpj", "rg", "email", "telefone", "celular", "endereco", "cep", "data_nascimento", "nome_completo"
  ]

  const ScanLimit: nat := 1024

  datatype Observed = Observed(
    path: string,
    present: bool,
    sizeBytes: nat,
    mime: Option<string>,
    digest: Option<string>,
    content: Option<string>)   // the file's bytes; None when the scan could not open it

  datatype Outcome =
    | NotFound(path: string)                    // "❌ ERRO: Arquivo não encontrado: ..."
    | TooLarge(sizeBytes: nat, maxMb: int)      // "❌ ERRO: Arquivo muito grande (...MB). Limite: ...MB"
    | Unsupported(mime: string, ext: string)    // "❌ ERRO: Tipo de arquivo não suportado. ..."
    | Failed                                    // "❌ ERRO durante validação: ..."
    | Valid(fileName: string, sizeBytes: nat, mime: string, digest: string, piiWarnings: seq<string>)

  /** `os.path.splitext(path)[1]`: from the last dot of the last component, unless the component is only dots before it. */
  function Extension(path: string): (r: string)
    ensures r == "" || (r[0] == '.' && '.' !in r[1..])
    ensures r != "" ==> |r| < |BaseName(path)| && EndsWith(BaseName(path), r)
    ensures '.' !in BaseName(path) ==> r == ""
  {
    var name := BaseName(path);
    match LastIndexOf(name, '.')
    case None => ""
    case Some(i) =>
      if exists j :: 0 <= j < i && name[j] != '.' then
        assert name[i..][1..] == name[i + 1..];
        name[i..]
      else ""
  }

  /** With the last dot of the last component at `i`, the extension is the text from it, unless only
      dots come before it (a leading dot, as in ".bashrc", starts no extension). */
  lemma ExtensionAt(path: string, i: nat)
    requires i < |BaseName(path)| && BaseName(path)[i] == '.' && '.' !in BaseName(path)[i + 1..]
    ensures var name := BaseName(path);
      Extension(path) == if exists j :: 0 <= j < i && name[j] != '.' then name[i..] else ""
  {
    LastIndexOfAt(BaseName(path), '.', i);
  }

  /** The acceptance rule: the MIME type of some entry, or an extension listed in some entry. */
  predicate Accepted(mime: string, ext: string)
  {
    exists k :: 0 <= k < |AcceptedTypes| && (mime == AcceptedTypes[k].0 || ext in AcceptedTypes[k].1)
  }

  /** The loop with its flag and early exit. */
  method IsAccepted(mime: string, ext: string) returns (accepted: bool)
    ensures accepted <==> Accepted(mime, ext)
  {
    accepted := false;
    var i := 0;
    while i < |AcceptedTypes|
      invariant 0 <= i <= |AcceptedTypes|
      invariant !accepted
      invariant forall k :: 0 <= k < i ==> mime != AcceptedTypes[k].0 && ext !in AcceptedTypes[k].1
    {
      var (acceptedMime, extensions) := AcceptedTypes[i];
      if mime == acceptedMime || ext in extensions {
        accepted := true;
        break;
      }
      i := i + 1;
    }
  }

  /** Either the MIME type alone or the extension alone suffices. */
  lemma AcceptedEitherSuffices(mime: string, ext: string)
    ensures Accepted(mime, ext) <==>
      mime in ["text/csv", "application/vnd.openxmlformats-officedocument.spreadsheetml.sheet", "application/vnd.ms-excel",
               "application/pdf", "application/vnd.openxmlformats-officedocument.wordprocessingml.document",
               "application/msword", "text/plain"]
      || ext in [".csv", ".xlsx", ".xls", ".pdf", ".docx", ".doc", ".txt", ".md"]
  {
    if Accepted(mime, ext) {
      var k :| 0 <= k < |AcceptedTypes| && (mime == AcceptedTypes[k].0 || ext in AcceptedTypes[k].1);
      assert k in {0, 1, 2, 3, 4, 5, 6};
    }
    var mimes := seq(|AcceptedTypes|, k requires 0 <= k < |AcceptedTypes| => AcceptedTypes[k].0);
    if mime in mimes {
      var k :| 0 <= k < |AcceptedTypes| && mime == mimes[k];
      assert mime == AcceptedTypes[k].0;
    }
    assert mimes == ["text/csv", "application/vnd.openxmlformats-officedocument.spreadsheetml.sheet", "application/vnd.ms-excel",
                     "application/pdf", "application/vnd.openxmlformats-officedocument.wordprocessingml.document",
                     "application/msword", "text/plain"];
    if ext == ".csv" { assert ext in AcceptedTypes[0].1; }
    else if ext == ".xlsx" { assert ext in AcceptedTypes[1].1; }
    else if ext == ".xls" { assert ext in AcceptedTypes[2].1; }
    else if ext == ".pdf" { assert ext in AcceptedTypes[3].1; }
    else if ext == ".docx" { assert ext in AcceptedTypes[4].1; }
    else if ext == ".doc" { assert ext in AcceptedTypes[5].1; }
    else if ext == ".txt" || ext == ".md" { assert ext in AcceptedTypes[6].1; }
  }

  /** The bytes the scan reads, lowercased. */
  function ScannedBytes(content: string): (r: string)
    ensures |r| == Min(ScanLimit, |content|)
  {
    LowerAscii(content[..Min(ScanLimit, |content|)])
  }

  /** The scan applies to text types and PDF only. */
  predicate Scanned(mime: string)
  {
    StartsWith(mime, "text/") || mime == "application/pdf"
  }

  /** The indicators found, in list order; none when the file is not scanned or could not be read. */
  function PiiFound(mime: string, content: Option<string>): seq<string>
  {
    if !Scanned(mime) || content.None? then []
    else Filter(PiiIndicators, ind => Contains(ScannedBytes(content.value), ind))
  }

  /** `_check_pii_indicators`: one warning per indicator present, appended in list order. */
  method CheckPiiIndicators(mime: string, content: Option<string>) returns (warnings: seq<string>)
    ensures warnings == PiiFound(mime, content)
  {
    warnings := [];
    if !Scanned(mime) || content.None? {
      return;
    }
    warnings := PresentIndicators(PiiIndicators, ScannedBytes(content.value));
  }

  /** The indicator loop: the indicators found in the lowered text, in list order. */
  method PresentIndicators(indicators: seq<string>, lowered: string) returns (found: seq<string>)
    ensures found == Filter(indicators, ind => Contains(lowered, ind))
  {
    found := [];
    ghost var present := ind => Contains(lowered, ind);
    for i := 0 to |indicators|
      invariant found == Filter(indicators[..i], present)
    {
      var indicator := indicators[i];
      FilterAppend(indicators[..i], [indicator], present);
      assert Filter([indicator], present) == if present(indicator) then [indicator] else [];
      SliceStep(indicators, i);
      if Contains(lowered, indicator) {
        found := found + [indicator];
      }
    }
    assert indicators[..|indicators|] == indicators;
  }

  /** An indicator is reported exactly when it occurs, in any case, within the scanned prefix. */
  lemma PiiFoundMeans(mime: string, content: string, indicator: string)
    requires Scanned(mime)
    ensures indicator in PiiFound(mime, Some(content))
        <==> indicator in PiiIndicators && Contains(LowerAscii(content[..Min(ScanLimit, |content|)]), indicator)
  {
    FilterMember(PiiIndicators, ind => Contains(ScannedBytes(content), ind), indicator);
  }

  /** Bytes past the first 1024 never change the warnings; the order is the indicator list's. */
  lemma PiiFoundPrefixOnly(mime: string, content: string, more: string)
    requires |content| >= ScanLimit
    ensures PiiFound(mime, Some(content + more)) == PiiFound(mime, Some(content))
    ensures IsSubseq(PiiFound(mime, Some(content)), PiiIndicators)
  {
    assert (content + more)[..ScanLimit] == content[..ScanLimit];
    FilterIsSubseq(PiiIndicators, ind => Contains(ScannedBytes(content), ind));
    if !Scanned(mime) {
      if PiiIndicators != [] {
        SubseqCons([], PiiIndicators);
      }
    }
  }

  /** `DataValidationTool._run`. */
  function Validate(f: Observed, maxSizeMb: int): (r: Outcome)
    ensures !f.present ==> r == NotFound(f.path)
    ensures f.present && f.sizeBytes > maxSizeMb * MiB ==> r == TooLarge(f.sizeBytes, maxSizeMb)
    ensures f.present && f.sizeBytes <= maxSizeMb * MiB && f.mime.None? ==> r == Failed
    ensures f.present && f.sizeBytes <= maxSizeMb * MiB && f.mime.Some? && !Accepted(f.mime.value, Lower(Extension(f.path)))
      ==> r == Unsupported(f.mime.value, Lower(Extension(f.path)))
    ensures r.Valid? <==> f.present && f.sizeBytes <= maxSizeMb * MiB && f.mime.Some? && f.digest.Some?
                          && Accepted(f.mime.value, Lower(Extension(f.path)))
    ensures r.Valid? ==> r == Valid(BaseName(f.path), f.sizeBytes, f.mime.value, f.digest.value, PiiFound(f.mime.value, f.content))
  {
    if !f.present then NotFound(f.path)
    else if f.sizeBytes > maxSizeMb * MiB then TooLarge(f.sizeBytes, maxSizeMb)
    else match f.mime
      case None => Failed
      case Some(mime) =>
        var ext := Lower(Extension(f.path));
        if !Accepted(mime, ext) then Unsupported(mime, ext)
        else match f.digest
          case None => Failed
          case Some(d) => Valid(BaseName(f.path), f.sizeBytes, mime, d, PiiFound(mime, f.content))
  }

  /** The checks run in order: existence, then size, then type; a read failure in the scan never fails validation. */
  lemma ValidateOrder(f: Observed, maxSizeMb: int)
    ensures !f.present ==> Validate(f, maxSizeMb) == NotFound(f.path)
    ensures f.present && f.sizeBytes > maxSizeMb * MiB ==> Validate(f, maxSizeMb) == TooLarge(f.sizeBytes, maxSizeMb)
    ensures f.present && f.sizeBytes <= maxSizeMb * MiB && f.mime.Some? && f.digest.Some?
        ==> (Validate(f, maxSizeMb).Valid? <==> Accepted(f.mime.value, Lower(Extension(f.path))))
    ensures Validate(f, maxSizeMb).Valid? ==> Validate(f.(content := None), maxSizeMb) == Validate(f, maxSizeMb).(piiWarnings := [])
  {
    UnreadableContentKeepsValid(f, maxSizeMb);
  }

  /** Content the scan cannot read only empties the warnings of a valid outcome. */
  lemma UnreadableContentKeepsValid(f: Observed, maxSizeMb: int)
    ensures Validate(f, maxSizeMb).Valid? ==> Validate(f.(content := None), maxSizeMb) == Validate(f, maxSizeMb).(piiWarnings := [])
  {
    var g := f.(content := None);
    assert g.present == f.present && g.sizeBytes == f.sizeBytes && g.path == f.path;
    assert g.mime == f.mime && g.digest == f.digest;
  }
}

=== FILE: docx_search.dfy ===
/**
 * The DOCX search helpers: full-text extraction of the non-blank
 * paragraphs, term search over paragraphs (by sentence) and table cells,
 * and the document summary.
 *
 * A document is what python-docx exposes: the text of each paragraph, the
 * tables (rows of cell texts; a row whose cells cannot be read raises), and
 * the core properties. The sentence split of a paragraph (a regular
 * expression in the tool) is a parameter.
 */
module DocxSearch {
  import opened Util
  import opened Text

  datatype Row = Cells(cells: seq<string>) | RowFailed(message: string)

  /** A table's rows, and `(len(table.rows), len(table.columns))`, None when computing them raises. */
  datatype DocTable = DocTable(rows: seq<Row>, dims: Option<(nat, nat)>)

  datatype Properties = Properties(
    title: Option<string>,
    author: Option<string>,
    subject: Option<string>,
    created: Option<string>,    // the creation date as the tool prints it
    modified: Option<string>)

  datatype Document = Document(paragraphs: seq<string>, tables: seq<DocTable>, properties: Properties)

  // ---------------------------------------------------------------------
  // The paragraph limit

  /** A limit applies when it is truthy: present and not zero. */
  predicate Limited(limit: Option<int>)
  {
    limit.Some? && limit.value != 0
  }

  /** How many leading paragraphs the loops visit before `i >= paragraph_limit` breaks them. */
  function Processed(count: nat, limit: Option<int>): (r: nat)
    ensures r <= count
    ensures r < count ==> Limited(limit) && r >= limit.value          // the loop breaks at index r ...
    ensures r > 0 ==> !(Limited(limit) && r - 1 >= limit.value)       // ... and not before it
  {
    if !Limited(limit) then count
    else if limit.value < 0 then 0
    else Min(limit.value, count)
  }

  /** A loop index at most `Processed` that has reached the end or the limit is `Processed` itself. */
  lemma StopsAtProcessed(count: nat, limit: Option<int>, i: nat)
    requires i <= Processed(count, limit)
    requires i == count || (Limited(limit) && i >= limit.value)
    ensures i == Processed(count, limit)
  {
  }

  /** A loop index below `Processed` that did not break moves to the next paragraph, still within it. */
  lemma ProcessedNext(count: nat, limit: Option<int>, i: nat)
    requires i < count && i <= Processed(count, limit)
    requires !(Limited(limit) && i >= limit.value)
    ensures i + 1 <= Processed(count, limit)
  {
  }

  // ---------------------------------------------------------------------
  // Extraction

  /** An extracted pair names one of the first `n` paragraphs and carries its stripped, non-blank text. */
  predicate ExtractedParagraph(paragraphs: seq<string>, n: nat, e: (nat, string))
    requires n <= |paragraphs|
  {
    1 <= e.0 <= n && e.1 == Strip(paragraphs[e.0 - 1]) && e.1 != ""
  }

  /** The non-blank paragraphs among the first `n`, stripped, each with its 1-based index. */
  function NonBlankParagraphs(paragraphs: seq<string>, n: nat): (r: seq<(nat, string)>)
    requires n <= |paragraphs|
    ensures |r| <= n
  {
    if n == 0 then [] else NonBlankParagraphs(paragraphs, n - 1) + ExtractStep(paragraphs[n - 1], n)
  }

  /** Every extracted pair is one of the first `n` paragraphs, numbered from 1, with its stripped non-blank text. */
  lemma {:induction false} NonBlankParagraphsSound(paragraphs: seq<string>, n: nat)
    requires n <= |paragraphs|
    ensures forall k :: 0 <= k < |NonBlankParagraphs(paragraphs, n)| ==>
      ExtractedParagraph(paragraphs, n, NonBlankParagraphs(paragraphs, n)[k])
  {
    if n > 0 {
      NonBlankParagraphsSound(paragraphs, n - 1);
      var prev := NonBlankParagraphs(paragraphs, n - 1);
      var r := NonBlankParagraphs(paragraphs, n);
      assert r == prev + ExtractStep(paragraphs[n - 1], n);
      forall k | 0 <= k < |r| ensures ExtractedParagraph(paragraphs, n, r[k]) {
        if k < |prev| {
          assert r[k] == prev[k] && ExtractedParagraph(paragraphs, n - 1, prev[k]);
        }
      }
    }
  }

  /** The positions, among the first `n`, of the sentences that mention the query, in increasing order. */
  function MatchPositions(sentences: seq<string>, q: string, n: nat): (r: seq<nat>)
    requires n <= |sentences|
    ensures |r| <= n
  {
    if n == 0 then []
    else
      var prev := MatchPositions(sentences, q, n - 1);
      if Contains(Lower(sentences[n - 1]), q) then prev + [n - 1] else prev
  }

  /** The positions increase, and a position is listed exactly when its sentence, among the first `n`, mentions the query. */
  lemma {:induction false} MatchPositionsMeans(sentences: seq<string>, q: string, n: nat)
    requires n <= |sentences|
    ensures forall t, u :: 0 <= t < u < |MatchPositions(sentences, q, n)| ==>
      MatchPositions(sentences, q, n)[t] < MatchPositions(sentences, q, n)[u]
    ensures forall k: nat :: k in MatchPositions(sentences, q, n) <==> k < n && Contains(Lower(sentences[k]), q)
  {
    if n > 0 {
      MatchPositionsMeans(sentences, q, n - 1);
      var prev := MatchPositions(sentences, q, n - 1);
      forall t | 0 <= t < |prev| ensures prev[t] < n - 1 {
        assert prev[t] in prev;
      }
    }
  }

  /** Entry `t` of the matching sentences is the stripped sentence at the `t`-th matching position. */
  lemma {:induction false} MatchingSentencesAt(sentences: seq<string>, q: string, n: nat)
    requires n <= |sentences|
    ensures |MatchingSentences(sentences, q, n)| == |MatchPositions(sentences, q, n)|
    ensures forall t :: 0 <= t < |MatchPositions(sentences, q, n)| ==>
      MatchPositions(sentences, q, n)[t] < n &&
      MatchingSentences(sentences, q, n)[t] == Strip(sentences[MatchPositions(sentences, q, n)[t]])
  {
    if n > 0 {
      MatchingSentencesAt(sentences, q, n - 1);
    }
  }

  /** A string is among the matching sentences exactly when it is the stripped form of one of the first `n` that mentions the query. */
  lemma MatchingSentencesMembers(sentences: seq<string>, q: string, n: nat)
    requires n <= |sentences|
    ensures forall s :: s in MatchingSentences(sentences, q, n) <==>
      exists k :: 0 <= k < n && Contains(Lower(sentences[k]), q) && s == Strip(sentences[k])
  {
    var r := MatchingSentences(sentences, q, n);
    var pos := MatchPositions(sentences, q, n);
    MatchingSentencesAt(sentences, q, n);
    MatchPositionsMeans(sentences, q, n);
    forall s | s in r ensures exists k :: 0 <= k < n && Contains(Lower(sentences[k]), q) && s == Strip(sentences[k]) {
      var t :| 0 <= t < |r| && r[t] == s;
      assert pos[t] in pos;
    }
    forall s | exists k :: 0 <= k < n && Contains(Lower(sentences[k]), q) && s == Strip(sentences[k]) ensures s in r {
      var k :| 0 <= k < n && Contains(Lower(sentences[k]), q) && s == Strip(sentences[k]);
      assert k in pos;
      var t :| 0 <= t < |pos| && pos[t] == k;
      assert r[t] == s;
    }
  }

  /** What paragraph `number` contributes to the extraction: its stripped text unless that is blank. */
  function ExtractStep(text: string, number: nat): seq<(nat, string)>
  {
    var t := Strip(text);
    if t != "" then [(number, t)] else []
  }

  /** One more paragraph appends its contribution. */
  lemma NonBlankParagraphsNext(paragraphs: seq<string>, i: nat)
    requires i < |paragraphs|
    ensures NonBlankParagraphs(paragraphs, i + 1) == NonBlankParagraphs(paragraphs, i) + ExtractStep(paragraphs[i], i + 1)
  {
  }

  /** The extracted paragraphs come in increasing index order. */
  lemma {:induction false} NonBlankParagraphsOrdered(paragraphs: seq<string>, n: nat)
    requires n <= |paragraphs|
    ensures forall i, j :: 0 <= i < j < |NonBlankParagraphs(paragraphs, n)| ==>
      NonBlankParagraphs(paragraphs, n)[i].0 < NonBlankParagraphs(paragraphs, n)[j].0
  {
    if n > 0 {
      NonBlankParagraphsOrdered(paragraphs, n - 1);
      NonBlankParagraphsSound(paragraphs, n - 1);
      var prev := NonBlankParagraphs(paragraphs, n - 1);
      var step := ExtractStep(paragraphs[n - 1], n);
      var r := NonBlankParagraphs(paragraphs, n);
      assert r == prev + step;
      forall i, j | 0 <= i < j < |r| ensures r[i].0 < r[j].0 {
        assert r[i] == prev[i];
        if j < |prev| {
          assert r[j] == prev[j];
          assert prev[i].0 < prev[j].0;
        } else {
          assert r[j] == step[0] && step[0].0 == n;
          assert ExtractedParagraph(paragraphs, n - 1, prev[i]);
        }
      }
    }
  }

  /** Every non-blank paragraph among the first `n` is extracted under its own index. */
  lemma {:induction false} NonBlankParagraphExtracted(paragraphs: seq<string>, n: nat, j: nat)
    requires j < n <= |paragraphs| && Strip(paragraphs[j]) != ""
    ensures (j + 1, Strip(paragraphs[j])) in NonBlankParagraphs(paragraphs, n)
  {
    var prev := NonBlankParagraphs(paragraphs, n - 1);
    var step := ExtractStep(paragraphs[n - 1], n);
    assert NonBlankParagraphs(paragraphs, n) == prev + step;
    if j < n - 1 {
      NonBlankParagraphExtracted(paragraphs, n - 1, j);
      assert (j + 1, Strip(paragraphs[j])) in prev;
    } else {
      assert step == [(j + 1, Strip(paragraphs[j]))];
    }
  }

  datatype TableInfo = TableShape(number: nat, rows: nat, columns: nat) | TableUnreadable(number: nat)

  /** One line per table, numbered from 1; a table whose size cannot be read is reported as such. */
  function TableInfos(tables: seq<DocTable>): (r: seq<TableInfo>)
    ensures |r| == |tables|
    ensures forall i :: 0 <= i < |r| ==> r[i].number == i + 1
    ensures forall i :: 0 <= i < |r| ==> (r[i].TableShape? <==> tables[i].dims.Some?)
    ensures forall i :: 0 <= i < |r| && r[i].TableShape? ==> (r[i].rows, r[i].columns) == tables[i].dims.value
  {
    seq(|tables|, i requires 0 <= i < |tables| =>
      match tables[i].dims
      case Some(d) => TableShape(i + 1, d.0, d.1)
      case None => TableUnreadable(i + 1))
  }

  /** The loop over the tables that both extraction and the summary run. */
  method DescribeTables(tables: seq<DocTable>) returns (infos: seq<TableInfo>)
    ensures infos == TableInfos(tables)
  {
    infos := [];
    for i := 0 to |tables|
      invariant infos == TableInfos(tables)[..i]
    {
      match tables[i].dims {
        case Some(d) => infos := infos + [TableShape(i + 1, d.0, d.1)];
        case None => infos := infos + [TableUnreadable(i + 1)];
      }
    }
  }

  datatype ExtractOutcome =
    | NoTextExtracted                                                  // "❌ NENHUM TEXTO EXTRAÍDO do DOCX. ..."
    | Text(paragraphs: seq<(nat, string)>, tables: seq<TableInfo>)     // "§i: text" lines, then one line per table

  /** The paragraph loop of `_extract_full_text`: it stops at the first index that reaches a non-zero limit. */
  method ExtractParagraphs(paragraphs: seq<string>, limit: Option<int>) returns (extracted: seq<(nat, string)>)
    ensures extracted == NonBlankParagraphs(paragraphs, Processed(|paragraphs|, limit))
  {
    extracted := [];
    var i := 0;
    while i < |paragraphs| && !(Limited(limit) && i >= limit.value)   // the `break` once `i` reaches the limit
      invariant i <= Processed(|paragraphs|, limit)
      invariant extracted == NonBlankParagraphs(paragraphs, i)
    {
      ProcessedNext(|paragraphs|, limit, i);
      var found := ExtractParagraph(paragraphs[i], i + 1);
      NonBlankParagraphsNext(paragraphs, i);
      extracted := extracted + found;
      i := i + 1;
    }
    StopsAtProcessed(|paragraphs|, limit, i);
  }

  /** The body of the paragraph loop for one paragraph. */
  method ExtractParagraph(text: string, number: nat) returns (found: seq<(nat, string)>)
    ensures found == ExtractStep(text, number)
  {
    found := [];
    var stripped := Strip(text);
    if stripped != "" {
      found := [(number, stripped)];
    }
  }

  /** `_extract_full_text`: the paragraph loop breaks at the limit; tables are listed after the paragraphs. */
  method ExtractFullText(doc: Document, limit: Option<int>) returns (out: ExtractOutcome)
    ensures var ps := NonBlankParagraphs(doc.paragraphs, Processed(|doc.paragraphs|, limit));
            out == if ps == [] then NoTextExtracted else Text(ps, TableInfos(doc.tables))
  {
    var paragraphs := ExtractParagraphs(doc.paragraphs, limit);
    if paragraphs == [] {
      return NoTextExtracted;
    }
    var infos := DescribeTables(doc.tables);
    return Text(paragraphs, infos);
  }

  // ---------------------------------------------------------------------
  // Search

  datatype Hit =
    | ParagraphHit(number: nat, sentences: seq<string>)                 // "📍 PARÁGRAFO n:" and one bullet per sentence
    | CellHit(table: nat, row: nat, cell: nat, text: string)           // "📍 TABELA t, LINHA r, CÉLULA c:" and the stripped text

  /** `text and query_lower in text.lower()`. */
  predicate Mentions(text: string, q: string)
  {
    text != "" && Contains(Lower(text), q)
  }

  /** The stripped sentences, among the first `n`, that mention the query. */
  function MatchingSentences(sentences: seq<string>, q: string, n: nat): (r: seq<string>)
    requires n <= |sentences|
    ensures |r| <= n
  {
    if n == 0 then []
    else
      var prev := MatchingSentences(sentences, q, n - 1);
      if Contains(Lower(sentences[n - 1]), q) then prev + [Strip(sentences[n - 1])] else prev
  }

  /** What paragraph `number` contributes: one hit with its matching sentences, when it mentions the query and some do. */
  function ParagraphStep(text: string, number: nat, q: string, split: string -> seq<string>): seq<Hit>
  {
    var matching := MatchingSentences(split(text), q, |split(text)|);
    if Mentions(text, q) && matching != [] then [ParagraphHit(number, matching)] else []
  }

  /** A paragraph hit for one of the first `n` paragraphs, which mentions the query, carrying exactly its matching sentences, of which there is some. */
  predicate SoundParagraphHit(paragraphs: seq<string>, q: string, split: string -> seq<string>, n: nat, h: Hit)
    requires n <= |paragraphs|
  {
    h.ParagraphHit? && 1 <= h.number <= n && Mentions(paragraphs[h.number - 1], q) && h.sentences != []
    && h.sentences == MatchingSentences(split(paragraphs[h.number - 1]), q, |split(paragraphs[h.number - 1])|)
  }

  /** The paragraph hits among the first `n` paragraphs. */
  function ParagraphHits(paragraphs: seq<string>, q: string, split: string -> seq<string>, n: nat): (r: seq<Hit>)
    requires n <= |paragraphs|
    ensures |r| <= n
  {
    if n == 0 then [] else ParagraphHits(paragraphs, q, split, n - 1) + ParagraphStep(paragraphs[n - 1], n, q, split)
  }

  /** Every paragraph hit is one of the first `n` paragraphs, which mentions the query, with exactly its matching sentences. */
  lemma {:induction false} ParagraphHitsSound(paragraphs: seq<string>, q: string, split: string -> seq<string>, n: nat)
    requires n <= |paragraphs|
    ensures forall k :: 0 <= k < |ParagraphHits(paragraphs, q, split, n)| ==>
      SoundParagraphHit(paragraphs, q, split, n, ParagraphHits(paragraphs, q, split, n)[k])
  {
    if n > 0 {
      ParagraphHitsSound(paragraphs, q, split, n - 1);
      var prev := ParagraphHits(paragraphs, q, split, n - 1);
      var r := ParagraphHits(paragraphs, q, split, n);
      assert r == prev + ParagraphStep(paragraphs[n - 1], n, q, split);
      forall k | 0 <= k < |r| ensures SoundParagraphHit(paragraphs, q, split, n, r[k]) {
        if k < |prev| {
          assert r[k] == prev[k] && SoundParagraphHit(paragraphs, q, split, n - 1, prev[k]);
        }
      }
    }
  }

  /** The paragraph hits come in increasing paragraph order. */
  lemma {:induction false} ParagraphHitsOrdered(paragraphs: seq<string>, q: string, split: string -> seq<string>, n: nat)
    requires n <= |paragraphs|
    ensures forall i, j :: 0 <= i < j < |ParagraphHits(paragraphs, q, split, n)| ==>
      ParagraphHits(paragraphs, q, split, n)[i].ParagraphHit? && ParagraphHits(paragraphs, q, split, n)[j].ParagraphHit? &&
      ParagraphHits(paragraphs, q, split, n)[i].number < ParagraphHits(paragraphs, q, split, n)[j].number
  {
    if n > 0 {
      ParagraphHitsOrdered(paragraphs, q, split, n - 1);
      ParagraphHitsSound(paragraphs, q, split, n - 1);
      var prev := ParagraphHits(paragraphs, q, split, n - 1);
      var step := ParagraphStep(paragraphs[n - 1], n, q, split);
      var r := ParagraphHits(paragraphs, q, split, n);
      assert r == prev + step;
      forall i, j | 0 <= i < j < |r| ensures r[i].ParagraphHit? && r[j].ParagraphHit? && r[i].number < r[j].number {
        assert r[i] == prev[i];
        if j < |prev| {
          assert r[j] == prev[j];
          assert prev[i].number < prev[j].number;
        } else {
          assert r[j] == step[0] && step[0].number == n;
          assert SoundParagraphHit(paragraphs, q, split, n - 1, prev[i]);
        }
      }
    } else {
      assert ParagraphHits(paragraphs, q, split, n) == [];
    }
  }

  /** A mentioning paragraph is reported exactly when one of its sentences mentions the query. */
  lemma {:induction false} ParagraphHitReported(paragraphs: seq<string>, q: string, split: string -> seq<string>, n: nat, j: nat)
    requires j < n <= |paragraphs| && Mentions(paragraphs[j], q)
    ensures var matching := MatchingSentences(split(paragraphs[j]), q, |split(paragraphs[j])|);
            matching != [] ==> ParagraphHit(j + 1, matching) in ParagraphHits(paragraphs, q, split, n)
  {
    var matching := MatchingSentences(split(paragraphs[j]), q, |split(paragraphs[j])|);
    if matching != [] {
      var prev := ParagraphHits(paragraphs, q, split, n - 1);
      var step := ParagraphStep(paragraphs[n - 1], n, q, split);
      assert ParagraphHits(paragraphs, q, split, n) == prev + step by {
        ParagraphHitsNext(paragraphs, q, split, n - 1);
      }
      if j < n - 1 {
        ParagraphHitReported(paragraphs, q, split, n - 1, j);
        assert ParagraphHit(j + 1, matching) in prev;
      } else {
        assert step == [ParagraphHit(j + 1, matching)];
      }
    }
  }

  /** The inner loop over the sentences of one paragraph. */
  method MatchSentences(sentences: seq<string>, q: string) returns (matching: seq<string>)
    ensures matching == MatchingSentences(sentences, q, |sentences|)
  {
    matching := [];
    for k := 0 to |sentences|
      invariant matching == MatchingSentences(sentences, q, k)
    {
      if Contains(Lower(sentences[k]), q) {
        matching := matching + [Strip(sentences[k])];
      }
    }
  }

  /** How many rows of a table are read before one raises. */
  function Readable(rows: seq<Row>): (r: nat)
    ensures r <= |rows|
    ensures forall k :: 0 <= k < r ==> rows[k].Cells?
    ensures r < |rows| ==> rows[r].RowFailed?
  {
    if rows == [] || rows[0].RowFailed? then 0 else 1 + Readable(rows[1..])
  }

  /** The cell hits among the first `n` cells of row `row` of table `table` (both 1-based). */
  function CellHits(cells: seq<string>, q: string, table: nat, row: nat, n: nat): (r: seq<Hit>)
    requires n <= |cells|
    ensures forall k :: 0 <= k < |r| ==>
      r[k].CellHit? && r[k].table == table && r[k].row == row && 1 <= r[k].cell <= n
  {
    if n == 0 then []
    else
      var prev := CellHits(cells, q, table, row, n - 1);
      if Mentions(cells[n - 1], q) then prev + [CellHit(table, row, n, Strip(cells[n - 1]))] else prev
  }

  /** Table, row, cell order. */
  predicate Before(a: Hit, b: Hit)
    requires a.CellHit? && b.CellHit?
  {
    a.table < b.table || (a.table == b.table && (a.row < b.row || (a.row == b.row && a.cell < b.cell)))
  }

  /** The cell hits of the first `n` rows of table `table`; every row among them is readable. */
  function RowHits(rows: seq<Row>, q: string, table: nat, n: nat): (r: seq<Hit>)
    requires n <= Readable(rows)
    ensures forall k :: 0 <= k < |r| ==>
      r[k].CellHit? && r[k].table == table && 1 <= r[k].row <= n
      && 1 <= r[k].cell <= |rows[r[k].row - 1].cells|
  {
    if n == 0 then []
    else
      var cells := rows[n - 1].cells;
      var prev := RowHits(rows, q, table, n - 1);
      var last := CellHits(cells, q, table, n, |cells|);
      var r := prev + last;
      assert forall k :: 0 <= k < |prev| ==> r[k] == prev[k] && r[k].row < n;
      assert forall k :: |prev| <= k < |r| ==> r[k] == last[k - |prev|] && r[k].row == n;
      r
  }

  /** The cell hits of the first `n` tables, each read up to its first failing row. */
  function TableHits(tables: seq<DocTable>, q: string, n: nat): (r: seq<Hit>)
    requires n <= |tables|
    ensures forall k :: 0 <= k < |r| ==> r[k].CellHit? && 1 <= r[k].table <= n
  {
    if n == 0 then []
    else
      var rows := tables[n - 1].rows;
      var prev := TableHits(tables, q, n - 1);
      var last := RowHits(rows, q, n, Readable(rows));
      var r := prev + last;
      assert forall k :: |prev| <= k < |r| ==> r[k] == last[k - |prev|];
      r
  }

  /** The hits of a row come in increasing cell order. */
  lemma {:induction false} CellHitsOrdered(cells: seq<string>, q: string, table: nat, row: nat, n: nat)
    requires n <= |cells|
    ensures forall i, j :: 0 <= i < j < |CellHits(cells, q, table, row, n)| ==>
      CellHits(cells, q, table, row, n)[i].cell < CellHits(cells, q, table, row, n)[j].cell
  {
    if n > 0 {
      CellHitsOrdered(cells, q, table, row, n - 1);
      var prev := CellHits(cells, q, table, row, n - 1);
      var r := CellHits(cells, q, table, row, n);
      if Mentions(cells[n - 1], q) {
        var hit := CellHit(table, row, n, Strip(cells[n - 1]));
        assert r == prev + [hit];
        forall i, j | 0 <= i < j < |r| ensures r[i].cell < r[j].cell {
          assert r[i] == prev[i];
          if j < |prev| {
            assert r[j] == prev[j];
            assert prev[i].cell < prev[j].cell;
          } else {
            assert r[j] == hit;
            assert prev[i].cell <= n - 1;
          }
        }
      } else {
        assert r == prev;
      }
    }
  }

  /** The hits of a table come in row-then-cell order. */
  lemma {:induction false} RowHitsOrdered(rows: seq<Row>, q: string, table: nat, n: nat)
    requires n <= Readable(rows)
    ensures forall i, j :: 0 <= i < j < |RowHits(rows, q, table, n)| ==> Before(RowHits(rows, q, table, n)[i], RowHits(rows, q, table, n)[j])
  {
    if n > 0 {
      RowHitsOrdered(rows, q, table, n - 1);
      var cells := rows[n - 1].cells;
      CellHitsOrdered(cells, q, table, n, |cells|);
      var prev := RowHits(rows, q, table, n - 1);
      var last := CellHits(cells, q, table, n, |cells|);
      var r := RowHits(rows, q, table, n);
      assert r == prev + last;
      forall i, j | 0 <= i < j < |r| ensures Before(r[i], r[j]) {
        if j < |prev| {
          assert r[i] == prev[i] && r[j] == prev[j];
          assert Before(prev[i], prev[j]);
        } else if i < |prev| {
          assert r[i] == prev[i] && r[j] == last[j - |prev|];
          assert prev[i].row <= n - 1 && last[j - |prev|].row == n;
        } else {
          assert r[i] == last[i - |prev|] && r[j] == last[j - |prev|];
          assert Before(last[i - |prev|], last[j - |prev|]);
        }
      }
    }
  }

  /** The hits of the document come in table-row-cell order. */
  lemma {:induction false} TableHitsOrdered(tables: seq<DocTable>, q: string, n: nat)
    requires n <= |tables|
    ensures forall i, j :: 0 <= i < j < |TableHits(tables, q, n)| ==> Before(TableHits(tables, q, n)[i], TableHits(tables, q, n)[j])
  {
    if n > 0 {
      TableHitsOrdered(tables, q, n - 1);
      var rows := tables[n - 1].rows;
      RowHitsOrdered(rows, q, n, Readable(rows));
      var prev := TableHits(tables, q, n - 1);
      var last := RowHits(rows, q, n, Readable(rows));
      var r := TableHits(tables, q, n);
      assert r == prev + last;
      forall i, j | 0 <= i < j < |r| ensures Before(r[i], r[j]) {
        if j < |prev| {
          assert r[i] == prev[i] && r[j] == prev[j];
          assert Before(prev[i], prev[j]);
        } else if i < |prev| {
          assert r[i] == prev[i] && r[j] == last[j - |prev|];
          assert prev[i].table <= n - 1 && last[j - |prev|].table == n;
        } else {
          assert r[i] == last[i - |prev|] && r[j] == last[j - |prev|];
          assert Before(last[i - |prev|], last[j - |prev|]);
        }
      }
    }
  }

  /** Each cell hit names a cell that mentions the query, and carries that cell's stripped text. */
  lemma {:induction false} CellHitsSound(cells: seq<string>, q: string, table: nat, row: nat, n: nat, k: nat)
    requires n <= |cells| && k < |CellHits(cells, q, table, row, n)|
    ensures var h := CellHits(cells, q, table, row, n)[k];
            Mentions(cells[h.cell - 1], q) && h.text == Strip(cells[h.cell - 1])
  {
    var prev := CellHits(cells, q, table, row, n - 1);
    if k < |prev| {
      CellHitsSound(cells, q, table, row, n - 1, k);
    }
  }

  /** `h` names a cell, among the first `n` readable rows, that mentions the query, and carries its stripped text. */
  predicate SoundRowHit(rows: seq<Row>, q: string, n: nat, h: Hit)
    requires n <= Readable(rows)
  {
    && h.CellHit? && 1 <= h.row <= n
    && var cells := rows[h.row - 1].cells;
       1 <= h.cell <= |cells| && Mentions(cells[h.cell - 1], q) && h.text == Strip(cells[h.cell - 1])
  }

  lemma {:induction false} RowHitsSound(rows: seq<Row>, q: string, table: nat, n: nat, k: nat)
    requires n <= Readable(rows) && k < |RowHits(rows, q, table, n)|
    ensures SoundRowHit(rows, q, n, RowHits(rows, q, table, n)[k])
  {
    var cells := rows[n - 1].cells;
    var prev := RowHits(rows, q, table, n - 1);
    var last := CellHits(cells, q, table, n, |cells|);
    assert RowHits(rows, q, table, n) == prev + last;
    if k < |prev| {
      assert RowHits(rows, q, table, n)[k] == prev[k];
      RowHitsSound(rows, q, table, n - 1, k);
      assert SoundRowHit(rows, q, n - 1, prev[k]);
    } else {
      var h := last[k - |prev|];
      assert RowHits(rows, q, table, n)[k] == h;
      CellHitsSound(cells, q, table, n, |cells|, k - |prev|);
      assert h.row == n && rows[h.row - 1].cells == cells;
    }
  }

  /** `h` names a readable cell of `tables` that mentions the query, and carries that cell's stripped text. */
  predicate SoundCellHit(tables: seq<DocTable>, q: string, h: Hit)
  {
    && h.CellHit? && 1 <= h.table <= |tables|
    && 1 <= h.row <= Readable(tables[h.table - 1].rows)
    && var cells := tables[h.table - 1].rows[h.row - 1].cells;
       1 <= h.cell <= |cells| && Mentions(cells[h.cell - 1], q) && h.text == Strip(cells[h.cell - 1])
  }

  /** Each table hit names a readable cell that mentions the query, and carries that cell's stripped text. */
  lemma {:induction false} TableHitsSound(tables: seq<DocTable>, q: string, n: nat, k: nat)
    requires n <= |tables| && k < |TableHits(tables, q, n)|
    ensures SoundCellHit(tables, q, TableHits(tables, q, n)[k])
  {
    var prev := TableHits(tables, q, n - 1);
    if k < |prev| {
      TableHitsSound(tables, q, n - 1, k);
      assert TableHits(tables, q, n)[k] == prev[k];
    } else {
      var rows := tables[n - 1].rows;
      var last := RowHits(rows, q, n, Readable(rows));
      LastTableSound(tables, q, n, k - |prev|);
      assert TableHits(tables, q, n)[k] == last[k - |prev|];
    }
  }

  /** A hit found in table `n` is sound for the whole document. */
  lemma LastTableSound(tables: seq<DocTable>, q: string, n: nat, j: nat)
    requires 0 < n <= |tables| && j < |RowHits(tables[n - 1].rows, q, n, Readable(tables[n - 1].rows))|
    ensures SoundCellHit(tables, q, RowHits(tables[n - 1].rows, q, n, Readable(tables[n - 1].rows))[j])
  {
    RowHitsSound(tables[n - 1].rows, q, n, Readable(tables[n - 1].rows), j);
  }

  /** Every mentioning cell of a readable row is reported, with its 1-based coordinates and stripped text. */
  lemma {:induction false} CellHitReported(tables: seq<DocTable>, q: string, n: nat, t: nat, row: nat, cell: nat)
    requires t < n <= |tables| && row < Readable(tables[t].rows)
    requires cell < |tables[t].rows[row].cells| && Mentions(tables[t].rows[row].cells[cell], q)
    ensures CellHit(t + 1, row + 1, cell + 1, Strip(tables[t].rows[row].cells[cell])) in TableHits(tables, q, n)
  {
    if t < n - 1 {
      var rows := tables[n - 1].rows;
      CellHitReported(tables, q, n - 1, t, row, cell);
      assert TableHits(tables, q, n) == TableHits(tables, q, n - 1) + RowHits(rows, q, n, Readable(rows));
    } else {
      CellInLastTable(tables, q, n, row, cell);
    }
  }

  /** A mentioning cell of the last of the first `n` tables is reported. */
  lemma CellInLastTable(tables: seq<DocTable>, q: string, n: nat, row: nat, cell: nat)
    requires 0 < n <= |tables| && row < Readable(tables[n - 1].rows)
    requires cell < |tables[n - 1].rows[row].cells| && Mentions(tables[n - 1].rows[row].cells[cell], q)
    ensures CellHit(n, row + 1, cell + 1, Strip(tables[n - 1].rows[row].cells[cell])) in TableHits(tables, q, n)
  {
    var rows := tables[n - 1].rows;
    CellInRow(rows, q, n, Readable(rows), row, cell);
    assert TableHits(tables, q, n) == TableHits(tables, q, n - 1) + RowHits(rows, q, n, Readable(rows));
  }

  lemma {:induction false} CellInRow(rows: seq<Row>, q: string, table: nat, n: nat, row: nat, cell: nat)
    requires row < n <= Readable(rows)
    requires cell < |rows[row].cells| && Mentions(rows[row].cells[cell], q)
    ensures CellHit(table, row + 1, cell + 1, Strip(rows[row].cells[cell])) in RowHits(rows, q, table, n)
  {
    var cells := rows[n - 1].cells;
    var prev := RowHits(rows, q, table, n - 1);
    var last := CellHits(cells, q, table, n, |cells|);
    assert RowHits(rows, q, table, n) == prev + last;
    if row < n - 1 {
      CellInRow(rows, q, table, n - 1, row, cell);
    } else {
      CellInCells(cells, q, table, n, |cells|, cell);
    }
  }

  lemma {:induction false} CellInCells(cells: seq<string>, q: string, table: nat, row: nat, n: nat, cell: nat)
    requires cell < n <= |cells| && Mentions(cells[cell], q)
    ensures CellHit(table, row, cell + 1, Strip(cells[cell])) in CellHits(cells, q, table, row, n)
  {
    if cell < n - 1 {
      CellInCells(cells, q, table, row, n - 1, cell);
    }
  }

  /** The loop over the cells of one row. */
  method SearchRow(cells: seq<string>, q: string, table: nat, row: nat) returns (hits: seq<Hit>)
    ensures hits == CellHits(cells, q, table, row, |cells|)
  {
    hits := [];
    for c := 0 to |cells|
      invariant hits == CellHits(cells, q, table, row, c)
    {
      if Mentions(cells[c], q) {
        hits := hits + [CellHit(table, row, c + 1, Strip(cells[c]))];
      }
    }
  }

  /** The loop over the rows of one table; a row that raises ends the table, keeping the hits found so far. */
  method SearchTable(rows: seq<Row>, q: string, table: nat) returns (hits: seq<Hit>)
    ensures hits == RowHits(rows, q, table, Readable(rows))
  {
    hits := [];
    var r := 0;
    while r < |rows|
      invariant r <= Readable(rows)
      invariant hits == RowHits(rows, q, table, r)
    {
      match rows[r] {
        case RowFailed(_) =>
          break;
        case Cells(cells) =>
          var found := SearchRow(cells, q, table, r + 1);
          hits := hits + found;
      }
      r := r + 1;
    }
  }

  /** `_search_in_tables`: tables, then rows, then cells, in order. */
  method SearchInTables(tables: seq<DocTable>, query: string) returns (hits: seq<Hit>)
    ensures hits == TableHits(tables, Lower(query), |tables|)
  {
    var q := Lower(query);
    hits := [];
    for t := 0 to |tables|
      invariant hits == TableHits(tables, q, t)
    {
      var found := SearchTable(tables[t].rows, q, t + 1);
      hits := hits + found;
    }
  }

  /** The paragraph loop of `_search_text`: it stops at the first index that reaches a non-zero limit. */
  method SearchParagraphs(paragraphs: seq<string>, query: string, split: string -> seq<string>, limit: Option<int>)
    returns (hits: seq<Hit>)
    ensures hits == ParagraphHits(paragraphs, Lower(query), split, Processed(|paragraphs|, limit))
  {
    var q := Lower(query);
    hits := [];
    var i := 0;
    while i < |paragraphs| && !(Limited(limit) && i >= limit.value)   // the `break` once `i` reaches the limit
      invariant i <= Processed(|paragraphs|, limit)
      invariant hits == ParagraphHits(paragraphs, q, split, i)
    {
      ProcessedNext(|paragraphs|, limit, i);
      var found := SearchParagraph(paragraphs[i], i + 1, q, split);
      ParagraphHitsNext(paragraphs, q, split, i);
      hits := hits + found;
      i := i + 1;
    }
    StopsAtProcessed(|paragraphs|, limit, i);
  }

  /** One more paragraph appends its contribution. */
  lemma ParagraphHitsNext(paragraphs: seq<string>, q: string, split: string -> seq<string>, i: nat)
    requires i < |paragraphs|
    ensures ParagraphHits(paragraphs, q, split, i + 1) == ParagraphHits(paragraphs, q, split, i) + ParagraphStep(paragraphs[i], i + 1, q, split)
  {
  }

  /** The body of the paragraph loop for one paragraph. */
  method SearchParagraph(text: string, number: nat, q: string, split: string -> seq<string>) returns (found: seq<Hit>)
    ensures found == ParagraphStep(text, number, q, split)
  {
    found := [];
    if Mentions(text, q) {
      var matching := MatchSentences(split(text), q);
      if matching != [] {
        found := [ParagraphHit(number, matching)];
      }
    }
  }

  /** The paragraph hits within the limit, then every table hit. */
  function SearchAll(doc: Document, q: string, split: string -> seq<string>, limit: Option<int>): seq<Hit>
  {
    ParagraphHits(doc.paragraphs, q, split, Processed(|doc.paragraphs|, limit)) + TableHits(doc.tables, q, |doc.tables|)
  }

  /** Paragraph hits come first and respect the limit; table hits follow and do not depend on it. */
  lemma SearchAllShape(doc: Document, q: string, split: string -> seq<string>, limit: Option<int>)
    ensures var r := SearchAll(doc, q, split, limit);
      forall i, j :: 0 <= i < j < |r| && r[i].CellHit? ==> r[j].CellHit?
    ensures var r := SearchAll(doc, q, split, limit);
      forall k :: 0 <= k < |r| && r[k].ParagraphHit? ==> !(Limited(limit) && r[k].number - 1 >= limit.value)
    ensures var r := SearchAll(doc, q, split, limit);
      r[|r| - |TableHits(doc.tables, q, |doc.tables|)|..] == SearchAll(doc, q, split, Some(-1))
  {
    ParagraphsBeforeTables(doc, q, split, limit);
    ParagraphsWithinLimit(doc, q, split, limit);
    TablesIgnoreLimit(doc, q, split, limit);
  }

  /** No paragraph hit follows a cell hit. */
  lemma ParagraphsBeforeTables(doc: Document, q: string, split: string -> seq<string>, limit: Option<int>)
    ensures var r := SearchAll(doc, q, split, limit);
      forall i, j :: 0 <= i < j < |r| && r[i].CellHit? ==> r[j].CellHit?
  {
    var p := ParagraphHits(doc.paragraphs, q, split, Processed(|doc.paragraphs|, limit));
    var t := TableHits(doc.tables, q, |doc.tables|);
    ParagraphHitsSound(doc.paragraphs, q, split, Processed(|doc.paragraphs|, limit));
    assert SearchAll(doc, q, split, limit) == p + t;
  }

  /** Every paragraph hit lies within the paragraph limit. */
  lemma ParagraphsWithinLimit(doc: Document, q: string, split: string -> seq<string>, limit: Option<int>)
    ensures var r := SearchAll(doc, q, split, limit);
      forall k :: 0 <= k < |r| && r[k].ParagraphHit? ==> !(Limited(limit) && r[k].number - 1 >= limit.value)
  {
    var p := ParagraphHits(doc.paragraphs, q, split, Processed(|doc.paragraphs|, limit));
    var t := TableHits(doc.tables, q, |doc.tables|);
    var r := SearchAll(doc, q, split, limit);
    assert r == p + t;
    ParagraphHitsSound(doc.paragraphs, q, split, Processed(|doc.paragraphs|, limit));
    forall k | 0 <= k < |r| && r[k].ParagraphHit?
      ensures !(Limited(limit) && r[k].number - 1 >= limit.value)
    {
      assert k < |p|;
    }
  }

  /** The table hits close the list whatever the limit. */
  lemma TablesIgnoreLimit(doc: Document, q: string, split: string -> seq<string>, limit: Option<int>)
    ensures var r := SearchAll(doc, q, split, limit);
      r[|r| - |TableHits(doc.tables, q, |doc.tables|)|..] == SearchAll(doc, q, split, Some(-1))
  {
    var p := ParagraphHits(doc.paragraphs, q, split, Processed(|doc.paragraphs|, limit));
    var t := TableHits(doc.tables, q, |doc.tables|);
    var r := SearchAll(doc, q, split, limit);
    assert r == p + t;
    assert SearchAll(doc, q, split, Some(-1)) == [] + t;
    assert r[|p|..] == t;
  }

  datatype SearchOutcome =
    | TermNotFound(query: string)                             // "🔍 TERMO NÃO ENCONTRADO: ..."
    | Found(query: string, count: nat, hits: seq<Hit>)        // "Encontrado em count local(is)"

  /** `_search_text`: the count reported is the number of hits. */
  method SearchText(doc: Document, query: string, split: string -> seq<string>, limit: Option<int>) returns (out: SearchOutcome)
    ensures var hits := SearchAll(doc, Lower(query), split, limit);
            out == if hits == [] then TermNotFound(query) else Found(query, |hits|, hits)
  {
    var results := SearchParagraphs(doc.paragraphs, query, split, limit);
    var tableResults := SearchInTables(doc.tables, query);
    results := results + tableResults;
    if results == [] {
      return TermNotFound(query);
    }
    return Found(query, |results|, results);
  }

  // ---------------------------------------------------------------------
  // Summary

  predicate NonBlank(text: string) { Strip(text) != "" }

  /** `sum(1 for p in doc.paragraphs if p.text.strip())`. */
  function NonBlankCount(paragraphs: seq<string>): nat
  {
    |Filter(paragraphs, NonBlank)|
  }

  /** The summary counts exactly the paragraphs an unlimited extraction returns. */
  lemma {:induction false} NonBlankCountIsExtracted(paragraphs: seq<string>, n: nat)
    requires n <= |paragraphs|
    ensures NonBlankCount(paragraphs[..n]) == |NonBlankParagraphs(paragraphs, n)|
  {
    if n > 0 {
      NonBlankCountIsExtracted(paragraphs, n - 1);
      assert paragraphs[..n] == paragraphs[..n - 1] + [paragraphs[n - 1]];
      FilterAppend(paragraphs[..n - 1], [paragraphs[n - 1]], NonBlank);
    }
  }

  const PreviewLength: nat := 200

  /** A preview line: the text cut to 200 characters, with "..." when it was longer. */
  function Cut(text: string): (r: string)
    ensures |r| <= PreviewLength + 3
    ensures |text| <= PreviewLength ==> r == text
    ensures |text| > PreviewLength ==> |r| == PreviewLength + 3 && r[..PreviewLength] == text[..PreviewLength] && EndsWith(r, "...")
  {
    if |text| > PreviewLength then text[..PreviewLength] + "..." else text
  }

  /** The stripped non-blank paragraphs among the first three, cut; the tool numbers them 1, 2, 3 in this list. */
  function Preview(paragraphs: seq<string>): (r: seq<string>)
  {
    var first := paragraphs[..Min(3, |paragraphs|)];
    var kept := NonBlankParagraphs(first, |first|);
    seq(|kept|, k requires 0 <= k < |kept| => Cut(kept[k].1))
  }

  /** The preview has one line per non-blank paragraph among the first three, each at most 203 characters,
      and every such paragraph appears in it, stripped and cut. */
  lemma PreviewShape(paragraphs: seq<string>)
    ensures |Preview(paragraphs)| == NonBlankCount(paragraphs[..Min(3, |paragraphs|)]) <= 3
    ensures forall k :: 0 <= k < |Preview(paragraphs)| ==> |Preview(paragraphs)[k]| <= PreviewLength + 3
    ensures forall i :: 0 <= i < Min(3, |paragraphs|) && Strip(paragraphs[i]) != "" ==>
      Cut(Strip(paragraphs[i])) in Preview(paragraphs)
  {
    var first := paragraphs[..Min(3, |paragraphs|)];
    NonBlankCountIsExtracted(first, |first|);
    assert first[..|first|] == first;
    var kept := NonBlankParagraphs(first, |first|);
    forall i | 0 <= i < Min(3, |paragraphs|) && Strip(paragraphs[i]) != ""
      ensures Cut(Strip(paragraphs[i])) in Preview(paragraphs)
    {
      assert first[i] == paragraphs[i];
      NonBlankParagraphExtracted(first, |first|, i);
      var k :| 0 <= k < |kept| && kept[k] == (i + 1, Strip(paragraphs[i]));
      assert Preview(paragraphs)[k] == Cut(Strip(paragraphs[i]));
    }
  }

  /** Entry `k` of the preview is paragraph `i` (one of the first three), stripped and cut, and exactly
      `k` non-blank paragraphs come before it: the preview keeps the document's order. */
  lemma PreviewEntry(paragraphs: seq<string>, k: nat) returns (i: nat)
    requires k < |Preview(paragraphs)|
    ensures i < Min(3, |paragraphs|) && Strip(paragraphs[i]) != ""
    ensures Preview(paragraphs)[k] == Cut(Strip(paragraphs[i]))
    ensures NonBlankCount(paragraphs[..i]) == k
  {
    var first := paragraphs[..Min(3, |paragraphs|)];
    i := NonBlankEntryAt(first, |first|, k);
    NonBlankParagraphsSound(first, |first|);
    assert first[i] == paragraphs[i];
    NonBlankCountIsExtracted(first, i);
    assert first[..i] == paragraphs[..i];
  }

  /** Entry `k` of the extraction is paragraph `i`, and `k` extracted paragraphs precede it. */
  lemma {:induction false} NonBlankEntryAt(paragraphs: seq<string>, n: nat, k: nat) returns (i: nat)
    requires n <= |paragraphs| && k < |NonBlankParagraphs(paragraphs, n)|
    ensures i < n && NonBlankParagraphs(paragraphs, n)[k] == (i + 1, Strip(paragraphs[i]))
    ensures |NonBlankParagraphs(paragraphs, i)| == k
  {
    var prev := NonBlankParagraphs(paragraphs, n - 1);
    var step := ExtractStep(paragraphs[n - 1], n);
    assert NonBlankParagraphs(paragraphs, n) == prev + step;
    if k < |prev| {
      i := NonBlankEntryAt(paragraphs, n - 1, k);
      assert (prev + step)[k] == prev[k];
    } else {
      assert step == [(n, Strip(paragraphs[n - 1]))] && k == |prev|;
      i := n - 1;
    }
  }

  /** The text a property shows, empty when it is not set. */
  function Shown(value: Option<string>): string
  {
    if value.Some? then value.value else ""
  }

  predicate HasValue(line: (string, string)) { line.1 != "" }

  /** The five properties with their labels, in the order the summary lists them. */
  function Labelled(p: Properties): seq<(string, string)>
  {
    [("Título", Shown(p.title))] + [("Autor", Shown(p.author))] + [("Assunto", Shown(p.subject))]
    + [("Criado em", Shown(p.created))] + [("Modificado em", Shown(p.modified))]
  }

  /** The line for one property: its name and value when it has one. */
  function PropertyLine(name: string, value: Option<string>): (r: seq<(string, string)>)
    ensures |r| <= 1 && forall k :: 0 <= k < |r| ==> r[k].1 != ""
    ensures r != [] <==> value.Some? && value.value != ""
    ensures r != [] ==> r[0] == (name, value.value)
  {
    if value.Some? && value.value != "" then [(name, value.value)] else []
  }

  /** One property's line is its labelled pair, kept when it has a value. */
  lemma PropertyLineFiltered(name: string, value: Option<string>)
    ensures PropertyLine(name, value) == Filter([(name, Shown(value))], HasValue)
  {
    FilterSingle((name, Shown(value)), HasValue);
  }

  /** The properties that are set, in the order title, author, subject, created, modified. */
  function PropertyLines(p: Properties): (r: seq<(string, string)>)
    ensures |r| <= 5
    ensures forall k :: 0 <= k < |r| ==> r[k].1 != ""
  {
    PropertyLine("Título", p.title) + PropertyLine("Autor", p.author) + PropertyLine("Assunto", p.subject)
    + PropertyLine("Criado em", p.created) + PropertyLine("Modificado em", p.modified)
  }

  /** The property lines are the labelled properties, in their order, without those that have no value. */
  lemma PropertyLinesInOrder(p: Properties)
    ensures PropertyLines(p) == Filter(Labelled(p), HasValue)
  {
    var a, b, c := [("Título", Shown(p.title))], [("Autor", Shown(p.author))], [("Assunto", Shown(p.subject))];
    var d, e := [("Criado em", Shown(p.created))], [("Modificado em", Shown(p.modified))];
    FilterAppend(a + b + c + d, e, HasValue);
    FilterAppend(a + b + c, d, HasValue);
    FilterAppend(a + b, c, HasValue);
    FilterAppend(a, b, HasValue);
    PropertyLineFiltered("Título", p.title);
    PropertyLineFiltered("Autor", p.author);
    PropertyLineFiltered("Assunto", p.subject);
    PropertyLineFiltered("Criado em", p.created);
    PropertyLineFiltered("Modificado em", p.modified);
  }

  // ---------------------------------------------------------------------
  // The tool

  datatype Outcome =
    | FileNotFound(path: string)        // "❌ ERRO: Arquivo DOCX não encontrado: ..."
    | LibraryMissing                    // "❌ ERRO: Biblioteca python-docx não está instalada. ..."
    | OpenFailed                        // "❌ ERRO ao processar DOCX: ..."
    | Extraction(extracted: ExtractOutcome)
    | Search(searched: SearchOutcome)
    | Info(fileName: string, nonBlank: nat, tables: seq<TableInfo>, properties: seq<(string, string)>, preview: seq<string>)

  /** `_get_docx_info`. */
  function DocumentInfo(path: string, doc: Document): Outcome
  {
    Info(BaseName(path), NonBlankCount(doc.paragraphs), TableInfos(doc.tables), PropertyLines(doc.properties), Preview(doc.paragraphs))
  }

  function ExtractResult(doc: Document, limit: Option<int>): ExtractOutcome
  {
    var ps := NonBlankParagraphs(doc.paragraphs, Processed(|doc.paragraphs|, limit));
    if ps == [] then NoTextExtracted else Text(ps, TableInfos(doc.tables))
  }

  function SearchResult(doc: Document, query: string, split: string -> seq<string>, limit: Option<int>): SearchOutcome
  {
    var hits := SearchAll(doc, Lower(query), split, limit);
    if hits == [] then TermNotFound(query) else Found(query, |hits|, hits)
  }

  /** `DOCXSearchTool._run`: extraction wins over search; neither requested gives the summary. */
  function Run(path: string, present: bool, libraryAvailable: bool, document: Option<Document>,
               query: Option<string>, extractText: bool, limit: Option<int>, split: string -> seq<string>): Outcome
  {
    if !present then FileNotFound(path)
    else if !libraryAvailable then LibraryMissing
    else match document
      case None => OpenFailed
      case Some(doc) =>
        if extractText then Extraction(ExtractResult(doc, limit))
        else if query.Some? && query.value != "" then Search(SearchResult(doc, query.value, split, limit))
        else DocumentInfo(path, doc)
  }

  /** A missing file is reported before the library check; the request decides the rest. */
  lemma RunDispatch(path: string, present: bool, libraryAvailable: bool, document: Option<Document>,
                    query: Option<string>, extractText: bool, limit: Option<int>, split: string -> seq<string>)
    ensures var out := Run(path, present, libraryAvailable, document, query, extractText, limit, split);
      (!present ==> out == FileNotFound(path))
      && (present && !libraryAvailable ==> out == LibraryMissing)
      && (present && libraryAvailable && document.Some? && extractText ==> out.Extraction?)
      && (present && libraryAvailable && document.Some? && !extractText ==>
            (out.Search? <==> query.Some? && query.value != ""))
  {
  }
}

=== FILE: pdf_search.dfy ===
/**
 * The PDF search helpers: the page-range parser, full-text extraction over
 * the selected pages, and term search with a window of context lines around
 * each matching line.
 *
 * A PDF is the sequence of what PyPDF2 extracts from each page: its text, or
 * the failure raised while extracting it.
 */
module PdfSearch {
  import opened Util
  import opened Text

  datatype Page = PageText(text: string) | PageFailed(message: string)

  /** The `IndexError` text of PyPDF2's page list, whose indexing rejects a position past the end. */
  const PageIndexError := "sequence index out of range"

  /** `reader.pages[i].extract_text()`: an index past the end raises as well. */
  function PageAt(pages: seq<Page>, i: int): Page
  {
    if 0 <= i < |pages| then pages[i] else PageFailed(PageIndexError)
  }

  /** `list(range(start, end))`. */
  function Range(start: int, end: int): (r: seq<int>)
    ensures |r| == Max(0, end - start)
    ensures forall k :: 0 <= k < |r| ==> r[k] == start + k
    decreases end - start
  {
    if start >= end then [] else [start] + Range(start + 1, end)
  }

  /** Every page, in order. */
  function AllPages(total: nat): (r: seq<int>)
    ensures |r| == total && forall k :: 0 <= k < total ==> r[k] == k
  {
    Range(0, total)
  }

  /**
   * `_parse_page_range`: "a-b" (1-based, inclusive, clamped), a single page
   * number (clamped), or every page when the range is absent, "all", or does
   * not parse.
   */
  function ParsePageRange(pageRange: Option<string>, total: nat): seq<int>
  {
    if pageRange.None? || pageRange.value == "" || Lower(pageRange.value) == "all" then AllPages(total)
    else
      var s := pageRange.value;
      if '-' in s then
        var parts := Split(s, '-');
        if |parts| != 2 then AllPages(total)
        else match (ParseInt(parts[0]), ParseInt(parts[1]))
          case (Some(a), Some(b)) => Range(Max(0, a - 1), Min(total, b))
          case _ => AllPages(total)
      else match ParseInt(s)
        case Some(p) => [Max(0, Min(p - 1, total - 1))]
        case None => AllPages(total)
  }

  /** An absent or empty range, or "all" in any case, selects every page. */
  lemma AllSelectsEveryPage(pageRange: Option<string>, total: nat)
    requires pageRange.None? || pageRange.value == "" || Lower(pageRange.value) == Lower("all")
    ensures ParsePageRange(pageRange, total) == AllPages(total)
  {
    assert Lower("all") == "all";
  }

  /** "a-b" selects the consecutive pages from max(0, a-1) up to min(total, b), all existing. */
  lemma DashRange(s: string, total: nat, a: int, b: int)
    requires s != "" && Lower(s) != "all"
    requires '-' in s && |Split(s, '-')| == 2 && ParseInt(Split(s, '-')[0]) == Some(a) && ParseInt(Split(s, '-')[1]) == Some(b)
    ensures var r := ParsePageRange(Some(s), total);
            && |r| == Max(0, Min(total, b) - Max(0, a - 1))
            && (forall k :: 0 <= k < |r| ==> r[k] == Max(0, a - 1) + k && 0 <= r[k] < total)
            && (Max(0, a - 1) >= Min(total, b) ==> r == [])
  {
    assert ParsePageRange(Some(s), total) == Range(Max(0, a - 1), Min(total, b));
  }

  /** A single number selects exactly one page, clamped; with no pages that is index 0. */
  lemma SinglePage(s: string, total: nat, p: int)
    requires s != "" && Lower(s) != "all" && '-' !in s && ParseInt(s) == Some(p)
    ensures ParsePageRange(Some(s), total) == [Max(0, Min(p - 1, total - 1))]
    ensures total >= 1 ==> 0 <= ParsePageRange(Some(s), total)[0] < total
    ensures total == 0 ==> ParsePageRange(Some(s), total) == [0]
  {
  }

  /** Whatever the range, each selected index is a page, except the lone 0 chosen for an empty document. */
  lemma SelectedPagesInRange(pageRange: Option<string>, total: nat)
    ensures var r := ParsePageRange(pageRange, total);
            total >= 1 ==> forall k :: 0 <= k < |r| ==> 0 <= r[k] < total
    ensures var r := ParsePageRange(pageRange, total);
            total == 0 ==> r == [] || r == [0]
  {
  }

  /** A leading '-' leaves an empty first part, which does not parse: every page is selected. */
  lemma LeadingDashFallsBack(n: string, total: nat)
    requires '-' !in n
    ensures ParsePageRange(Some("-" + n), total) == AllPages(total)
  {
    var s := "-" + n;
    assert s[0] == '-';
    var parts := Split(s, '-');
    assert parts == [""] + Split(s[1..], '-');
    assert s[1..] == n;
    SplitWithoutSeparator(n, '-');
    if |parts| == 2 {
      assert parts[0] == "";
      assert Strip("") == "";
    }
    assert Lower(s) != "all" by {
      assert Lower(s)[0] == '-';
    }
  }

  lemma {:induction false} SplitWithoutSeparator(s: string, c: char)
    requires c !in s
    ensures Split(s, c) == [s]
  {
    if s != [] {
      SplitWithoutSeparator(s[1..], c);
      assert [s[0]] + s[1..] == s;
    }
  }

  // ---------------------------------------------------------------------
  // Extraction

  datatype ExtractEntry = ExtractedPage(number: int, text: string) | ExtractError(number: int, message: string)

  datatype ExtractOutcome = NoTextExtracted | Extracted(entries: seq<ExtractEntry>)

  /** What one selected page contributes: its stripped text unless blank, or its error. */
  function ExtractOne(pages: seq<Page>, i: int): (r: seq<ExtractEntry>)
    ensures |r| <= 1
    ensures PageAt(pages, i).PageFailed? ==> r == [ExtractError(i + 1, PageAt(pages, i).message)]
    ensures PageAt(pages, i).PageText? ==>
      (r != [] <==> Strip(PageAt(pages, i).text) != "")
      && (r != [] ==> r == [ExtractedPage(i + 1, Strip(PageAt(pages, i).text))])
  {
    match PageAt(pages, i)
    case PageFailed(m) => [ExtractError(i + 1, m)]
    case PageText(t) => if Strip(t) != "" then [ExtractedPage(i + 1, Strip(t))] else []
  }

  function ExtractAll(pages: seq<Page>, selected: seq<int>): (r: seq<ExtractEntry>)
    ensures |r| <= |selected|
  {
    if selected == [] then [] else ExtractOne(pages, selected[0]) + ExtractAll(pages, selected[1..])
  }

  /** The body of the extraction loop for page `i`: its error, or its stripped text unless blank. */
  method ExtractPage(pages: seq<Page>, i: int) returns (one: seq<ExtractEntry>)
    ensures one == ExtractOne(pages, i)
  {
    one := [];
    var page := PageAt(pages, i);
    if page.PageFailed? {
      one := [ExtractError(i + 1, page.message)];
    } else {
      var stripped := Strip(page.text);
      if stripped != "" {
        one := [ExtractedPage(i + 1, stripped)];
      }
    }
  }

  /** `_extract_full_text`: appends per selected page, in order. */
  method ExtractFullText(pages: seq<Page>, selected: seq<int>) returns (out: ExtractOutcome)
    ensures out == (if ExtractAll(pages, selected) == [] then NoTextExtracted else Extracted(ExtractAll(pages, selected)))
  {
    var entries: seq<ExtractEntry> := [];
    for k := 0 to |selected|
      invariant entries + ExtractAll(pages, selected[k..]) == ExtractAll(pages, selected)
    {
      assert selected[k..][1..] == selected[k + 1..];
      var one := ExtractPage(pages, selected[k]);
      Regroup(entries, one, ExtractAll(pages, selected[k + 1..]));
      entries := entries + one;
    }
    if entries == [] {
      return NoTextExtracted;
    }
    return Extracted(entries);
  }

  lemma {:induction false} ExtractAllAppend(pages: seq<Page>, a: seq<int>, b: seq<int>)
    ensures ExtractAll(pages, a + b) == ExtractAll(pages, a) + ExtractAll(pages, b)
  {
    if a == [] {
      assert a + b == b;
    } else {
      assert (a + b)[1..] == a[1..] + b;
      ExtractAllAppend(pages, a[1..], b);
      Regroup(ExtractOne(pages, a[0]), ExtractAll(pages, a[1..]), ExtractAll(pages, b));
    }
  }

  /** Each selected page contributes its own entry (or none) in its place: the pages selected before it
      come first and those after it follow. */
  lemma ExtractAllAt(pages: seq<Page>, selected: seq<int>, k: nat)
    requires k < |selected|
    ensures ExtractAll(pages, selected)
      == ExtractAll(pages, selected[..k]) + ExtractOne(pages, selected[k]) + ExtractAll(pages, selected[k + 1..])
  {
    assert selected == selected[..k] + ([selected[k]] + selected[k + 1..]);
    ExtractAllAppend(pages, selected[..k], [selected[k]] + selected[k + 1..]);
    assert ([selected[k]] + selected[k + 1..])[1..] == selected[k + 1..];
  }

  /** Every entry is the whole contribution of some selected page. */
  lemma {:induction false} ExtractEntryFrom(pages: seq<Page>, selected: seq<int>, e: ExtractEntry) returns (k: nat)
    requires e in ExtractAll(pages, selected)
    ensures k < |selected| && ExtractOne(pages, selected[k]) == [e]
  {
    if e in ExtractOne(pages, selected[0]) {
      k := 0;
    } else {
      var k' := ExtractEntryFrom(pages, selected[1..], e);
      k := k' + 1;
    }
  }

  function EntryNumber(e: ExtractEntry): int
  {
    match e case ExtractedPage(n, _) => n case ExtractError(n, _) => n
  }

  function ExtractNumbers(entries: seq<ExtractEntry>): (r: seq<int>)
    ensures |r| == |entries|
  {
    if entries == [] then [] else [EntryNumber(entries[0])] + ExtractNumbers(entries[1..])
  }

  function PageNumbers(selected: seq<int>): (r: seq<int>)
    ensures |r| == |selected| && forall k :: 0 <= k < |r| ==> r[k] == selected[k] + 1
  {
    seq(|selected|, k requires 0 <= k < |selected| => selected[k] + 1)
  }

  /** Extraction keeps page order; the text it keeps is non-empty and starts with no blank. */
  lemma {:induction false} ExtractAllOrder(pages: seq<Page>, selected: seq<int>)
    ensures IsSubseq(ExtractNumbers(ExtractAll(pages, selected)), PageNumbers(selected))
    ensures forall e :: e in ExtractAll(pages, selected) && e.ExtractedPage? ==> e.text != "" && !IsSpace(e.text[0])
  {
    if selected != [] {
      ExtractAllOrder(pages, selected[1..]);
      var rest := ExtractAll(pages, selected[1..]);
      var one := ExtractOne(pages, selected[0]);
      if PageAt(pages, selected[0]).PageText? {
        StripFacts(PageAt(pages, selected[0]).text);
      }
      assert PageNumbers(selected)[1..] == PageNumbers(selected[1..]);
      if one == [] {
        assert ExtractAll(pages, selected) == rest;
        if ExtractNumbers(rest) != [] {
          SubseqCons(ExtractNumbers(rest), PageNumbers(selected));
        }
      } else {
        assert (one + rest)[1..] == rest;
        assert ExtractNumbers(one + rest) == [selected[0] + 1] + ExtractNumbers(rest);
      }
    }
  }

  // ---------------------------------------------------------------------
  // Search

  /** Lines i-2 through i+2 around line i, clipped to the page. */
  function ContextWindow(lines: seq<string>, i: nat): (r: seq<string>)
    requires i < |lines|
    ensures 1 <= |r| <= 5
    ensures i - Max(0, i - 2) < |r| && r[i - Max(0, i - 2)] == lines[i]
    ensures lines[i] in r
  {
    lines[Max(0, i - 2)..Min(|lines|, i + 3)]
  }

  /** The windows of the lines, among the first `n`, that contain the (lowercased) query. */
  function Contexts(lines: seq<string>, q: string, n: nat): (r: seq<seq<string>>)
    requires n <= |lines|
    ensures |r| <= n
  {
    if n == 0 then []
    else Contexts(lines, q, n - 1) + (if Contains(Lower(lines[n - 1]), q) then [ContextWindow(lines, n - 1)] else [])
  }

  /** Some window is collected exactly when one of the lines examined contains the query. */
  lemma {:induction false} ContextsEmptyIff(lines: seq<string>, q: string, n: nat)
    requires n <= |lines|
    ensures Contexts(lines, q, n) != [] <==> exists k :: 0 <= k < n && Contains(Lower(lines[k]), q)
  {
    if n > 0 {
      ContextsEmptyIff(lines, q, n - 1);
      var prev := Contexts(lines, q, n - 1);
      if Contains(Lower(lines[n - 1]), q) {
        assert Contexts(lines, q, n) == prev + [ContextWindow(lines, n - 1)];
      } else {
        assert Contexts(lines, q, n) == prev + [];
        assert prev + [] == prev;
        if exists k :: 0 <= k < n && Contains(Lower(lines[k]), q) {
          var k :| 0 <= k < n && Contains(Lower(lines[k]), q);
          assert k < n - 1;
        }
      }
    }
  }

  datatype SearchEntry = PageHits(number: int, contexts: seq<seq<string>>) | PageError(number: int, message: string)

  datatype SearchOutcome = TermNotFound(query: string) | Found(query: string, count: nat, entries: seq<SearchEntry>)

  /** What one selected page contributes: its windows when a line matches, or its error. */
  function SearchOne(pages: seq<Page>, i: int, q: string): (r: seq<SearchEntry>)
    ensures |r| <= 1
    ensures r != [] && r[0].PageHits? ==> r[0].contexts != []
    ensures PageAt(pages, i).PageFailed? ==> r == [PageError(i + 1, PageAt(pages, i).message)]
    ensures PageAt(pages, i).PageText? ==>
      var t := PageAt(pages, i).text;
      var lines := Split(t, '\n');
      (r != [] <==> t != "" && Contains(Lower(t), q) && Contexts(lines, q, |lines|) != [])
      && (r != [] ==> r == [PageHits(i + 1, Contexts(lines, q, |lines|))])
  {
    match PageAt(pages, i)
    case PageFailed(m) => [PageError(i + 1, m)]
    case PageText(t) =>
      if t != "" && Contains(Lower(t), q) then
        var lines := Split(t, '\n');
        var hits := Contexts(lines, q, |lines|);
        if hits != [] then [PageHits(i + 1, hits)] else []
      else []
  }

  function SearchAll(pages: seq<Page>, selected: seq<int>, q: string): (r: seq<SearchEntry>)
    ensures |r| <= |selected|
  {
    if selected == [] then [] else SearchOne(pages, selected[0], q) + SearchAll(pages, selected[1..], q)
  }

  /** The inner loop over the lines of one page. */
  method MatchingLines(lines: seq<string>, q: string) returns (hits: seq<seq<string>>)
    ensures hits == Contexts(lines, q, |lines|)
  {
    hits := [];
    for i := 0 to |lines|
      invariant hits == Contexts(lines, q, i)
    {
      if Contains(Lower(lines[i]), q) {
        var start := Max(0, i - 2);
        var end := Min(|lines|, i + 3);
        hits := hits + [lines[start..end]];
      }
    }
  }

  /** The body of the page loop of `_search_text` for one selected page. */
  method SearchPage(pages: seq<Page>, i: int, q: string) returns (found: seq<SearchEntry>)
    ensures found == SearchOne(pages, i, q)
  {
    found := [];
    match PageAt(pages, i) {
      case PageFailed(m) =>
        found := [PageError(i + 1, m)];
      case PageText(t) =>
        if t != "" && Contains(Lower(t), q) {
          var lines := Split(t, '\n');
          var hits := MatchingLines(lines, q);
          if hits != [] {
            found := [PageHits(i + 1, hits)];
          }
        }
    }
  }

  /** `_search_text`: the count reported is the number of result entries. */
  method SearchText(pages: seq<Page>, query: string, selected: seq<int>) returns (out: SearchOutcome)
    ensures var entries := SearchAll(pages, selected, Lower(query));
            out == if entries == [] then TermNotFound(query) else Found(query, |entries|, entries)
  {
    var q := Lower(query);
    var results: seq<SearchEntry> := [];
    for k := 0 to |selected|
      invariant results + SearchAll(pages, selected[k..], q) == SearchAll(pages, selected, q)
    {
      assert selected[k..][1..] == selected[k + 1..];
      var found := SearchPage(pages, selected[k], q);
      Regroup(results, found, SearchAll(pages, selected[k + 1..], q));
      results := results + found;
    }
    if results == [] {
      return TermNotFound(query);
    }
    return Found(query, |results|, results);
  }

  lemma {:induction false} SearchAllAppend(pages: seq<Page>, a: seq<int>, b: seq<int>, q: string)
    ensures SearchAll(pages, a + b, q) == SearchAll(pages, a, q) + SearchAll(pages, b, q)
  {
    if a == [] {
      assert a + b == b;
    } else {
      assert (a + b)[1..] == a[1..] + b;
      SearchAllAppend(pages, a[1..], b, q);
      Regroup(SearchOne(pages, a[0], q), SearchAll(pages, a[1..], q), SearchAll(pages, b, q));
    }
  }

  /** Each selected page contributes its own entry (or none) in its place. */
  lemma SearchAllAt(pages: seq<Page>, selected: seq<int>, q: string, k: nat)
    requires k < |selected|
    ensures SearchAll(pages, selected, q)
      == SearchAll(pages, selected[..k], q) + SearchOne(pages, selected[k], q) + SearchAll(pages, selected[k + 1..], q)
  {
    assert selected == selected[..k] + ([selected[k]] + selected[k + 1..]);
    SearchAllAppend(pages, selected[..k], [selected[k]] + selected[k + 1..], q);
    assert ([selected[k]] + selected[k + 1..])[1..] == selected[k + 1..];
  }

  /** Every entry is the whole contribution of some selected page. */
  lemma {:induction false} SearchEntryFrom(pages: seq<Page>, selected: seq<int>, q: string, e: SearchEntry) returns (k: nat)
    requires e in SearchAll(pages, selected, q)
    ensures k < |selected| && SearchOne(pages, selected[k], q) == [e]
  {
    if e in SearchOne(pages, selected[0], q) {
      k := 0;
    } else {
      var k' := SearchEntryFrom(pages, selected[1..], q, e);
      k := k' + 1;
    }
  }

  function SearchNumber(e: SearchEntry): int
  {
    match e case PageHits(n, _) => n case PageError(n, _) => n
  }

  function SearchNumbers(entries: seq<SearchEntry>): (r: seq<int>)
    ensures |r| == |entries|
  {
    if entries == [] then [] else [SearchNumber(entries[0])] + SearchNumbers(entries[1..])
  }

  /** A page contributes at most one entry, numbered after the page. */
  lemma SearchOneNumber(pages: seq<Page>, i: int, q: string)
    ensures SearchOne(pages, i, q) == [] || (|SearchOne(pages, i, q)| == 1 && SearchNumber(SearchOne(pages, i, q)[0]) == i + 1)
  {
  }

  /** Results list only pages with a hit or an error, in the order the pages were selected. */
  lemma SearchAllOrder(pages: seq<Page>, selected: seq<int>, q: string)
    ensures IsSubseq(SearchNumbers(SearchAll(pages, selected, q)), PageNumbers(selected))
    ensures forall e :: e in SearchAll(pages, selected, q) ==> e.PageError? || e.contexts != []
  {
    SearchAllSubseq(pages, selected, q);
    SearchAllEntries(pages, selected, q);
  }

  /** The pages listed are a subsequence of the pages selected. */
  lemma {:induction false} SearchAllSubseq(pages: seq<Page>, selected: seq<int>, q: string)
    ensures IsSubseq(SearchNumbers(SearchAll(pages, selected, q)), PageNumbers(selected))
  {
    if selected != [] {
      SearchAllSubseq(pages, selected[1..], q);
      var rest := SearchAll(pages, selected[1..], q);
      var one := SearchOne(pages, selected[0], q);
      assert SearchAll(pages, selected, q) == one + rest;
      assert PageNumbers(selected)[1..] == PageNumbers(selected[1..]);
      SearchOneNumber(pages, selected[0], q);
      if one == [] {
        assert one + rest == rest;
        if SearchNumbers(rest) != [] {
          SubseqCons(SearchNumbers(rest), PageNumbers(selected));
        }
      } else {
        assert (one + rest)[1..] == rest;
        assert SearchNumbers(one + rest) == [selected[0] + 1] + SearchNumbers(rest);
      }
    }
  }

  /** Every entry is an error or has at least one window. */
  lemma {:induction false} SearchAllEntries(pages: seq<Page>, selected: seq<int>, q: string)
    ensures forall e :: e in SearchAll(pages, selected, q) ==> e.PageError? || e.contexts != []
  {
    if selected != [] {
      SearchAllEntries(pages, selected[1..], q);
      assert SearchAll(pages, selected, q) == SearchOne(pages, selected[0], q) + SearchAll(pages, selected[1..], q);
    }
  }

  /** The line a window was cut around: a matching line among the first `n`, contained in the window. */
  predicate WindowOfMatch(lines: seq<string>, q: string, n: nat, w: seq<string>)
    requires n <= |lines|
  {
    exists i :: 0 <= i < n && Contains(Lower(lines[i]), q) && lines[i] in w
  }

  /** Each window holds a matching line and at most five lines. */
  lemma ContextsAreWindows(lines: seq<string>, q: string, n: nat)
    requires n <= |lines|
    ensures forall w :: w in Contexts(lines, q, n) ==> 1 <= |w| <= 5 && WindowOfMatch(lines, q, n, w)
  {
    forall w | w in Contexts(lines, q, n)
      ensures 1 <= |w| <= 5 && WindowOfMatch(lines, q, n, w)
    {
      var k :| 0 <= k < |Contexts(lines, q, n)| && Contexts(lines, q, n)[k] == w;
      var i := ContextAt(lines, q, n, k);
      assert lines[i] in w;
    }
  }

  /** The `k`-th window is the window of a matching line `i` among the first `n`. */
  lemma {:induction false} ContextAt(lines: seq<string>, q: string, n: nat, k: nat) returns (i: nat)
    requires n <= |lines| && k < |Contexts(lines, q, n)|
    ensures i < n && Contains(Lower(lines[i]), q) && Contexts(lines, q, n)[k] == ContextWindow(lines, i)
  {
    var prev := Contexts(lines, q, n - 1);
    var last := if Contains(Lower(lines[n - 1]), q) then [ContextWindow(lines, n - 1)] else [];
    assert Contexts(lines, q, n) == prev + last;
    if k < |prev| {
      i := ContextAt(lines, q, n - 1, k);
    } else {
      i := n - 1;
    }
  }

  /** Every matching line gets its window. */
  lemma {:induction false} MatchHasWindow(lines: seq<string>, q: string, n: nat, i: nat)
    requires i < n <= |lines| && Contains(Lower(lines[i]), q)
    ensures ContextWindow(lines, i) in Contexts(lines, q, n)
  {
    var prev := Contexts(lines, q, n - 1);
    var last := if Contains(Lower(lines[n - 1]), q) then [ContextWindow(lines, n - 1)] else [];
    assert Contexts(lines, q, n) == prev + last;
    if i < n - 1 {
      MatchHasWindow(lines, q, n - 1, i);
    }
  }

  // ---------------------------------------------------------------------
  // The tool

  datatype Outcome =
    | FileNotFound(path: string)        // "❌ ERRO: Arquivo PDF não encontrado: ..."
    | LibraryMissing                    // "❌ ERRO: Biblioteca PyPDF2 não está instalada. ..."
    | OpenFailed                        // "❌ ERRO ao processar PDF: ..."
    | Extraction(extracted: ExtractOutcome)
    | Search(searched: SearchOutcome)
    | Info(fileName: string, pageCount: nat)

  /** `PDFSearchTool._run`: extraction wins over search; neither requested gives the document's info. */
  function Run(path: string, present: bool, libraryAvailable: bool, document: Option<seq<Page>>,
               query: string, pageRange: Option<string>, extractText: bool): Outcome
  {
    if !present then FileNotFound(path)
    else if !libraryAvailable then LibraryMissing
    else match document
      case None => OpenFailed
      case Some(pages) =>
        var selected := ParsePageRange(pageRange, |pages|);
        if extractText then
          var entries := ExtractAll(pages, selected);
          Extraction(if entries == [] then NoTextExtracted else Extracted(entries))
        else if query != "" then
          var entries := SearchAll(pages, selected, Lower(query));
          Search(if entries == [] then TermNotFound(query) else Found(query, |entries|, entries))
        else Info(BaseName(path), |pages|)
  }

  /** The dispatch order of `_run`. */
  lemma RunDispatch(path: string, present: bool, libraryAvailable: bool, document: Option<seq<Page>>,
                    query: string, pageRange: Option<string>, extractText: bool)
    ensures var r := Run(path, present, libraryAvailable, document, query, pageRange, extractText);
            && (!present ==> r == FileNotFound(path))
            && (present && !libraryAvailable ==> r == LibraryMissing)
            && (present && libraryAvailable && document.Some? ==>
                  (extractText ==> r.Extraction?) && (!extractText && query != "" ==> r.Search?)
                  && (!extractText && query == "" ==> r.Info?))
  {
  }
}

=== FILE: security_validator.dfy ===
/**
 * The academic security validator: admission of one file through a fixed
 * sequence of checks (existence; extension block-list, then allow-list;
 * regular file; MIME allow-list; size ceiling; personal-data scan; quality
 * of tabular content; content hash), batch validation and the textual
 * security report.
 *
 * What the operating system and foreign libraries report about a file
 * (existence, `stat`, libmagic's MIME type, the decoded text, the pandas
 * parse, the SHA-256 digest) is a field of `FileInfo`; the regular
 * expression engine is the parameter `findAll`; the clock reading is `now`.
 * Messages are the `Issue` datatype rather than formatted strings.
 */
module SecurityValidator {
  import opened Util
  import opened Text

  const MiB: nat := 1048576

  datatype Config = Config(
    maxFileSizeMb: int,
    allowedExtensions: seq<string>,
    blockedExtensions: seq<string>,
    allowedMimeTypes: seq<string>,
    validatePii: bool)

  /** The validator's built-in configuration. */
  const DefaultConfig: Config := Config(
    100,
    [".csv", ".xlsx", ".xls", ".pdf", ".docx", ".txt"],
    [".exe", ".bat", ".cmd", ".scr", ".com", ".pif"],
    ["text/csv",
     "application/vnd.openxmlformats-officedocument.spreadsheetml.sheet",
     "application/vnd.ms-excel",
     "application/pdf",
     "application/vnd.openxmlformats-officedocument.wordprocessingml.document",
     "text/plain"],
    true)

  /** The personal-data patterns, by name, in the order they are tried. */
  const PiiPatterns: seq<(string, string)> := [
    ("cpf", "\\d{3}\\.\\d{3}\\.\\d{3}-\\d{2}"),
    ("telefone", "\\(\\d{2}\\)\\s*\\d{4,5}-\\d{4}"),
    ("email", "[a-zA-Z0-9._%+-]+@[a-zA-Z0-9.-]+\\.[a-zA-Z]{2,}"),
    ("cep", "\\d{5}-?\\d{3}"),
    ("rg", "\\d{1,2}\\.?\\d{3}\\.?\\d{3}-?\\d{1}"),
    ("matricula", "(?:matr[\U{ED}i]cula|ra|enrollment)\\s*:?\\s*[\\w\\d]+"),
    ("nome_completo",
     "(?:nome|name)\\s*:?\\s*[A-Za-z\U{C0}-\U{FF}\U{C3}\U{D5}\U{D1}\U{CA}\U{D4}\U{DB}\U{CE}\U{D4}\U{C2}\U{C1}\U{CD}\U{D3}\U{DA}\U{C9}\U{C7}\U{C3}\\s]+")
  ]

  /** What pandas reports about a tabular file. */
  datatype TableShape = TableShape(rowCount: nat, columns: seq<string>, emptyCells: nat)

  /** A file as the validator observes it. */
  datatype FileInfo = FileInfo(
    path: string,
    present: bool,
    isRegularFile: bool,
    sizeBytes: nat,
    modified: string,
    mime: Option<string>,        // None: MIME detection raised
    text: Option<string>,        // decoded content; None: the file could not be read
    table: Option<TableShape>,   // None: pandas could not read the file
    digest: string)              // SHA-256 hex digest, "" when hashing failed

  datatype MissingTier = ManyMissing | SignificantMissing

  datatype Issue =
    | FileNotFound                                   // "Arquivo não encontrado"
    | BlockedExtension(ext: string)                  // "Extensão bloqueada: ..."
    | ExtensionNotAllowed(ext: string)               // "Extensão não permitida: ..."
    | NotARegularFile                                // "Caminho não é um arquivo válido"
    | MimeNotAllowed(mime: string)                   // "Tipo MIME não permitido: ..."
    | MimeDetectionFailed                            // "Erro na detecção MIME: ..."
    | MimeValidated(mime: string)                    // "MIME type validado: ..."
    | FileTooLarge(sizeBytes: nat, maxMb: int)       // "Arquivo muito grande: ..."
    | FileLarge(sizeBytes: nat, maxMb: int)          // "Arquivo grande: ... (aproximando limite ...)"
    | PersonalDataDetected(kinds: seq<string>)       // "Dados pessoais detectados: [...]"
    | PiiScanFailed                                  // "Erro na validação PII: ..."
    | MissingData(tier: MissingTier, empty: nat, total: nat)  // "Muitos dados faltantes" / "Dados faltantes significativos"
    | DuplicateColumns(columns: seq<string>)         // "Colunas duplicadas encontradas: [...]"
    | ContentReadFailed                              // "Erro na validação de conteúdo: ..."

  datatype PiiFinding = PiiFinding(kind: string, count: nat, examples: seq<string>)

  datatype InfoValue = IntInfo(n: int) | TextInfo(s: string) | PiiInfo(findings: seq<PiiFinding>)

  /** The outcome of one check: valid exactly when it reported no error. */
  datatype Check = Check(valid: bool, errors: seq<Issue>, warnings: seq<Issue>)
  {
    predicate WellFormed() { valid <==> errors == [] }
  }

  datatype ValidationResult = ValidationResult(
    file: string,
    valid: bool,
    errors: seq<Issue>,
    warnings: seq<Issue>,
    info: seq<(string, InfoValue)>,
    timestamp: string)

  // ---------------------------------------------------------------------
  // Paths

  /** The last path component, trailing separators ignored (pathlib's `name`). */
  function FileName(path: string): string
  {
    if path != [] && path[|path| - 1] == '/' then FileName(path[..|path| - 1])
    else match LastIndexOf(path, '/')
      case None => path
      case Some(i) => path[i + 1..]
  }

  /** pathlib's `suffix`: from the last dot of the name, unless that dot leads or ends it. */
  function Suffix(path: string): (r: string)
    ensures r == "" || (r[0] == '.' && '.' !in r[1..])
    ensures r != "" ==> 2 <= |r| < |FileName(path)| && EndsWith(FileName(path), r)
    ensures '.' !in FileName(path) ==> r == ""
  {
    var name := FileName(path);
    match LastIndexOf(name, '.')
    case Some(i) =>
      if 0 < i < |name| - 1 then
        assert name[i..][1..] == name[i + 1..];
        name[i..]
      else ""
    case None => ""
  }

  /** With the name's last dot at `i`, the suffix is the text from it, or nothing when that dot leads or
      ends the name. */
  lemma SuffixAt(path: string, i: nat)
    requires i < |FileName(path)| && FileName(path)[i] == '.' && '.' !in FileName(path)[i + 1..]
    ensures var name := FileName(path);
      Suffix(path) == if 0 < i < |name| - 1 then name[i..] else ""
  {
    LastIndexOfAt(FileName(path), '.', i);
  }

  // ---------------------------------------------------------------------
  // The individual checks

  /** Extension (block-list first), then regular file; on success the basic facts. */
  function BasicCheck(cfg: Config, f: FileInfo): (r: (Check, seq<(string, InfoValue)>))
    ensures r.0.WellFormed() && |r.0.errors| <= 1 && r.0.warnings == []
    ensures !r.0.valid ==> r.1 == []
    ensures var ext := Lower(Suffix(f.path));
      && (ext in cfg.blockedExtensions ==> r.0.errors == [BlockedExtension(ext)])
      && (ext !in cfg.blockedExtensions && ext !in cfg.allowedExtensions ==> r.0.errors == [ExtensionNotAllowed(ext)])
      && (ext !in cfg.blockedExtensions && ext in cfg.allowedExtensions && !f.isRegularFile ==> r.0.errors == [NotARegularFile])
      && (r.0.valid <==> ext !in cfg.blockedExtensions && ext in cfg.allowedExtensions && f.isRegularFile)
    ensures r.0.valid ==>
      r.1 == [("tamanho_bytes", IntInfo(f.sizeBytes)), ("data_modificacao", TextInfo(f.modified)),
              ("extensao", TextInfo(Lower(Suffix(f.path))))]
  {
    var ext := Lower(Suffix(f.path));
    if ext in cfg.blockedExtensions then (Check(false, [BlockedExtension(ext)], []), [])
    else if ext !in cfg.allowedExtensions then (Check(false, [ExtensionNotAllowed(ext)], []), [])
    else if !f.isRegularFile then (Check(false, [NotARegularFile], []), [])
    else (Check(true, [], []),
          [("tamanho_bytes", IntInfo(f.sizeBytes)), ("data_modificacao", TextInfo(f.modified)), ("extensao", TextInfo(ext))])
  }

  function MimeCheck(cfg: Config, mime: Option<string>): (r: Check)
    ensures r.WellFormed() && |r.errors| + |r.warnings| == 1
    ensures r.valid <==> mime.Some? && mime.value in cfg.allowedMimeTypes
  {
    match mime
    case None => Check(false, [MimeDetectionFailed], [])
    case Some(m) =>
      if m !in cfg.allowedMimeTypes then Check(false, [MimeNotAllowed(m)], [])
      else Check(true, [], [MimeValidated(m)])
  }

  /** Size in MiB = bytes / 1048576; error above the ceiling, warning above 80% of it. */
  function SizeCheck(cfg: Config, sizeBytes: nat): Check
  {
    var max := cfg.maxFileSizeMb;
    if sizeBytes > max * MiB then Check(false, [FileTooLarge(sizeBytes, max)], [])
    else if 5 * sizeBytes > 4 * max * MiB then Check(true, [], [FileLarge(sizeBytes, max)])
    else Check(true, [], [])
  }

  lemma SizeCheckRules(cfg: Config, sizeBytes: nat)
    ensures SizeCheck(cfg, sizeBytes).WellFormed()
    ensures !SizeCheck(cfg, sizeBytes).valid <==> sizeBytes > cfg.maxFileSizeMb * MiB
    ensures SizeCheck(cfg, sizeBytes).warnings != []
        <==> 4 * cfg.maxFileSizeMb * MiB < 5 * sizeBytes && sizeBytes <= cfg.maxFileSizeMb * MiB
    ensures |SizeCheck(cfg, sizeBytes).errors| + |SizeCheck(cfg, sizeBytes).warnings| <= 1
  {
  }

  function FindingOf(kind: string, matches: seq<string>): PiiFinding
  {
    PiiFinding(kind, |matches|, Head(matches, 3))
  }

  /** One finding per pattern that matched at least once, in pattern order. */
  function Findings(patterns: seq<(string, string)>, text: string, findAll: (string, string) -> seq<string>): (r: seq<PiiFinding>)
    ensures |r| <= |patterns|
    ensures forall k :: 0 <= k < |r| ==> r[k].count > 0 && |r[k].examples| == Min(3, r[k].count)
    ensures r == [] <==> forall j :: 0 <= j < |patterns| ==> findAll(patterns[j].1, text) == []
  {
    if patterns == [] then []
    else
      var matches := findAll(patterns[0].1, text);
      (if matches != [] then [FindingOf(patterns[0].0, matches)] else []) + Findings(patterns[1..], text, findAll)
  }

  lemma {:induction false} FindingsAppend(a: seq<(string, string)>, b: seq<(string, string)>, text: string, findAll: (string, string) -> seq<string>)
    ensures Findings(a + b, text, findAll) == Findings(a, text, findAll) + Findings(b, text, findAll)
  {
    if a == [] {
      assert a + b == b;
    } else {
      assert (a + b)[0] == a[0];
      assert (a + b)[1..] == a[1..] + b;
      FindingsAppend(a[1..], b, text, findAll);
      var matches := findAll(a[0].1, text);
      Regroup(if matches != [] then [FindingOf(a[0].0, matches)] else [], Findings(a[1..], text, findAll), Findings(b, text, findAll));
    }
  }

  /** A pattern with matches yields a finding with the count and the first three matches. */
  lemma {:induction false} FindingForMatchingPattern(patterns: seq<(string, string)>, j: nat, text: string, findAll: (string, string) -> seq<string>)
    requires j < |patterns| && findAll(patterns[j].1, text) != []
    ensures var ms := findAll(patterns[j].1, text);
            PiiFinding(patterns[j].0, |ms|, ms[..Min(3, |ms|)]) in Findings(patterns, text, findAll)
  {
    if j > 0 {
      FindingForMatchingPattern(patterns[1..], j - 1, text, findAll);
    }
  }

  /** Finding `k` comes from pattern `j`, which matched, and the patterns before `j` yield exactly `k`
      findings: nothing but matching patterns is reported, each once, in pattern order. */
  lemma {:induction false} FindingAt(patterns: seq<(string, string)>, k: nat, text: string, findAll: (string, string) -> seq<string>)
    returns (j: nat)
    requires k < |Findings(patterns, text, findAll)|
    ensures j < |patterns| && findAll(patterns[j].1, text) != []
    ensures Findings(patterns, text, findAll)[k] == FindingOf(patterns[j].0, findAll(patterns[j].1, text))
    ensures |Findings(patterns[..j], text, findAll)| == k
  {
    var matches := findAll(patterns[0].1, text);
    if matches != [] && k == 0 {
      j := 0;
      assert patterns[..0] == [];
    } else {
      var head := if matches != [] then 1 else 0;
      var j' := FindingAt(patterns[1..], k - head, text, findAll);
      j := j' + 1;
      var prefix := patterns[..j];
      assert prefix[0] == patterns[0] && prefix[1..] == patterns[1..][..j'];
    }
  }

  function Kinds(findings: seq<PiiFinding>): (r: seq<string>)
    ensures |r| == |findings| && forall k :: 0 <= k < |r| ==> r[k] == findings[k].kind
  {
    seq(|findings|, k requires 0 <= k < |findings| => findings[k].kind)
  }

  datatype PiiScan = PiiScan(findings: seq<PiiFinding>, warnings: seq<Issue>)

  /** The aggregation loop of the personal-data scan, over the patterns in their configured order. */
  method AggregatePii(patterns: seq<(string, string)>, text: string, findAll: (string, string) -> seq<string>)
    returns (found: seq<PiiFinding>)
    ensures found == Findings(patterns, text, findAll)
  {
    found := [];
    var i := 0;
    while i < |patterns|
      invariant 0 <= i <= |patterns|
      invariant found == Findings(patterns[..i], text, findAll)
    {
      var (kind, pattern) := patterns[i];
      var matches := findAll(pattern, text);
      assert Findings([patterns[i]], text, findAll) == if matches != [] then [FindingOf(kind, matches)] else [];
      if matches != [] {
        found := found + [PiiFinding(kind, |matches|, Head(matches, 3))];
      }
      SliceStep(patterns, i);
      FindingsAppend(patterns[..i], [patterns[i]], text, findAll);
      i := i + 1;
    }
    assert patterns[..i] == patterns;
  }


  /** The personal-data scan: findings and at most one summary warning; a read failure only warns. */
  function ScanPii(text: Option<string>, findAll: (string, string) -> seq<string>): (r: PiiScan)
    ensures text.None? ==> r == PiiScan([], [PiiScanFailed])
    ensures text.Some? ==> r.findings == Findings(PiiPatterns, text.value, findAll)
    ensures text.Some? ==> (r.warnings == if r.findings == [] then [] else [PersonalDataDetected(Kinds(r.findings))])
  {
    match text
    case None => PiiScan([], [PiiScanFailed])
    case Some(t) =>
      var found := Findings(PiiPatterns, t, findAll);
      PiiScan(found, if found != [] then [PersonalDataDetected(Kinds(found))] else [])
  }
  /** `_validar_pii`: a read failure only warns; otherwise the aggregated findings and their summary warning. */
  method DetectPii(text: Option<string>, findAll: (string, string) -> seq<string>) returns (pii: PiiScan)
    ensures pii == ScanPii(text, findAll)
  {
    match text {
      case None =>
        pii := PiiScan([], [PiiScanFailed]);
      case Some(t) =>
        var found := AggregatePii(PiiPatterns, t, findAll);
        pii := PiiScan(found, if found != [] then [PersonalDataDetected(Kinds(found))] else []);
    }
  }


  /** Later occurrences of a column name already seen (pandas' `duplicated()`). */
  function Duplicated(columns: seq<string>): seq<string>
  {
    if columns == [] then []
    else
      var init := columns[..|columns| - 1];
      var last := columns[|columns| - 1];
      Duplicated(init) + (if last in init then [last] else [])
  }

  predicate Distinct(columns: seq<string>)
  {
    forall i, j :: 0 <= i < j < |columns| ==> columns[i] != columns[j]
  }

  lemma {:induction false} DuplicatedEmptyIffDistinct(columns: seq<string>)
    ensures Duplicated(columns) == [] <==> Distinct(columns)
  {
    if columns != [] {
      var init := columns[..|columns| - 1];
      DuplicatedEmptyIffDistinct(init);
      if Distinct(columns) {
        assert Distinct(init) by {
          forall i, j | 0 <= i < j < |init| ensures init[i] != init[j] {
            assert init[i] == columns[i] && init[j] == columns[j];
          }
        }
      } else if Distinct(init) {
        var i, j :| 0 <= i < j < |columns| && columns[i] == columns[j];
        assert j == |columns| - 1;
        assert columns[i] == init[i];
      }
    }
  }

  /** Missing-cell tiers: above 50% "many", else above 20% "significant"; an empty table has no percentage. */
  function MissingWarning(emptyCells: nat, totalCells: nat): (r: seq<Issue>)
    ensures |r| <= 1
    ensures r != [] ==> 5 * emptyCells > totalCells > 0
  {
    if totalCells == 0 then []
    else if 2 * emptyCells > totalCells then [MissingData(ManyMissing, emptyCells, totalCells)]
    else if 5 * emptyCells > totalCells then [MissingData(SignificantMissing, emptyCells, totalCells)]
    else []
  }

  lemma MissingTiers(emptyCells: nat, totalCells: nat)
    requires totalCells > 0
    ensures 100 * emptyCells > 50 * totalCells ==> MissingWarning(emptyCells, totalCells) == [MissingData(ManyMissing, emptyCells, totalCells)]
    ensures 100 * emptyCells <= 50 * totalCells && 100 * emptyCells > 20 * totalCells
        ==> MissingWarning(emptyCells, totalCells) == [MissingData(SignificantMissing, emptyCells, totalCells)]
    ensures 100 * emptyCells <= 20 * totalCells ==> MissingWarning(emptyCells, totalCells) == []
  {
  }

  /** The path names a data file (tested on the lowercased path). */
  predicate IsDataFile(path: string)
  {
    var p := Lower(path);
    EndsWith(p, ".csv") || EndsWith(p, ".xlsx") || EndsWith(p, ".xls")
  }

  /** The suffixes whose content is read as a table. */
  predicate DataSuffix(ext: string)
  {
    ext == ".csv" || ext == ".xlsx" || ext == ".xls"
  }

  /** Quality of tabular content: a read failure is an error; missing data and duplicates only warn. */
  function ContentCheck(f: FileInfo): (r: Check)
    ensures r.WellFormed()
    ensures !r.valid ==> r.errors == [ContentReadFailed] && r.warnings == []
    ensures !DataSuffix(Lower(Suffix(f.path))) ==> r == Check(true, [], [])
    ensures DataSuffix(Lower(Suffix(f.path))) ==>
      match f.table
      case None => !r.valid
      case Some(t) =>
        r.valid && r.warnings == MissingWarning(t.emptyCells, t.rowCount * |t.columns|)
          + (if Duplicated(t.columns) != [] then [DuplicateColumns(Duplicated(t.columns))] else [])
  {
    if !DataSuffix(Lower(Suffix(f.path))) then Check(true, [], [])
    else match f.table
      case None => Check(false, [ContentReadFailed], [])
      case Some(t) =>
        var dups := Duplicated(t.columns);
        Check(true, [], MissingWarning(t.emptyCells, t.rowCount * |t.columns|) + (if dups != [] then [DuplicateColumns(dups)] else []))
  }

  /**
   * What a readable data table is warned about: the duplicate-columns warning
   * exactly when some column name repeats, and the missing-data tier by the
   * percentage of empty cells.
   */
  lemma ContentWarningsMeaning(f: FileInfo)
    requires DataSuffix(Lower(Suffix(f.path))) && f.table.Some?
    ensures ContentCheck(f).valid && ContentCheck(f).errors == []
    ensures (exists d :: DuplicateColumns(d) in ContentCheck(f).warnings) <==> !Distinct(f.table.value.columns)
    ensures !Distinct(f.table.value.columns) ==> DuplicateColumns(Duplicated(f.table.value.columns)) in ContentCheck(f).warnings
    ensures var t := f.table.value; var total := t.rowCount * |t.columns|;
      total > 0 && 100 * t.emptyCells > 50 * total ==> MissingData(ManyMissing, t.emptyCells, total) in ContentCheck(f).warnings
    ensures var t := f.table.value; var total := t.rowCount * |t.columns|;
      total > 0 && 20 * total < 100 * t.emptyCells <= 50 * total ==>
        MissingData(SignificantMissing, t.emptyCells, total) in ContentCheck(f).warnings
    ensures var t := f.table.value; var total := t.rowCount * |t.columns|;
      (total == 0 || 100 * t.emptyCells <= 20 * total) ==> forall w :: w in ContentCheck(f).warnings ==> !w.MissingData?
  {
    var t := f.table.value;
    var total := t.rowCount * |t.columns|;
    var missing := MissingWarning(t.emptyCells, total);
    DuplicatedEmptyIffDistinct(t.columns);
    if total > 0 {
      MissingTiers(t.emptyCells, total);
    }
    assert forall w :: w in missing ==> w.MissingData?;
  }

  // ---------------------------------------------------------------------
  // The whole validation

  /** The errors a non-short-circuiting check contributes. */
  function Rejected(c: Check): seq<Issue> { if c.valid then [] else c.errors }

  /** The warnings a passing MIME or size check contributes. */
  function Accepted(c: Check): seq<Issue> { if c.valid then c.warnings else [] }

  /** The content stage: skipped (trivially valid) unless the path names a data file. */
  function ContentStage(f: FileInfo): Check
  {
    if IsDataFile(f.path) then ContentCheck(f) else Check(true, [], [])
  }

  function PiiWarnings(cfg: Config, f: FileInfo, findAll: (string, string) -> seq<string>): seq<Issue>
  {
    if cfg.validatePii then ScanPii(f.text, findAll).warnings else []
  }

  function PiiEntries(cfg: Config, f: FileInfo, findAll: (string, string) -> seq<string>): seq<(string, InfoValue)>
  {
    if cfg.validatePii then [("pii_encontrada", PiiInfo(ScanPii(f.text, findAll).findings))] else []
  }

  /** The result `validar_arquivo` builds, check by check. */
  function Validation(cfg: Config, f: FileInfo, findAll: (string, string) -> seq<string>, now: string): ValidationResult
  {
    if !f.present then ValidationResult(f.path, false, [FileNotFound], [], [], now)
    else
      var basic := BasicCheck(cfg, f);
      if !basic.0.valid then ValidationResult(f.path, false, basic.0.errors, [], [], now)
      else
        var mime := MimeCheck(cfg, f.mime);
        var size := SizeCheck(cfg, f.sizeBytes);
        var content := ContentStage(f);
        ValidationResult(
          f.path,
          mime.valid && size.valid && content.valid,
          Rejected(mime) + Rejected(size) + content.errors,
          Accepted(mime) + Accepted(size) + PiiWarnings(cfg, f, findAll) + content.warnings,
          basic.1 + PiiEntries(cfg, f, findAll) + [("hash_sha256", TextInfo(f.digest))],
          now)
  }

  /** How `validar_arquivo` folds the MIME or size check into its result: a failure clears `valido` and
      extends the errors, a pass extends the warnings. */
  method MergeCheck(valid: bool, errors: seq<Issue>, warnings: seq<Issue>, c: Check)
    returns (valid': bool, errors': seq<Issue>, warnings': seq<Issue>)
    ensures valid' == (valid && c.valid)
    ensures errors' == errors + Rejected(c) && warnings' == warnings + Accepted(c)
  {
    valid', errors', warnings' := valid, errors, warnings;
    if !c.valid {
      valid' := false;
      errors' := errors' + c.errors;
    } else {
      warnings' := warnings' + c.warnings;
    }
  }

  /** Step 4 of `validar_arquivo`: when enabled, the PII warnings and the `pii_encontrada` fact. */
  method MergePii(cfg: Config, f: FileInfo, findAll: (string, string) -> seq<string>,
                  warnings: seq<Issue>, info: seq<(string, InfoValue)>)
    returns (warnings': seq<Issue>, info': seq<(string, InfoValue)>)
    ensures warnings' == warnings + PiiWarnings(cfg, f, findAll)
    ensures info' == info + PiiEntries(cfg, f, findAll)
  {
    warnings', info' := warnings, info;
    if cfg.validatePii {
      var pii := DetectPii(f.text, findAll);
      warnings' := warnings' + pii.warnings;
      info' := info' + [("pii_encontrada", PiiInfo(pii.findings))];
    }
  }

  /** Step 5 of `validar_arquivo`: for a data file, a failed read clears `valido` and adds its error;
      the content warnings are added either way. */
  method MergeContent(f: FileInfo, valid: bool, errors: seq<Issue>, warnings: seq<Issue>)
    returns (valid': bool, errors': seq<Issue>, warnings': seq<Issue>)
    ensures valid' == (valid && ContentStage(f).valid)
    ensures errors' == errors + ContentStage(f).errors && warnings' == warnings + ContentStage(f).warnings
  {
    valid', errors', warnings' := valid, errors, warnings;
    if IsDataFile(f.path) {
      var content := ContentCheck(f);
      if !content.valid {
        valid' := false;
        errors' := errors' + content.errors;
      }
      warnings' := warnings' + content.warnings;
    }
  }

  /** `validar_arquivo`: accumulates errors, warnings and facts step by step. */
  method ValidateFile(cfg: Config, f: FileInfo, findAll: (string, string) -> seq<string>, now: string) returns (r: ValidationResult)
    ensures r == Validation(cfg, f, findAll, now)
  {
    var valid := true;
    var errors: seq<Issue> := [];
    var warnings: seq<Issue> := [];
    var info: seq<(string, InfoValue)> := [];

    if !f.present {
      valid := false;
      errors := errors + [FileNotFound];
      return ValidationResult(f.path, valid, errors, warnings, info, now);
    }

    var basic := BasicCheck(cfg, f);
    if !basic.0.valid {
      valid := false;
      errors := errors + basic.0.errors;
      return ValidationResult(f.path, valid, errors, warnings, info, now);
    }
    info := info + basic.1;
    assert info == basic.1;

    var mime := MimeCheck(cfg, f.mime);
    valid, errors, warnings := MergeCheck(valid, errors, warnings, mime);
    assert errors == Rejected(mime) && warnings == Accepted(mime);

    var size := SizeCheck(cfg, f.sizeBytes);
    valid, errors, warnings := MergeCheck(valid, errors, warnings, size);
    assert errors == Rejected(mime) + Rejected(size);
    assert warnings == Accepted(mime) + Accepted(size);

    warnings, info := MergePii(cfg, f, findAll, warnings, info);
    assert warnings == Accepted(mime) + Accepted(size) + PiiWarnings(cfg, f, findAll);
    valid, errors, warnings := MergeContent(f, valid, errors, warnings);

    info := info + [("hash_sha256", TextInfo(f.digest))];
    r := ValidationResult(f.path, valid, errors, warnings, info, now);
  }

  // ---------------------------------------------------------------------
  // Properties of a validation

  /** On return, the file is valid exactly when no error was recorded. */
  lemma ValidIffNoErrors(cfg: Config, f: FileInfo, findAll: (string, string) -> seq<string>, now: string)
    ensures var r := Validation(cfg, f, findAll, now); r.valid <==> r.errors == []
  {
    if f.present && BasicCheck(cfg, f).0.valid {
      SizeCheckRules(cfg, f.sizeBytes);
    }
  }

  /** A missing file fails at once with exactly "Arquivo não encontrado". */
  lemma MissingFileFailsAlone(cfg: Config, f: FileInfo, findAll: (string, string) -> seq<string>, now: string)
    requires !f.present
    ensures Validation(cfg, f, findAll, now) == ValidationResult(f.path, false, [FileNotFound], [], [], now)
  {
  }

  /** A block-listed extension is rejected, even when it is also allow-listed. */
  lemma BlockedExtensionWins(cfg: Config, f: FileInfo, findAll: (string, string) -> seq<string>, now: string)
    requires f.present && Lower(Suffix(f.path)) in cfg.blockedExtensions
    ensures var r := Validation(cfg, f, findAll, now);
            !r.valid && r.errors == [BlockedExtension(Lower(Suffix(f.path)))] && r.warnings == [] && r.info == []
  {
  }

  lemma ExtensionNotAllowedFails(cfg: Config, f: FileInfo, findAll: (string, string) -> seq<string>, now: string)
    requires f.present
    requires Lower(Suffix(f.path)) !in cfg.blockedExtensions && Lower(Suffix(f.path)) !in cfg.allowedExtensions
    ensures var r := Validation(cfg, f, findAll, now);
            !r.valid && r.errors == [ExtensionNotAllowed(Lower(Suffix(f.path)))] && r.warnings == [] && r.info == []
  {
  }

  /**
   * Past the basic check nothing short-circuits: a MIME failure and a size
   * failure are both reported, and the digest is still the last fact.
   */
  lemma LaterChecksDoNotShortCircuit(cfg: Config, f: FileInfo, findAll: (string, string) -> seq<string>, now: string)
    requires f.present && BasicCheck(cfg, f).0.valid
    ensures var r := Validation(cfg, f, findAll, now);
            && |r.info| >= 4
            && r.info[|r.info| - 1] == ("hash_sha256", TextInfo(f.digest))
            && (f.mime.Some? && f.mime.value !in cfg.allowedMimeTypes ==> MimeNotAllowed(f.mime.value) in r.errors)
            && (f.sizeBytes > cfg.maxFileSizeMb * MiB ==> FileTooLarge(f.sizeBytes, cfg.maxFileSizeMb) in r.errors)
  {
  }

  /** Warnings and the personal-data findings never decide validity. */
  lemma PiiNeverDecidesValidity(cfg: Config, f: FileInfo, text: Option<string>, findAll: (string, string) -> seq<string>,
                                otherFindAll: (string, string) -> seq<string>, now: string)
    ensures Validation(cfg, f, findAll, now).valid == Validation(cfg.(validatePii := !cfg.validatePii), f.(text := text), otherFindAll, now).valid
    ensures Validation(cfg, f, findAll, now).errors == Validation(cfg.(validatePii := !cfg.validatePii), f.(text := text), otherFindAll, now).errors
  {
    var cfg2, f2 := cfg.(validatePii := !cfg.validatePii), f.(text := text);
    assert BasicCheck(cfg2, f2) == BasicCheck(cfg, f);
    assert MimeCheck(cfg2, f2.mime) == MimeCheck(cfg, f.mime);
    assert SizeCheck(cfg2, f2.sizeBytes) == SizeCheck(cfg, f.sizeBytes);
    assert ContentStage(f2) == ContentStage(f);
  }

  /** The content check runs only for .csv/.xlsx/.xls; its read failure invalidates the file. */
  lemma ContentReadFailureInvalidates(cfg: Config, f: FileInfo, findAll: (string, string) -> seq<string>, now: string)
    requires f.present && BasicCheck(cfg, f).0.valid && f.table.None?
    ensures IsDataFile(f.path) && Lower(Suffix(f.path)) in [".csv", ".xlsx", ".xls"]
        ==> ContentReadFailed in Validation(cfg, f, findAll, now).errors
    ensures !IsDataFile(f.path) ==> ContentReadFailed !in Validation(cfg, f, findAll, now).errors
  {
    var r := Validation(cfg, f, findAll, now);
    if !IsDataFile(f.path) {
      SizeCheckRules(cfg, f.sizeBytes);
      assert r.errors == (if MimeCheck(cfg, f.mime).valid then [] else MimeCheck(cfg, f.mime).errors)
                         + (if SizeCheck(cfg, f.sizeBytes).valid then [] else SizeCheck(cfg, f.sizeBytes).errors);
    }
  }

  // ---------------------------------------------------------------------
  // Batches

  datatype BatchResult = BatchResult(
    total: nat,
    validCount: nat,
    invalidCount: nat,
    results: seq<ValidationResult>,
    timestamp: string,
    successRate: real)

  /** `validar_multiplos_arquivos` either returns its summary or raises ZeroDivisionError. */
  datatype BatchOutcome = Batch(result: BatchResult) | ZeroDivisionError

  function ValidCount(results: seq<ValidationResult>): (n: nat)
    ensures n <= |results|
  {
    if results == [] then 0 else ValidCount(results[..|results| - 1]) + (if results[|results| - 1].valid then 1 else 0)
  }

  /** Every file's result, in input order. */
  function Validations(cfg: Config, files: seq<FileInfo>, findAll: (string, string) -> seq<string>, now: string): (r: seq<ValidationResult>)
    ensures |r| == |files| && forall k :: 0 <= k < |files| ==> r[k] == Validation(cfg, files[k], findAll, now)
  {
    seq(|files|, k requires 0 <= k < |files| => Validation(cfg, files[k], findAll, now))
  }

  /** One more result adds one to the count exactly when it is valid. */
  lemma ValidCountAppend(results: seq<ValidationResult>, r: ValidationResult)
    ensures ValidCount(results + [r]) == ValidCount(results) + (if r.valid then 1 else 0)
  {
    assert (results + [r])[..|results|] == results;
  }

  /** The loop of the batch validation: one result per file, in input order, and the two counters. */
  method ValidateEach(cfg: Config, files: seq<FileInfo>, findAll: (string, string) -> seq<string>, now: string)
    returns (results: seq<ValidationResult>, valid: nat, invalid: nat)
    ensures results == Validations(cfg, files, findAll, now)
    ensures valid == ValidCount(results) && valid + invalid == |files|
  {
    results := [];
    valid := 0;
    invalid := 0;
    ghost var expected := Validations(cfg, files, findAll, now);
    for i := 0 to |files|
      invariant results == expected[..i]
      invariant valid == ValidCount(results) && valid + invalid == i
    {
      var r := ValidateFile(cfg, files[i], findAll, now);
      ValidCountAppend(results, r);
      SliceStep(expected, i);
      results := results + [r];
      if r.valid {
        valid := valid + 1;
      } else {
        invalid := invalid + 1;
      }
    }
    assert expected[..|files|] == expected;
  }

  /**
   * Validates each file in input order and counts the outcomes. The success
   * rate divides by the number of files, so an empty batch raises.
   */
  method ValidateMany(cfg: Config, files: seq<FileInfo>, findAll: (string, string) -> seq<string>, now: string)
    returns (out: BatchOutcome)
    ensures files == [] <==> out.ZeroDivisionError?
    ensures out.Batch? ==>
      && out.result.total == |files|
      && out.result.results == Validations(cfg, files, findAll, now)
      && out.result.validCount == ValidCount(out.result.results)
      && out.result.validCount + out.result.invalidCount == out.result.total
      && out.result.successRate == (out.result.validCount as real) * 100.0 / (out.result.total as real)
  {
    var results, valid, invalid := ValidateEach(cfg, files, findAll, now);
    if |files| == 0 {
      return ZeroDivisionError;
    }
    out := Batch(BatchResult(|files|, valid, invalid, results, now, (valid as real) * 100.0 / (|files| as real)));
  }

  // ---------------------------------------------------------------------
  // The textual report

  datatype Section = ErrorsSection | WarningsSection | InfoSection

  datatype ReportLine =
    | Rule                              // 60 '='
    | Title                             // "RELATÓRIO DE VALIDAÇÃO DE SEGURANÇA - SAPIENS"
    | FileLine(path: string)            // "Arquivo: ..."
    | DateLine(timestamp: string)       // "Data: ..."
    | StatusLine(valid: bool)           // "Status: ✅ VÁLIDO" / "Status: ❌ INVÁLIDO"
    | Blank
    | SectionHeader(section: Section)
    | IssueBullet(issue: Issue)         // "  • <message>"
    | InfoBullet(key: string, value: InfoValue)  // "  • <key>: <value>"

  function IssueBullets(issues: seq<Issue>): (r: seq<ReportLine>)
    ensures |r| == |issues| && forall k :: 0 <= k < |r| ==> r[k] == IssueBullet(issues[k])
  {
    seq(|issues|, k requires 0 <= k < |issues| => IssueBullet(issues[k]))
  }

  function InfoBullets(info: seq<(string, InfoValue)>): (r: seq<ReportLine>)
    ensures |r| == |info| && forall k :: 0 <= k < |r| ==> r[k] == InfoBullet(info[k].0, info[k].1)
  {
    seq(|info|, k requires 0 <= k < |info| => InfoBullet(info[k].0, info[k].1))
  }

  /** A section appears only when it has items: header, one bullet per item, blank line. */
  function SectionLines(section: Section, bullets: seq<ReportLine>): seq<ReportLine>
  {
    if bullets == [] then [] else [SectionHeader(section)] + bullets + [Blank]
  }

  /** Appends an error or warning section: nothing when there are no issues. */
  method AppendIssueSection(lines: seq<ReportLine>, section: Section, issues: seq<Issue>) returns (out: seq<ReportLine>)
    ensures out == lines + SectionLines(section, IssueBullets(issues))
  {
    out := lines;
    if issues != [] {
      out := out + [SectionHeader(section)];
      ghost var header := out;
      ghost var bullets := IssueBullets(issues);
      for k := 0 to |issues|
        invariant out == header + bullets[..k]
      {
        SliceStep(bullets, k);
        Regroup(header, bullets[..k], [IssueBullet(issues[k])]);
        out := out + [IssueBullet(issues[k])];
      }
      assert bullets[..|issues|] == bullets;
      Regroup(lines, [SectionHeader(section)], bullets);
      Regroup(lines, [SectionHeader(section)] + bullets, [Blank]);
      out := out + [Blank];
    }
  }

  /** Appends the information section: nothing when there are no facts. */
  method AppendInfoSection(lines: seq<ReportLine>, info: seq<(string, InfoValue)>) returns (out: seq<ReportLine>)
    ensures out == lines + SectionLines(InfoSection, InfoBullets(info))
  {
    out := lines;
    if info != [] {
      out := out + [SectionHeader(InfoSection)];
      ghost var header := out;
      ghost var bullets := InfoBullets(info);
      for k := 0 to |info|
        invariant out == header + bullets[..k]
      {
        SliceStep(bullets, k);
        Regroup(header, bullets[..k], [InfoBullet(info[k].0, info[k].1)]);
        out := out + [InfoBullet(info[k].0, info[k].1)];
      }
      assert bullets[..|info|] == bullets;
      Regroup(lines, [SectionHeader(InfoSection)], bullets);
      Regroup(lines, [SectionHeader(InfoSection)] + bullets, [Blank]);
      out := out + [Blank];
    }
  }

  /** `gerar_relatorio_seguranca`: preamble, the three optional sections, closing rule. */
  method SecurityReport(r: ValidationResult) returns (lines: seq<ReportLine>)
    ensures lines ==
      [Rule, Title, Rule, FileLine(r.file), DateLine(r.timestamp), StatusLine(r.valid), Blank]
      + SectionLines(ErrorsSection, IssueBullets(r.errors))
      + SectionLines(WarningsSection, IssueBullets(r.warnings))
      + SectionLines(InfoSection, InfoBullets(r.info))
      + [Rule]
  {
    lines := [Rule, Title, Rule, FileLine(r.file), DateLine(r.timestamp), StatusLine(r.valid), Blank];
    lines := AppendIssueSection(lines, ErrorsSection, r.errors);
    lines := AppendIssueSection(lines, WarningsSection, r.warnings);
    lines := AppendInfoSection(lines, r.info);
    lines := lines + [Rule];
  }

  /** Each section header is present exactly when its list is non-empty. */
  lemma ReportSections(r: ValidationResult, lines: seq<ReportLine>)
    requires lines ==
      [Rule, Title, Rule, FileLine(r.file), DateLine(r.timestamp), StatusLine(r.valid), Blank]
      + SectionLines(ErrorsSection, IssueBullets(r.errors))
      + SectionLines(WarningsSection, IssueBullets(r.warnings))
      + SectionLines(InfoSection, InfoBullets(r.info))
      + [Rule]
    ensures SectionHeader(ErrorsSection) in lines <==> r.errors != []
    ensures SectionHeader(WarningsSection) in lines <==> r.warnings != []
    ensures SectionHeader(InfoSection) in lines <==> r.info != []
    ensures forall e :: e in r.errors ==> IssueBullet(e) in lines
  {
    var e := SectionLines(ErrorsSection, IssueBullets(r.errors));
    var w := SectionLines(WarningsSection, IssueBullets(r.warnings));
    var i := SectionLines(InfoSection, InfoBullets(r.info));
    var pre := [Rule, Title, Rule, FileLine(r.file), DateLine(r.timestamp), StatusLine(r.valid), Blank];
    assert lines == pre + e + w + i + [Rule];
    assert SectionHeader(ErrorsSection) !in w && SectionHeader(ErrorsSection) !in i;
    assert SectionHeader(WarningsSection) !in e && SectionHeader(WarningsSection) !in i;
    assert SectionHeader(InfoSection) !in e && SectionHeader(InfoSection) !in w;
    if r.errors != [] {
      assert SectionHeader(ErrorsSection) == e[0];
    }
    if r.warnings != [] {
      assert SectionHeader(WarningsSection) == w[0];
    }
    if r.info != [] {
      assert SectionHeader(InfoSection) == i[0];
    }
    forall x | x in r.errors ensures IssueBullet(x) in lines {
      var k :| 0 <= k < |r.errors| && r.errors[k] == x;
      assert e[1 + k] == IssueBullet(x);
    }
  }
}

=== FILE: text.dfy ===
/**
 * Python `str` operations the tools rely on, over `string` (= seq<char>).
 *
 * `Lower` maps ASCII and Latin-1 capital letters to their small letters
 * (Python's `str.lower` covers all of Unicode); `LowerAscii` is the
 * byte-string `bytes.lower`, which only touches A-Z. `Strip` removes the
 * characters Python's `str.strip()` treats as whitespace.
 */
module Text {
  import opened Util

  /** The characters for which Python's `str.isspace()` holds. */
  predicate IsSpace(c: char)
  {
    || ('\t' <= c <= '\r')
    || ('\U{1C}' <= c <= '\U{1F}')
    || c == ' ' || c == '\U{85}' || c == '\U{A0}' || c == '\U{1680}'
    || ('\U{2000}' <= c <= '\U{200A}')
    || c == '\U{2028}' || c == '\U{2029}' || c == '\U{202F}' || c == '\U{205F}' || c == '\U{3000}'
  }

  function LowerChar(c: char): char
  {
    if 'A' <= c <= 'Z' then (c as int + 32) as char
    else if '\U{C0}' <= c <= '\U{DE}' && c != '\U{D7}' then (c as int + 32) as char
    else c
  }

  function LowerAsciiChar(c: char): char
  {
    if 'A' <= c <= 'Z' then (c as int + 32) as char else c
  }

  function Lower(s: string): (r: string)
    ensures |r| == |s|
    ensures forall i :: 0 <= i < |s| ==> r[i] == LowerChar(s[i])
  {
    seq(|s|, i requires 0 <= i < |s| => LowerChar(s[i]))
  }

  function LowerAscii(s: string): (r: string)
    ensures |r| == |s|
    ensures forall i :: 0 <= i < |s| ==> r[i] == LowerAsciiChar(s[i])
  {
    seq(|s|, i requires 0 <= i < |s| => LowerAsciiChar(s[i]))
  }

  lemma LowerPrefix(s: string, n: nat)
    requires n <= |s|
    ensures Lower(s[..n]) == Lower(s)[..n]
  {
  }

  function StripLeft(s: string): (r: string)
    ensures |r| <= |s|
  {
    if s != [] && IsSpace(s[0]) then StripLeft(s[1..]) else s
  }

  function StripRight(s: string): (r: string)
    ensures |r| <= |s|
  {
    if s != [] && IsSpace(s[|s| - 1]) then StripRight(s[..|s| - 1]) else s
  }

  /** Python's `s.strip()`. */
  function Strip(s: string): string
  {
    StripRight(StripLeft(s))
  }

  /** `StripLeft` drops exactly the leading whitespace. */
  lemma {:induction false} StripLeftFacts(s: string)
    ensures var r := StripLeft(s); r == s[|s| - |r|..]
    ensures var r := StripLeft(s); r != [] ==> !IsSpace(r[0])
    ensures var r := StripLeft(s); forall i :: 0 <= i < |s| - |r| ==> IsSpace(s[i])
  {
    if s != [] && IsSpace(s[0]) {
      StripLeftFacts(s[1..]);
    }
  }

  /** `StripRight` drops exactly the trailing whitespace. */
  lemma {:induction false} StripRightFacts(s: string)
    ensures var r := StripRight(s); r == s[..|r|]
    ensures var r := StripRight(s); r != [] ==> !IsSpace(r[|r| - 1])
    ensures var r := StripRight(s); forall i :: |r| <= i < |s| ==> IsSpace(s[i])
  {
    if s != [] && IsSpace(s[|s| - 1]) {
      StripRightFacts(s[..|s| - 1]);
    }
  }

  /** A string is blank when it is empty or made only of whitespace. */
  predicate IsBlank(s: string)
  {
    forall i :: 0 <= i < |s| ==> IsSpace(s[i])
  }

  /** Stripping leaves nothing exactly for blank text, and otherwise text that starts and ends with a non-space. */
  lemma StripFacts(s: string)
    ensures Strip(s) == "" <==> IsBlank(s)
    ensures var t := Strip(s); t != "" ==> !IsSpace(t[0]) && !IsSpace(t[|t| - 1])
    ensures s != [] && !IsSpace(s[0]) ==> Strip(s) != [] && Strip(s)[0] == s[0]
  {
    var l := StripLeft(s);
    StripLeftFacts(s);
    StripRightFacts(l);
    var t := StripRight(l);
    if t != "" {
      assert t[0] == l[0];
    }
    if l != [] {
      assert !IsSpace(l[|l| - 1]) ==> t == l;
    }
    if !IsBlank(s) {
      var i :| 0 <= i < |s| && !IsSpace(s[i]);
      assert t != "" by {
        assert |s| - |l| <= i;
        assert l[i - (|s| - |l|)] == s[i];
      }
    }
  }

  /** Python's `sub in s`. */
  predicate Contains(s: string, sub: string)
  {
    sub <= s || (s != [] && Contains(s[1..], sub))
  }

  lemma {:induction false} ContainsAt(s: string, sub: string, i: nat)
    requires i + |sub| <= |s| && s[i..i + |sub|] == sub
    ensures Contains(s, sub)
  {
    if i > 0 {
      assert s[1..][i - 1..i - 1 + |sub|] == sub;
      ContainsAt(s[1..], sub, i - 1);
    }
  }

  lemma {:induction false} ContainsWitness(s: string, sub: string) returns (i: nat)
    requires Contains(s, sub)
    ensures i + |sub| <= |s| && s[i..i + |sub|] == sub
  {
    if sub <= s {
      i := 0;
    } else {
      var j := ContainsWitness(s[1..], sub);
      i := j + 1;
      assert s[1..][j..j + |sub|] == s[i..i + |sub|];
    }
  }

  lemma ContainsInPrefix(s: string, sub: string, n: nat)
    requires n <= |s| && Contains(s[..n], sub)
    ensures Contains(s, sub)
  {
    var i := ContainsWitness(s[..n], sub);
    assert s[..n][i..i + |sub|] == s[i..i + |sub|];
    ContainsAt(s, sub, i);
  }

  predicate StartsWith(s: string, prefix: string) { prefix <= s }

  predicate EndsWith(s: string, suffix: string)
  {
    |suffix| <= |s| && s[|s| - |suffix|..] == suffix
  }

  /** Python's `s.split(c)` for a one-character separator. */
  function Split(s: string, c: char): (r: seq<string>)
    ensures |r| >= 1
    ensures forall k :: 0 <= k < |r| ==> c !in r[k]
  {
    if s == [] then [""]
    else if s[0] == c then [""] + Split(s[1..], c)
    else
      var rest := Split(s[1..], c);
      [[s[0]] + rest[0]] + rest[1..]
  }

  /** Index of the first occurrence of `sub` in `s`, as Python's `str.find`. */
  function Find(s: string, sub: string): (r: Option<nat>)
    ensures r.Some? ==> r.value + |sub| <= |s| && s[r.value..r.value + |sub|] == sub
    ensures r.None? ==> !Contains(s, sub)
  {
    if sub <= s then Some(0)
    else if s == [] then None
    else match Find(s[1..], sub)
      case None => None
      case Some(i) => Some(i + 1)
  }

  /** Index of the last occurrence of `c` in `s`, as Python's `str.rfind`. */
  function LastIndexOf(s: string, c: char): (r: Option<nat>)
    ensures r.Some? ==> r.value < |s| && s[r.value] == c && c !in s[r.value + 1..]
    ensures r.None? <==> c !in s
  {
    if s == [] then None
    else if s[|s| - 1] == c then Some(|s| - 1)
    else
      var r := LastIndexOf(s[..|s| - 1], c);
      assert s == s[..|s| - 1] + [s[|s| - 1]];
      r
  }

  /** A `c` with none after it is the one `LastIndexOf` finds. */
  lemma LastIndexOfAt(s: string, c: char, i: nat)
    requires i < |s| && s[i] == c && c !in s[i + 1..]
    ensures LastIndexOf(s, c) == Some(i)
  {
  }

  /** `s.rsplit(c, 1)[-1]`: the text after the last `c`, or all of `s` when it has none. */
  function AfterLast(s: string, c: char): (r: string)
    ensures |r| <= |s| && r == s[|s| - |r|..] && c !in r
    ensures |r| < |s| ==> s[|s| - |r| - 1] == c
  {
    if s == [] || s[|s| - 1] == c then []
    else
      var init := s[..|s| - 1];
      var r := AfterLast(init, c) + [s[|s| - 1]];
      assert init[|init| - (|r| - 1)..] + [s[|s| - 1]] == s[|s| - |r|..];
      r
  }

  /** After a `c` with none following it comes exactly the text `AfterLast` returns. */
  lemma AfterLastAt(s: string, c: char, i: nat)
    requires i < |s| && s[i] == c && c !in s[i + 1..]
    ensures AfterLast(s, c) == s[i + 1..]
  {
  }

  predicate IsDigit(c: char) { '0' <= c <= '9' }

  function DigitsValue(s: string): nat
    requires forall i :: 0 <= i < |s| ==> IsDigit(s[i])
  {
    if s == [] then 0
    else
      assert IsDigit(s[|s| - 1]);
      10 * DigitsValue(s[..|s| - 1]) + (s[|s| - 1] as int - '0' as int)
  }

  /**
   * A decimal integer literal as Python's `int()` reads it: surrounding
   * whitespace, an optional sign, one or more ASCII digits.
   */
  function ParseInt(s: string): Option<int>
  {
    var t := Strip(s);
    var neg := t != [] && t[0] == '-';
    var digits := if t != [] && (t[0] == '-' || t[0] == '+') then t[1..] else t;
    if digits != [] && forall i :: 0 <= i < |digits| ==> IsDigit(digits[i]) then
      var v: int := if neg then 0 - (DigitsValue(digits) as int) else DigitsValue(digits);
      Some(v)
    else None
  }

  function DigitChar(d: nat): char
    requires d < 10
  {
    ('0' as int + d) as char
  }

  function NatToString(n: nat): (r: string)
    ensures r != []
    decreases n
  {
    if n < 10 then [DigitChar(n)] else NatToString(n / 10) + [DigitChar(n % 10)]
  }

  /** Python's `str(n)` for an integer. */
  function IntToString(n: int): string
  {
    if n < 0 then "-" + NatToString(0 - n) else NatToString(n)
  }

  function Pow10(n: nat): (r: nat)
    ensures r >= 1
  {
    if n == 0 then 1 else 10 * Pow10(n - 1)
  }

  predicate AllDigits(s: string)
  {
    forall i :: 0 <= i < |s| ==> IsDigit(s[i])
  }

  /**
   * A decimal literal as Python's `float()` reads it: surrounding
   * whitespace, an optional sign, digits with at most one '.', at least one
   * digit. Exponents, underscores, "inf" and "nan" are not modelled.
   */
  function ParseDecimal(s: string): Option<real>
  {
    var t := Strip(s);
    var neg := t != [] && t[0] == '-';
    var body := if t != [] && (t[0] == '-' || t[0] == '+') then t[1..] else t;
    var magnitude: Option<real> :=
      match Find(body, ".")
      case None =>
        if body != [] && AllDigits(body) then Some(DigitsValue(body) as real) else None
      case Some(i) =>
        var whole, frac := body[..i], body[i + 1..];
        if |whole| + |frac| > 0 && AllDigits(whole) && AllDigits(frac) then
          Some(DigitsValue(whole) as real + (DigitsValue(frac) as real) / (Pow10(|frac|) as real))
        else None;
    match magnitude
    case None => None
    case Some(m) => if neg then Some(0.0 - m) else Some(m)
  }

  /** Text whose first non-blank character is not a sign, digit or '.' is not a number. */
  lemma ParseDecimalRejectsLeadingSymbol(s: string, c: char)
    requires !IsSpace(c) && !IsDigit(c) && c != '-' && c != '+' && c != '.'
    ensures ParseDecimal([c] + s) == None
  {
    var u := [c] + s;
    StripFacts(u);
    var t := Strip(u);
    assert t[0] == c;
    match Find(t, ".")
    case None =>
    case Some(i) =>
      assert t[..i][0] == c;
  }

  /** `os.path.basename`: the text after the last '/'. */
  function BaseName(path: string): (r: string)
    ensures '/' !in r && |r| <= |path| && r == path[|path| - |r|..]
  {
    match LastIndexOf(path, '/')
    case None => path
    case Some(i) => path[i + 1..]
  }

  /** Python's `<=` on strings: code point by code point, a proper prefix first. */
  predicate LexLe(a: string, b: string)
  {
    a == [] || (b != [] && (a[0] < b[0] || (a[0] == b[0] && LexLe(a[1..], b[1..]))))
  }

  /** Any two strings are ordered one way or the other. */
  lemma {:induction false} LexLeTotal(a: string, b: string)
    ensures LexLe(a, b) || LexLe(b, a)
  {
    if a != [] && b != [] && a[0] == b[0] {
      LexLeTotal(a[1..], b[1..]);
    }
  }

  lemma {:induction false} LexLeTrans(a: string, b: string, c: string)
    requires LexLe(a, b) && LexLe(b, c)
    ensures LexLe(a, c)
  {
    if a != [] && b != [] && c != [] && a[0] == b[0] && b[0] == c[0] {
      LexLeTrans(a[1..], b[1..], c[1..]);
    }
  }
}

=== FILE: util.dfy ===
/**
 * Generic helpers shared by the models: an Option type, order-preserving
 * filtering, the subsequence relation, pandas' `head`, counting, and sums of
 * the values of a map (for the per-type counters the tools keep in dicts).
 */
module Util {

  datatype Option<+T> = None | Some(value: T)

  /** Concatenation regroups freely (stated once so that loops over suffixes need not rediscover it). */
  lemma Regroup<T>(a: seq<T>, b: seq<T>, c: seq<T>)
    ensures (a + b) + c == a + (b + c)
  {
  }

  /** A prefix one longer is the prefix and the next element. */
  lemma SliceStep<T>(s: seq<T>, j: nat)
    requires j < |s|
    ensures s[..j + 1] == s[..j] + [s[j]]
  {
  }

  lemma PrefixTrans<T>(a: seq<T>, b: seq<T>, c: seq<T>)
    requires a <= b && b <= c
    ensures a <= c
  {
  }

  /** The elements of `s` that satisfy `p`, in their original order. */
  function Filter<T(==)>(s: seq<T>, p: T -> bool): (r: seq<T>)
    ensures |r| <= |s|
    ensures forall k :: 0 <= k < |r| ==> r[k] in s && p(r[k])
    ensures forall k :: 0 <= k < |s| && p(s[k]) ==> s[k] in r
  {
    if s == [] then []
    else (if p(s[0]) then [s[0]] else []) + Filter(s[1..], p)
  }

  /** `a` can be obtained from `b` by deleting elements (order preserved). */
  predicate IsSubseq<T(==)>(a: seq<T>, b: seq<T>)
    decreases |b|
  {
    if a == [] then true
    else if b == [] then false
    else if a[0] == b[0] then IsSubseq(a[1..], b[1..])
    else IsSubseq(a, b[1..])
  }

  lemma {:induction false} SubseqRefl<T>(a: seq<T>)
    ensures IsSubseq(a, a)
  {
    if a != [] {
      SubseqRefl(a[1..]);
    }
  }

  /** Skipping one more element of the longer sequence keeps the relation. */
  lemma {:induction false} SubseqCons<T>(a: seq<T>, b: seq<T>)
    requires b != [] && IsSubseq(a, b[1..])
    ensures IsSubseq(a, b)
    decreases |b|, 0
  {
    if a != [] && a[0] == b[0] {
      SubseqTail(a, b[1..]);
    }
  }

  /** Dropping the first element of the shorter sequence keeps the relation. */
  lemma {:induction false} SubseqTail<T>(a: seq<T>, b: seq<T>)
    requires a != [] && IsSubseq(a, b)
    ensures IsSubseq(a[1..], b)
    decreases |b|, 1
  {
    if a[0] == b[0] {
      if a[1..] != [] {
        SubseqCons(a[1..], b);
      }
    } else {
      SubseqTail(a, b[1..]);
      if a[1..] != [] {
        SubseqCons(a[1..], b);
      }
    }
  }

  lemma {:induction false} SubseqTrans<T>(a: seq<T>, b: seq<T>, c: seq<T>)
    requires IsSubseq(a, b) && IsSubseq(b, c)
    ensures IsSubseq(a, c)
    decreases |c|
  {
    if a == [] || c == [] {
    } else if b[0] == c[0] {
      if a[0] == b[0] {
        SubseqTrans(a[1..], b[1..], c[1..]);
      } else {
        SubseqTrans(a, b[1..], c[1..]);
      }
    } else {
      SubseqTrans(a, b, c[1..]);
      if a[0] == c[0] {
        SubseqTail(a, c[1..]);
        if a[1..] != [] {
          SubseqCons(a[1..], c);
        }
      }
    }
  }

  /** An element of a subsequence is an element of the sequence. */
  lemma {:induction false} SubseqMember<T>(a: seq<T>, b: seq<T>, x: T)
    requires IsSubseq(a, b) && x in a
    ensures x in b
    decreases |b|
  {
    if a[0] == b[0] {
      if x != a[0] {
        assert x in a[1..];
        SubseqMember(a[1..], b[1..], x);
      }
    } else {
      SubseqMember(a, b[1..], x);
    }
  }

  lemma {:induction false} FilterIsSubseq<T>(s: seq<T>, p: T -> bool)
    ensures IsSubseq(Filter(s, p), s)
  {
    if s != [] {
      var rest := Filter(s[1..], p);
      FilterIsSubseq(s[1..], p);
      if p(s[0]) {
        assert Filter(s, p) == [s[0]] + rest;
        assert ([s[0]] + rest)[1..] == rest;
      } else {
        assert Filter(s, p) == rest;
        if rest != [] {
          SubseqCons(rest, s);
        }
      }
    }
  }

  /** Filtering twice is filtering once by the conjunction. */
  lemma {:induction false} FilterFilter<T>(s: seq<T>, p: T -> bool, q: T -> bool, both: T -> bool)
    requires forall x :: both(x) == (p(x) && q(x))
    ensures Filter(Filter(s, p), q) == Filter(s, both)
  {
    if s != [] {
      FilterFilter(s[1..], p, q, both);
      var rest := Filter(s[1..], p);
      if p(s[0]) {
        assert Filter(s, p) == [s[0]] + rest;
        assert ([s[0]] + rest)[1..] == rest;
      } else {
        assert Filter(s, p) == rest;
      }
    }
  }

  /** Filtering by a predicate that every element satisfies changes nothing. */
  lemma {:induction false} FilterAll<T>(s: seq<T>, p: T -> bool)
    requires forall k :: 0 <= k < |s| ==> p(s[k])
    ensures Filter(s, p) == s
  {
    if s != [] {
      FilterAll(s[1..], p);
    }
  }

  function Min(a: int, b: int): int { if a <= b then a else b }
  function Max(a: int, b: int): int { if a >= b then a else b }

  /**
   * pandas' `head(n)`: the first n rows; a negative n drops the last |n|
   * rows instead.
   */
  function Head<T>(s: seq<T>, n: int): (r: seq<T>)
    ensures r <= s
    ensures n >= 0 ==> |r| == Min(n, |s|)
    ensures n < 0 ==> |r| == Max(0, |s| + n)
  {
    if n >= 0 then s[..Min(n, |s|)] else s[..Max(0, |s| + n)]
  }

  /** Number of occurrences of `x` in `s`. */
  function Count<T(==)>(s: seq<T>, x: T): nat
  {
    if s == [] then 0 else (if s[0] == x then 1 else 0) + Count(s[1..], x)
  }

  lemma {:induction false} CountAppend<T>(s: seq<T>, y: T, x: T)
    ensures Count(s + [y], x) == Count(s, x) + (if y == x then 1 else 0)
  {
    if s != [] {
      assert (s + [y])[1..] == s[1..] + [y];
      CountAppend(s[1..], y, x);
    }
  }

  lemma {:induction false} CountPositiveIsMember<T>(s: seq<T>, x: T)
    ensures Count(s, x) > 0 <==> x in s
  {
    if s != [] {
      CountPositiveIsMember(s[1..], x);
    }
  }

  /** Sum of the values of a finite map. */
  ghost function SumValues<K>(m: map<K, nat>): nat
    decreases |m|
  {
    if m == map[] then 0
    else
      var k :| k in m;
      m[k] + SumValues(m - {k})
  }

  /** The sum does not depend on which key is taken out first. */
  lemma {:induction false} SumValuesRemove<K>(m: map<K, nat>, k: K)
    requires k in m
    ensures SumValues(m) == m[k] + SumValues(m - {k})
    decreases |m|
  {
    var j :| j in m && SumValues(m) == m[j] + SumValues(m - {j});
    if j != k {
      var m' := m - {j};
      assert k in m';
      SumValuesRemove(m', k);
      var m'' := m - {k};
      assert j in m'';
      SumValuesRemove(m'', j);
      assert m' - {k} == m'' - {j};
    }
  }

  /** Adding one to the value of a key (0 when absent) adds one to the sum. */
  lemma {:induction false} SumValuesIncrement<K>(m: map<K, nat>, k: K)
    ensures SumValues(m[k := (if k in m then m[k] else 0) + 1]) == SumValues(m) + 1
  {
    var m' := m[k := (if k in m then m[k] else 0) + 1];
    SumValuesRemove(m', k);
    if k in m {
      SumValuesRemove(m, k);
      assert m' - {k} == m - {k};
    } else {
      assert m' - {k} == m;
    }
  }

  /** `counts` has a key for each value occurring in `s`, holding its number of occurrences, and no other key. */
  ghost predicate Tallies(counts: map<string, nat>, s: seq<string>)
  {
    && (forall u :: u in counts <==> u in s)
    && (forall u :: u in counts ==> counts[u] == Count(s, u))
    && SumValues(counts) == |s|
  }

  /** One more occurrence of `t` keeps the counters equal to the occurrence counts. */
  lemma CounterStep(counts: map<string, nat>, s: seq<string>, t: string)
    requires Tallies(counts, s)
    ensures Tallies(counts[t := (if t in counts then counts[t] else 0) + 1], s + [t])
  {
    var next := counts[t := (if t in counts then counts[t] else 0) + 1];
    forall u | u in next
      ensures next[u] == Count(s + [t], u)
    {
      CountAppend(s, t, u);
      if u != t {
        assert u in counts;
      } else if t !in counts {
        CountPositiveIsMember(s, t);
      }
    }
    SumValuesIncrement(counts, t);
  }

  /** Index of the first occurrence of `x` in `s` (Python's `list.index`, without raising). */
  function IndexOf<T(==)>(s: seq<T>, x: T): (r: Option<nat>)
    ensures r.Some? ==> r.value < |s| && s[r.value] == x && x !in s[..r.value]
    ensures r.None? <==> x !in s
  {
    if s == [] then None
    else if s[0] == x then Some(0)
    else match IndexOf(s[1..], x)
      case None => None
      case Some(i) =>
        assert s[..i + 1] == [s[0]] + s[1..][..i];
        Some(i + 1)
  }

  lemma {:induction false} FilterAppend<T>(a: seq<T>, b: seq<T>, p: T -> bool)
    ensures Filter(a + b, p) == Filter(a, p) + Filter(b, p)
  {
    if a == [] {
      assert a + b == b;
    } else {
      assert (a + b)[0] == a[0];
      assert (a + b)[1..] == a[1..] + b;
      FilterAppend(a[1..], b, p);
    }
  }

  /** A one-element sequence keeps its element exactly when it satisfies the predicate. */
  lemma FilterSingle<T>(x: T, p: T -> bool)
    ensures Filter([x], p) == if p(x) then [x] else []
  {
    assert [x][1..] == [];
  }

  /** An element is kept by `Filter` exactly when it occurs and satisfies the predicate. */
  lemma FilterMember<T>(s: seq<T>, p: T -> bool, x: T)
    ensures x in Filter(s, p) <==> x in s && p(x)
  {
    var r := Filter(s, p);
    if x in r {
      var k :| 0 <= k < |r| && r[k] == x;
    }
    if x in s && p(x) {
      var k :| 0 <= k < |s| && s[k] == x;
    }
  }
}

=== FILE: web_app.dfy ===
/**
 * The web interface's analysis lifecycle: admitting a form submission
 * (topic, links, uploads) into the table of analyses, the background
 * worker's status and progress updates, the status lookup and the
 * interface statistics.
 *
 * Network downloads, saved files and the security validator's
 * observations come in as values: a link's download is a `Fetch`, an
 * uploaded file carries the `FileInfo` of the copy saved on disk. The
 * worker thread runs as a separate call to `RunWorker`, after the request
 * that started it.
 */
module WebApp {
  import opened Util
  import opened Text
  import opened Analyses
  import opened AcademicLogger
  import SV = SecurityValidator

  type FindAll = (string, string) -> seq<string>

  /** An uploaded file: the name the browser sent and what the validator sees in the saved copy. */
  datatype Upload = Upload(filename: string, saved: SV.FileInfo)

  /** A link's download: the HTTP status and the saved temporary file, or the exception `requests` raised. */
  datatype Fetch = Fetched(statusCode: int, saved: SV.FileInfo) | FetchRaised(message: string)

  /** The verdict of the security validator, with its built-in configuration, on each saved file. */
  type Verdict = SV.FileInfo -> bool

  /** `passes` is the validator's verdict for this scan oracle and timestamp. */
  ghost predicate IsValidatorVerdict(passes: Verdict, findAll: FindAll, now: string)
  {
    forall info :: passes(info) == SV.Validation(SV.DefaultConfig, info, findAll, now).valid
  }

  // ---------------------------------------------------------------------
  // File admission

  /** A link line is downloaded when it is non-blank once stripped; it is kept on status 200 and a passing validation. */
  predicate LinkAdmissible(line: string, fetch: string -> Fetch, passes: Verdict)
  {
    var link := Strip(line);
    link != "" && fetch(link).Fetched? && fetch(link).statusCode == 200 && passes(fetch(link).saved)
  }

  function LinkStored(line: string, fetch: string -> Fetch): StoredFile
    requires fetch(Strip(line)).Fetched?
  {
    var saved := fetch(Strip(line)).saved;
    StoredFile(Strip(line), saved.path, saved.sizeBytes)
  }

  /** The files kept from the link lines, in line order. */
  function LinkFiles(lines: seq<string>, fetch: string -> Fetch, passes: Verdict): seq<StoredFile>
  {
    if lines == [] then []
    else
      var last := lines[|lines| - 1];
      LinkFiles(lines[..|lines| - 1], fetch, passes)
        + (if LinkAdmissible(last, fetch, passes) then [LinkStored(last, fetch)] else [])
  }

  /** An upload is saved when it has a name with an allowed extension, and kept when its saved copy passes validation. */
  predicate UploadAdmissible(u: Upload, passes: Verdict)
  {
    u.filename != "" && AllowedFile(u.filename) && passes(u.saved)
  }

  function UploadStored(u: Upload): StoredFile
  {
    StoredFile(u.filename, u.saved.path, u.saved.sizeBytes)
  }

  /** The files kept from the uploads, in upload order. */
  function UploadFiles(uploads: seq<Upload>, passes: Verdict): seq<StoredFile>
  {
    if uploads == [] then []
    else
      var last := uploads[|uploads| - 1];
      UploadFiles(uploads[..|uploads| - 1], passes)
        + (if UploadAdmissible(last, passes) then [UploadStored(last)] else [])
  }

  /** The link lines: the stripped links field split at line breaks; none when the field is blank. */
  function LinkLines(linksField: string): seq<string>
  {
    var links := Strip(linksField);
    if links == "" then [] else Split(links, '\n')
  }

  /** Everything admitted by one submission: the links' files, then the uploads'. */
  function Admitted(linksField: string, uploads: seq<Upload>, fetch: string -> Fetch, passes: Verdict)
    : seq<StoredFile>
  {
    LinkFiles(LinkLines(linksField), fetch, passes) + UploadFiles(uploads, passes)
  }

  /** Every file kept from the links comes from a non-blank line whose download returned 200 and passed validation. */
  lemma {:induction false} LinkFilesSound(lines: seq<string>, fetch: string -> Fetch, passes: Verdict, f: StoredFile)
    requires f in LinkFiles(lines, fetch, passes)
    ensures exists k :: 0 <= k < |lines| && LinkAdmissible(lines[k], fetch, passes) && f == LinkStored(lines[k], fetch)
  {
    var init := lines[..|lines| - 1];
    if f in LinkFiles(init, fetch, passes) {
      LinkFilesSound(init, fetch, passes, f);
      var k :| 0 <= k < |init| && LinkAdmissible(init[k], fetch, passes) && f == LinkStored(init[k], fetch);
      assert lines[k] == init[k];
    } else {
      assert LinkAdmissible(lines[|lines| - 1], fetch, passes);
    }
  }

  /** Every admissible link line yields a kept file. */
  lemma {:induction false} LinkFilesComplete(lines: seq<string>, fetch: string -> Fetch, passes: Verdict, k: nat)
    requires k < |lines| && LinkAdmissible(lines[k], fetch, passes)
    ensures LinkStored(lines[k], fetch) in LinkFiles(lines, fetch, passes)
  {
    var init := lines[..|lines| - 1];
    if k < |init| {
      assert init[k] == lines[k];
      LinkFilesComplete(init, fetch, passes, k);
    }
  }

  /** Every file kept from the uploads comes from an upload with an allowed name whose saved copy passed validation. */
  lemma {:induction false} UploadFilesSound(uploads: seq<Upload>, passes: Verdict, f: StoredFile)
    requires f in UploadFiles(uploads, passes)
    ensures exists k :: 0 <= k < |uploads| && UploadAdmissible(uploads[k], passes) && f == UploadStored(uploads[k])
  {
    var init := uploads[..|uploads| - 1];
    if f in UploadFiles(init, passes) {
      UploadFilesSound(init, passes, f);
      var k :| 0 <= k < |init| && UploadAdmissible(init[k], passes) && f == UploadStored(init[k]);
      assert uploads[k] == init[k];
    } else {
      assert UploadAdmissible(uploads[|uploads| - 1], passes);
    }
  }

  /** Every upload with an allowed name that passes validation is kept. */
  lemma {:induction false} UploadFilesComplete(uploads: seq<Upload>, passes: Verdict, k: nat)
    requires k < |uploads| && UploadAdmissible(uploads[k], passes)
    ensures UploadStored(uploads[k]) in UploadFiles(uploads, passes)
  {
    var init := uploads[..|uploads| - 1];
    if k < |init| {
      assert init[k] == uploads[k];
      UploadFilesComplete(init, passes, k);
    }
  }

  /** The link loop of `_processar_analise`: download each non-blank line, keep a 200 answer that passes validation. */
  method AdmitLinks(lines: seq<string>, fetch: string -> Fetch, findAll: FindAll, passes: Verdict, now: string)
    returns (files: seq<StoredFile>)
    requires IsValidatorVerdict(passes, findAll, now)
    ensures files == LinkFiles(lines, fetch, passes)
  {
    files := [];
    for i := 0 to |lines|
      invariant files == LinkFiles(lines[..i], fetch, passes)
    {
      assert lines[..i + 1][..i] == lines[..i];
      var link := Strip(lines[i]);
      if link != "" {
        match fetch(link)
        case FetchRaised(_) =>
        case Fetched(code, saved) =>
          if code == 200 {
            var validation := SV.ValidateFile(SV.DefaultConfig, saved, findAll, now);
            if validation.valid {
              files := files + [StoredFile(link, saved.path, saved.sizeBytes)];
            }
          }
      }
    }
    assert lines[..|lines|] == lines;
  }

  /** The upload loop of `_processar_analise`: save a named file with an allowed extension, keep it if it passes. */
  method AdmitUploads(uploads: seq<Upload>, findAll: FindAll, passes: Verdict, now: string)
    returns (files: seq<StoredFile>)
    requires IsValidatorVerdict(passes, findAll, now)
    ensures files == UploadFiles(uploads, passes)
  {
    files := [];
    for i := 0 to |uploads|
      invariant files == UploadFiles(uploads[..i], passes)
    {
      assert uploads[..i + 1][..i] == uploads[..i];
      var upload := uploads[i];
      if upload.filename != "" && AllowedFile(upload.filename) {
        var validation := SV.ValidateFile(SV.DefaultConfig, upload.saved, findAll, now);
        if validation.valid {
          files := files + [UploadStored(upload)];
        }
      }
    }
    assert uploads[..|uploads|] == uploads;
  }

  // ---------------------------------------------------------------------
  // The worker

  /** The successive states the worker gives a present record: running (25), processing data (50), then either
      the report (90, with the results) and completion (100), or the error with the progress reached. */
  function WorkerStates(e: Entry, crew: CrewOutcome): seq<Entry>
  {
    var prepared := Prepared(e);
    prepared + Settled(prepared[1], crew)
  }

  /** The two states before the crew runs: running (25), then processing data (50). */
  function Prepared(e: Entry): seq<Entry>
  {
    var running := e.(status := RunningAnalysis, progress := 25);
    [running, running.(status := ProcessingData, progress := 50)]
  }

  /** The states once the crew is done, from the record at processing data. */
  function Settled(processing: Entry, crew: CrewOutcome): seq<Entry>
  {
    match crew
    case CrewRaised(_, message) => [processing.(status := Failed, error := Some(message))]
    case CrewSucceeded(results) =>
      var report := processing.(status := GeneratingReport, progress := 90, results := Some(results));
      [report, report.(status := Completed, progress := 100)]
  }

  /** Progress never goes down along the worker's states, from a record stored at 25 or less; the record's identity
      and files are kept; only the last state is terminal, completed exactly when the crew returned; an error keeps
      the progress the record had reached. */
  lemma WorkerStatesMeaning(e: Entry, crew: CrewOutcome)
    ensures var r := WorkerStates(e, crew);
      && |r| >= 3
      && (e.progress <= 25 ==> e.progress <= r[0].progress)
      && (forall k :: 0 < k < |r| ==> r[k - 1].progress <= r[k].progress)
      && (forall k :: 0 <= k < |r| ==>
            r[k].id == e.id && r[k].topic == e.topic && r[k].files == e.files && r[k].startedAt == e.startedAt)
      && (forall k :: 0 <= k < |r| - 1 ==> r[k].status !in {Completed, Failed})
      && (r[|r| - 1].status == Completed <==> crew.CrewSucceeded?)
      && (r[|r| - 1].status == Failed <==> crew.CrewRaised?)
      && (crew.CrewSucceeded? ==> r[|r| - 1].progress == 100 && r[|r| - 1].results == Some(crew.results))
      && (crew.CrewRaised? ==>
            r[|r| - 1].error == Some(crew.message) && r[|r| - 1].progress == r[|r| - 2].progress
            && r[|r| - 1].results == e.results)
  {
  }

  // ---------------------------------------------------------------------
  // Statistics

  /** The number of files of each analysis. */
  function FileCounts(analyses: map<string, Entry>): (r: map<string, nat>)
    ensures r.Keys == analyses.Keys
    ensures forall id :: id in r ==> r[id] == |analyses[id].files|
  {
    map id | id in analyses :: |analyses[id].files|
  }

  /** Adding an analysis adds its files to the total; updating one without touching its files keeps the total. */
  lemma TotalFilesUpdate(analyses: map<string, Entry>, id: string, e: Entry)
    ensures id !in analyses ==>
      SumValues(FileCounts(analyses[id := e])) == SumValues(FileCounts(analyses)) + |e.files|
    ensures id in analyses && analyses[id].files == e.files ==>
      SumValues(FileCounts(analyses[id := e])) == SumValues(FileCounts(analyses))
  {
    var before, after := FileCounts(analyses), FileCounts(analyses[id := e]);
    SumValuesRemove(after, id);
    if id in analyses {
      SumValuesRemove(before, id);
      assert after - {id} == before - {id};
    } else {
      assert after - {id} == before;
    }
  }

  /** The totals over the keys still to visit. */
  function CountsOver(counts: map<string, nat>, keys: set<string>): (r: map<string, nat>)
    requires keys <= counts.Keys
    ensures r.Keys == keys
  {
    map id | id in keys :: counts[id]
  }

  // ---------------------------------------------------------------------
  // The interface

  class WebInterface {
    /** `analises_ativas`: analysis id to record. */
    var analyses: map<string, Entry>
    /** The process-wide auditor. */
    const auditor: Auditor

    /** The auditor's audit sink is bound, so its calls never raise. */
    predicate Valid()
    {
      auditor.sinkBound
    }

    constructor(auditor: Auditor)
      requires auditor.sinkBound
      ensures Valid() && this.auditor == auditor && analyses == map[]
    {
      this.auditor := auditor;
      analyses := map[];
    }

    /** `_processar_analise`: a blank topic redirects back and stores nothing; otherwise the record is stored as
        files-validated at 25 with exactly the admitted files, the start is audited, and the crew import decides
        between the results page and an audited error (the stored record stays). */
    method ProcessAnalysis(topicField: string, linksField: string, fetch: string -> Fetch, uploads: seq<Upload>,
                           findAll: FindAll, passes: Verdict, id: string, startedAt: string,
                           importError: Option<(string, string)>, now: int)
      returns (reply: FormReply)
      requires Valid()
      requires IsValidatorVerdict(passes, findAll, startedAt)
      modifies this, auditor
      ensures Strip(topicField) == "" ==>
        reply == TopicMissing && analyses == old(analyses) && auditor.events == old(auditor.events)
      ensures Strip(topicField) != "" ==>
        var files := Admitted(linksField, uploads, fetch, passes);
        && analyses == old(analyses)[id := NewEntry(id, Strip(topicField), startedAt).(
             status := FilesValidated, progress := 25, files := files)]
        && auditor.events == old(auditor.events)
             + [StartedEvent(auditor, Strip(topicField), [("arquivos_count", VInt(|files|)), ("analise_id", VStr(id))], now)]
             + (match importError
                case None => []
                case Some(e) => [ErrorEvent(auditor, e.0, e.1, "processar_analise", now)])
        && reply == (match importError case None => ShowResults(id) case Some(e) => FormError(e.1))
    {
      var topic := Strip(topicField);
      if topic == "" {
        return TopicMissing;
      }
      var entry := NewEntry(id, topic, startedAt);

      var fromLinks := AdmitLinks(LinkLines(linksField), fetch, findAll, passes, startedAt);
      var fromUploads := AdmitUploads(uploads, findAll, passes, startedAt);
      var files := fromLinks + fromUploads;
      var _ := auditor.StartAnalysis(topic, Some([("arquivos_count", VInt(|files|)), ("analise_id", VStr(id))]), now);
      entry := entry.(files := files, status := FilesValidated, progress := 25);
      analyses := analyses[id := entry];

      match importError
      case None =>
        reply := ShowResults(id);
      case Some((errorType, message)) =>
        var _ := auditor.RecordError(errorType, message, "processar_analise", now);
        reply := FormError(message);
    }

    /** `analise_worker`: every update applies only while the id is present, and `observed` lists the states the
        record takes, one per update; the crew's error is audited in any case, the completion only for a present
        record. */
    method RunWorker(id: string, crew: CrewOutcome, now: int) returns (observed: seq<Entry>)
      requires Valid()
      modifies this, auditor
      ensures id !in old(analyses) ==> analyses == old(analyses) && observed == []
      ensures id in old(analyses) ==>
        && observed == WorkerStates(old(analyses)[id], crew)
        && analyses == old(analyses)[id := observed[|observed| - 1]]
      ensures auditor.events == old(auditor.events) +
        match crew
        case CrewRaised(errorType, message) => [ErrorEvent(auditor, errorType, message, "analise_" + id, now)]
        case CrewSucceeded(results) =>
          if id in old(analyses)
          then [FinishedEvent(auditor,
                  [("analise_id", VStr(id)), ("progresso_final", VInt(100)), ("resultados_crew", VStr(results))], now)]
          else []
    {
      var prepared := PrepareWorker(id);
      var settled := SettleWorker(id, crew, now);
      observed := prepared + settled;
    }

    /** The worker's first two steps, each applied only if the record is still present. */
    method PrepareWorker(id: string) returns (observed: seq<Entry>)
      modifies this
      ensures id !in old(analyses) ==> analyses == old(analyses) && observed == []
      ensures id in old(analyses) ==>
        observed == Prepared(old(analyses)[id]) && analyses == old(analyses)[id := observed[1]]
    {
      observed := [];
      if id in analyses {
        var e := analyses[id].(status := RunningAnalysis, progress := 25);
        analyses := analyses[id := e];
        observed := observed + [e];
      }
      if id in analyses {
        var e := analyses[id].(status := ProcessingData, progress := 50);
        analyses := analyses[id := e];
        observed := observed + [e];
      }
    }

    /** The worker's steps once the crew is done: the error is audited whether or not the record is present; a
        success is audited only when the record is. */
    method SettleWorker(id: string, crew: CrewOutcome, now: int) returns (observed: seq<Entry>)
      requires Valid()
      modifies this, auditor
      ensures id !in old(analyses) ==> analyses == old(analyses) && observed == []
      ensures id in old(analyses) ==>
        observed == Settled(old(analyses)[id], crew) && analyses == old(analyses)[id := observed[|observed| - 1]]
      ensures auditor.events == old(auditor.events) +
        match crew
        case CrewRaised(errorType, message) => [ErrorEvent(auditor, errorType, message, "analise_" + id, now)]
        case CrewSucceeded(results) =>
          if id in old(analyses)
          then [FinishedEvent(auditor,
                  [("analise_id", VStr(id)), ("progresso_final", VInt(100)), ("resultados_crew", VStr(results))], now)]
          else []
    {
      observed := [];
      match crew
      case CrewRaised(errorType, message) =>
        var _ := auditor.RecordError(errorType, message, "analise_" + id, now);
        if id in analyses {
          var e := analyses[id].(status := Failed, error := Some(message));
          analyses := analyses[id := e];
          observed := observed + [e];
        }
      case CrewSucceeded(results) =>
        if id in analyses {
          var e := analyses[id].(status := GeneratingReport, progress := 90, results := Some(results));
          analyses := analyses[id := e];
          observed := observed + [e];
        }
        if id in analyses {
          var e := analyses[id].(status := Completed, progress := 100);
          analyses := analyses[id := e];
          observed := observed + [e];
          var _ := auditor.FinishAnalysis(true,
            Some([("analise_id", VStr(id)), ("progresso_final", VInt(100)), ("resultados_crew", VStr(results))]), now);
        }
    }

    /** `_get_analise_status`: the record for a known id, 404 otherwise. */
    method GetStatus(id: string) returns (reply: StatusReply)
      ensures reply == NotFound <==> id !in analyses
      ensures reply.Found? ==> reply.entry == analyses[id]
    {
      if id !in analyses {
        return NotFound;
      }
      reply := Found(analyses[id]);
    }

    /** `get_estatisticas`: the number of analyses, their files in total, and the latest start time (None when
        there are no analyses). */
    method Statistics() returns (count: nat, totalFiles: nat, lastActivity: Option<string>)
      ensures count == |analyses|
      ensures totalFiles == SumValues(FileCounts(analyses))
      ensures lastActivity.None? <==> analyses == map[]
      ensures lastActivity.Some? ==>
        (exists id :: id in analyses && analyses[id].startedAt == lastActivity.value)
        && forall id :: id in analyses ==> LexLe(analyses[id].startedAt, lastActivity.value)
    {
      count := |analyses|;
      totalFiles := TotalFiles(analyses);
      lastActivity := LatestStart(analyses);
    }
  }

  /** The sum of the per-analysis file counts, one analysis at a time. */
  method TotalFiles(analyses: map<string, Entry>) returns (total: nat)
    ensures total == SumValues(FileCounts(analyses))
  {
    var counts := FileCounts(analyses);
    var pending := analyses.Keys;
    assert CountsOver(counts, pending) == counts;
    total := 0;
    while pending != {}
      invariant pending <= analyses.Keys
      invariant total + SumValues(CountsOver(counts, pending)) == SumValues(counts)
      decreases |pending|
    {
      var id :| id in pending;
      SumValuesRemove(CountsOver(counts, pending), id);
      assert CountsOver(counts, pending) - {id} == CountsOver(counts, pending - {id});
      total := total + |analyses[id].files|;
      pending := pending - {id};
    }
    assert CountsOver(counts, {}) == map[];
  }

  /** `v` is the start time of one of the records `seen`, and no start time among them is later. */
  ghost predicate LatestOf(analyses: map<string, Entry>, seen: set<string>, v: string)
  {
    && (exists id :: id in seen && id in analyses && analyses[id].startedAt == v)
    && forall id :: id in seen && id in analyses ==> LexLe(analyses[id].startedAt, v)
  }

  /** One step of the maximum: the start time of `id` replaces the latest so far when it is later. */
  method Consider(analyses: map<string, Entry>, ghost seen: set<string>, id: string, latest: Option<string>)
    returns (next: Option<string>)
    requires id in analyses
    requires latest.None? ==> seen == {}
    requires latest.Some? ==> LatestOf(analyses, seen, latest.value)
    ensures next.Some? && LatestOf(analyses, seen + {id}, next.value)
  {
    var started := analyses[id].startedAt;
    match latest {
      case None =>
        LexLeTotal(started, started);
        next := Some(started);
      case Some(current) =>
        if LexLe(started, current) {
          LatestKept(analyses, seen, id, current);
          next := latest;
        } else {
          LatestReplaced(analyses, seen, id, current);
          next := Some(started);
        }
    }
  }

  /** A record that started no later keeps the latest start time. */
  lemma LatestKept(analyses: map<string, Entry>, seen: set<string>, id: string, current: string)
    requires id in analyses && LatestOf(analyses, seen, current) && LexLe(analyses[id].startedAt, current)
    ensures LatestOf(analyses, seen + {id}, current)
  {
    var w :| w in seen && w in analyses && analyses[w].startedAt == current;
    assert w in seen + {id};
  }

  /** A record that started later becomes the latest. */
  lemma LatestReplaced(analyses: map<string, Entry>, seen: set<string>, id: string, current: string)
    requires id in analyses && LatestOf(analyses, seen, current) && !LexLe(analyses[id].startedAt, current)
    ensures LatestOf(analyses, seen + {id}, analyses[id].startedAt)
  {
    var started := analyses[id].startedAt;
    LexLeTotal(started, current);
    LexLeTotal(started, started);
    forall other | other in seen + {id} && other in analyses
      ensures LexLe(analyses[other].startedAt, started)
    {
      if other in seen {
        LexLeTrans(analyses[other].startedAt, current, started);
      }
    }
  }

  /** The greatest start time under string order, None for no analyses. */
  method LatestStart(analyses: map<string, Entry>) returns (latest: Option<string>)
    ensures latest.None? <==> analyses == map[]
    ensures latest.Some? ==>
      (exists id :: id in analyses && analyses[id].startedAt == latest.value)
      && forall id :: id in analyses ==> LexLe(analyses[id].startedAt, latest.value)
  {
    var pending := analyses.Keys;
    latest := None;
    while pending != {}
      invariant pending <= analyses.Keys
      invariant latest.None? ==> pending == analyses.Keys
      invariant latest.Some? ==> LatestOf(analyses, analyses.Keys - pending, latest.value)
      decreases |pending|
    {
      var id :| id in pending;
      latest := Consider(analyses, analyses.Keys - pending, id, latest);
      assert (analyses.Keys - pending) + {id} == analyses.Keys - (pending - {id});
      pending := pending - {id};
    }
  }
}
